=== FILE: README.md ===
# uBlockUnified core, modelled in Dafny

uBlockUnified builds a single uBlock Origin filter list out of lists written
for other ad blockers. This project models the list-building core.

- **Fetching.** A source's downloaded text becomes rules: it is split into
  lines, each line is stripped, and blank lines and lines matching an exclude
  pattern are dropped. Each source has a cache file name, and a cached copy
  is kept only while it is younger than the configured TTL.
- **Conversion.** Every rule is converted to uBlock Origin syntax. The
  converter consults a conversion table: 8 adblocker sources, 24 rule
  patterns and 19 conversion rows, joined and scanned in order.
- **Classification.** A cascade of syntactic tests classifies every rule
  into a rule type, and the rule is filed under that type. Without
  conversion a rule is filed at most once; a rule that conversion changes
  can be filed repeatedly.
- **Configuration.** Validation applies the settings defaults, reports
  missing metadata and source fields, and numbers sources without a
  priority. The enabled sources are sorted by priority.
- **Optimization.** The optimizer flattens the buckets in section order,
  then deduplicates by the text before `$`. It drops rules whose domain an
  earlier rule already covers, drops exceptions with no matching block, and
  sorts the rest.
- **List generation.** The generator writes the header. It re-classifies
  each rule with its own coarser classifier to place it under a section,
  and keeps per-section statistics.

One Dafny module per source file (`Database`, `Transforms`, `Wildcard`,
`RuleConverter`, `RuleOptimizer`, `ListGenerator`, `Config`,
`SourceFetcher`), plus `Strings` and `Text` for the Python string
operations the code relies on (`strip`, `split`, `replace`, `find`,
`splitlines`, `str(int)`) and `Wrappers` for `Option`/`Result`. On the
configuration values the model represents, the exceptions the modelled code raises are explicit `Failure`s:
a `KeyError` from a missing dictionary key, the `IndexError` of the
ClearURLs split, the `TypeError` of comparing a float with a string or
`None`. Two exceptions are left out (see "Left out"): the `TypeError` of
sorting priorities of mixed types, which `Config.EnabledSources` excludes
by its precondition, and the `re.error` of an invalid exclude pattern,
which the total `Matcher` parameter of `SourceFetcher.ProcessContent`
cannot raise. Those values are null, booleans, integers and strings in
sources and settings, and sections whose `name` is a string and whose
`rule_types` is a list of integers, either of which may be absent.

Some of the code's behaviour is easy to miss; the model keeps it as
written:

- **Classifier order.** `classify_rule` tests basic blocking first and
  element hiding before exceptions. So types 7, 8 and 11 are reached only by
  rules holding `#@#` or `#?#` (`RuleConverter.ShadowedTypes`). A `!`
  comment holding `##` is classified as element hiding
  (`RuleConverter.CommentWithHidingIsHiding`).
- **Duplicates in the buckets.** `process_rules` checks the *unconverted*
  rule against the processed set but records the *converted* one. So a rule
  that conversion changes can be filed again and again
  (`RuleConverter.ConvertedRuleRecurs`, `RuleConverter.PiholeRuleRecurs`).
  Without the database no bucket ever holds a rule twice
  (`RuleConverter.ProcessRulesDistinct`).
- **Generator classifier.** The list generator does not reuse the rule
  converter's classifier, and the two disagree. For example, a
  `||…^$removeparam=` rule is filed as type 1 but placed in the type-14
  section (`ListGenerator.RemoveparamRefiled`).
- **Wildcard transform.** The Ghostery wildcard transform replaces only the
  literal text `*example.com*`; it does not handle other domains.
- **Redundancy order.** The redundancy pass keeps the first rule per domain
  in *set iteration order*, which Python does not fix. The model takes that
  order as a parameter.
- **Header total.** The header's "Total rules" counts every optimized rule.
  The statistics' total counts only rules placed under a named section; the
  two agree exactly when every rule has a section
  (`ListGenerator.GenerateStatistics`).
- **Cache file names.** Distinct source names can share one cache file
  (`SourceFetcher.CacheFilesCollide`).
- **Missing typing imports.** `src/list_generator.py` and
  `src/rule_optimizer.py` annotate with `Any` (and `Dict`) without importing
  them, so as written they fail at import time. The model assumes the
  imports are present.

## Model

| member | source | states |
|---|---|---|
| Wildcard.PatternToRegex | src/database.py:281-293 | the generated expression is anchored by `^` and `$` |
| Wildcard.RegexRoundTrip | src/database.py:281-293 | escaping is lossless: the pattern can be read back from the body of its regular expression |
| Wildcard.WildMatchIffFits | src/database.py:269-270 | the matcher accepts a rule exactly when it is the pattern with each `*` replaced by a newline-free run |
| Wildcard.MatchFills | src/database.py:269-270 | a successful match yields the runs that instantiate the pattern into the rule |
| Wildcard.FillsMatch | src/database.py:269-270 | every instance of the pattern with newline-free runs is matched |
| Wildcard.LiteralWildMatch | src/database.py:281-293 | a pattern without `*` wildcard-matches exactly itself |
| Wildcard.LiteralPatternMatches | src/database.py:269-270 | a pattern without `*` matches itself and itself plus a final newline, and nothing else |
| Wildcard.PatternMatchesIffFits | src/database.py:269-270 | on newline-free rules, `re.match` of the anchored expression is exactly the wildcard meaning |
| Wildcard.LiteralMismatch | src/database.py:269-270 | a literal pattern rejects a rule that differs from it at a shared position |
| Wildcard.LiteralStarMatches | src/database.py:269-270 | `lit*` matches `lit` followed by any newline-free text |
| Wildcard.StarWrappedMatchesItself | src/database.py:269-270 | `*lit*` matches its own text when `lit` holds no `*` |
| Wildcard.PatternMatchesPrefix | src/database.py:269-270 | whatever `lit…` matches starts with `lit` |
| Database.PatternAt | src/database.py:104-144 | pattern row `k` has id `k + 1` and the source of its block |
| Database.ConversionAt | src/database.py:150-183 | conversion row `k` has id `k + 1` and refers to pattern row `k + 1` |
| Database.SourceIdFrom | src/database.py:246-247 | a name lookup returns the id of a row carrying that name, and nothing when no row does |
| Database.SourceIdFound | src/database.py:89-98 | a source name is found exactly when it is one of the eight table names |
| Database.SourceIdOfRow | src/database.py:89-98 | each table name finds its own row's id |
| Database.CandidatesAreBlock | src/database.py:256-263 | the join filtered on a source id is exactly that source's block of rows, in id order |
| Database.ConvertRule | src/database.py:240-279 | an unknown source gives `(None, "Source not found")`; for a known source any result carries a rule and another status |
| Database.Outcome | src/database.py:271-277 | a matching row without transform returns the rule as directly compatible; with one, the transform's result as converted, and a transform failure escapes |
| Database.Scan | src/database.py:267-279 | the scan returns the rule unchanged unless it reports `Converted`, and reports one of three statuses |
| Database.FirstMatch | src/database.py:267-270 | the index found is the first row whose pattern matches |
| Database.ScanIsFirstMatch | src/database.py:267-279 | `convert_rule`'s result is decided by the first matching row alone; with none, the rule passes through as assumed compatible |
| Database.LaterRowsIgnored | src/database.py:267-279 | rows after a matching row never change the result |
| Database.ClearUrlsPatternHasSplit | src/database.py:125 | every rule the ClearURLs query pattern matches contains the `/?` its transform splits on |
| Database.ConvertRuleSucceeds | src/database.py:349-353 | the ClearURLs `IndexError` can never escape `convert_rule`, for any rule and source |
| Database.ConvertRuleStatus | src/database.py:240-279 | the status is one of the four texts the converter reports |
| Database.UBlockOriginPassesThrough | src/database.py:138-143 | uBlock Origin has patterns but no conversion rows, so every rule of it passes through as assumed compatible |
| Database.ConvertViaSource | src/database.py:256-263 | converting for the source of row `k` scans exactly that source's block |
| Database.ConvertFirstRow | src/database.py:267-277 | a match on the first row of the block decides the conversion |
| Database.ConvertSecondRow | src/database.py:267-277 | a miss on the first row and a match on the second lets the second decide |
| Database.OutcomeOfHosts | src/database.py:355-359 | a row with the hosts or Pi-hole transform rewrites the rule to `\|\|host^` |
| Database.PiholeConverts | src/database.py:132-133 | a rule matching the Pi-hole host row is converted by the hosts transform |
| Database.PiholeExample | src/database.py:388 | `ads.example.com` for Pi-hole becomes `\|\|ads.example.com^`, converted |
| Database.AdBlockPlusDirect | src/database.py:152 | an AdBlock Plus network filter matching the first row is returned as directly compatible |
| Database.AdGuardCssRow | src/database.py:160 | a rule matching the AdGuard CSS row is rewritten by the CSS transform |
| Database.AdGuardCssConverts | src/database.py:390 | the table's AdGuard CSS rule becomes `example.com##.ad-class` |
| Database.AdGuardScriptletRow | src/database.py:161 | a rule matching the scriptlet row, and not the CSS row before it, is rewritten by the scriptlet transform |
| Database.AdGuardScriptletConverts | src/database.py:391 | the table's AdGuard scriptlet rule becomes `example.com##+js(aopr, adBlockDetected)`, not the conversion row's unabbreviated text |
| Database.ClearUrlsRow | src/database.py:171 | a rule matching the ClearURLs query row is converted by the ClearURLs transform, which succeeds on it |
| Database.HostsFileRow | src/database.py:182 | for the Hosts File source, a line is converted exactly when it matches the table's one loopback line; any other passes through |
| Database.PrivacyBadgerRow | src/database.py:175 | a rule matching the Privacy Badger row gets the `\|\|example.com^$all` template with its leading domain filled in, as converted |
| Database.PrivacyBadgerTemplate | src/database.py:175 | filled with a rule free of `#`, `^` and `$`, the template becomes `\|\|rule^$all` |
| Database.PrivacyBadgerDomain | src/database.py:175 | a matching rule free of `#`, `^` and `$` converts to `\|\|rule^$all` |
| Database.PrivacyBadgerPath | src/database.py:129 | `example.com/w`, for a newline-free `w` without `#`, `^` or `$`, converts to `\|\|example.com/w^$all` |
| Database.GhosteryWildcardRow | src/database.py:121-122 | a rule that misses the tracker row and matches the wildcard row gets the wildcard rewrite, as converted |
| Database.WildcardMatchesItself | src/database.py:122 | the wildcard pattern `*example.com*` matches its own text |
| Database.GhosteryWildcardConverts | src/database.py:168 | the table's Ghostery wildcard `*example.com*` becomes `\|\|example.com^`, converted |
| Database.HostsFileOtherHost | src/database.py:389 | the demonstration's `127.0.0.1 track.example.com` passes through unconverted, as assumed compatible |
| Transforms.CssMatchAtMeaning | src/database.py:302 | the greedy group `(.*)` ends at the last display-none suffix on the same line |
| Transforms.CssHidingShape | src/database.py:300-302 | `domain#$#sel { display: none !important; }` becomes `domain##sel` |
| Transforms.CssHidingNoMarker | src/database.py:300-302 | a rule without `#$#` is left alone |
| Transforms.ScriptletName | src/database.py:313-321 | names absent from the scriptlet map pass through unchanged |
| Transforms.ScriptletAtGroups | src/database.py:306 | a scriptlet match captures two non-empty quote-free groups and covers the whole call text |
| Transforms.ScriptletSearch | src/database.py:306 | `re.search` finds the leftmost position where the scriptlet expression matches |
| Transforms.Scriptlet | src/database.py:304-323 | a rule without the scriptlet opening is returned unchanged |
| Transforms.ScriptletShape | src/database.py:304-323 | `domain#%#//scriptlet("name", "arg")` becomes `domain##+js(mapped, arg)` |
| Transforms.RedirectFrom | src/database.py:325-337 | of the resource names, tried in the map's order, only the first the rule contains is renamed, at every occurrence; with none the rule is unchanged |
| Transforms.RedirectNooptext | src/database.py:325-337 | a redirect naming `nooptext` at its end becomes one naming `1x1.gif` |
| Transforms.GhosteryNetwork | src/database.py:339-343 | the result starts with `\|\|`; a rule without it is wrapped as `\|\|rule^`, one with it is kept |
| Transforms.GhosteryWildcard | src/database.py:345-347 | a rule without `*example.com*` is unchanged |
| Transforms.GhosteryWildcardRewrites | src/database.py:345-347 | the first `*example.com*` becomes `\|\|example.com^`, the text before it is kept, and the rewrite resumes after it |
| Transforms.GhosteryWildcardLeading | src/database.py:345-347 | the same, when the text before the wildcard holds no `*` |
| Transforms.GhosteryWildcardWhole | src/database.py:347 | the wildcard `*example.com*` on its own becomes `\|\|example.com^` |
| Transforms.ClearUrls | src/database.py:349-353 | the transform fails exactly when the rule lacks `/?` |
| Transforms.RemoveChar | src/database.py:352 | removal leaves no occurrence of the character and removes nothing else when it is absent |
| Transforms.ClearUrlsShape | src/database.py:349-353 | `host/?param` becomes `host$removeparam=/param.*/i` with the `*`s of `param` removed |
| Transforms.HostsToNetwork | src/database.py:355-359 | the result is `\|\|…^` around the stripped rule with its address removed |
| Transforms.HostsBareName | src/database.py:355-359 | a bare host name `h` becomes `\|\|h^` |
| Transforms.HostsLine | src/database.py:355-359 | `0.0.0.0 h` or `127.0.0.1 h`, with any whitespace between, becomes `\|\|h^` |
| Transforms.LeadingDomain | src/database.py:362-364 | the captured domain is the longest prefix free of `#`, `^` and `$` |
| Transforms.FillTemplate | src/database.py:361-367 | a template without `example.com` is returned as it is |
| Transforms.FillTemplateRewrites | src/database.py:361-365 | the template's first `example.com` is replaced by the rule's leading domain, the text before it is kept, and filling resumes after it |
| Transforms.FillTemplateLeading | src/database.py:361-365 | the same, when the template text before it holds no `e` |
| Transforms.LeadingDomainWhole | src/database.py:362-364 | a rule free of `#`, `^` and `$` is its own leading domain |
| Transforms.ApplyConversionDefault | src/database.py:361-367 | a function name without a branch of its own gets the filled template |
| Transforms.ApplyConversionWildcard | src/database.py:345-347 | the Ghostery wildcard name dispatches to the wildcard rewrite |
| Transforms.ApplyConversion | src/database.py:295-367 | only the ClearURLs transform can fail, and only on a rule without `/?`; the hosts and Pi-hole names both give the hosts rewrite |
| Strings.Strip | rule_converter.py:66 | `strip` removes exactly the leading and trailing whitespace and leaves a stripped slice |
| Strings.StripStripped | rule_converter.py:66 | stripping already stripped text changes nothing |
| Strings.StripPadded | rule_converter.py:66 | stripping a whitespace-padded stripped text returns that text |
| Strings.SplitHead | src/database.py:310 | `split(sep)[0]` is the text before the first separator, or everything |
| Strings.SplitSecondMeaning | src/database.py:351-352 | `split(sep)[1]` runs from the first separator to the next one or the end |
| Strings.ReplaceAllAt | src/database.py:347 | `replace` rewrites the first occurrence, keeps what precedes it and resumes after it |
| Strings.ReplaceAllSkips | src/database.py:336 | `replace` copies text holding no occurrence and carries on after it |
| RuleConverter.Classify | rule_converter.py:121-173 | the classifier yields only its twelve type ids, and rejects only blank rules and `!` comments |
| RuleConverter.PlainRule | rule_converter.py:121-173 | a rule without `#`, `$` or leading `\|\|`, `@@`, `/` is type 9 if in hosts format, else type 1 unless blank or a comment |
| RuleConverter.CommentUnclassified | rule_converter.py:169-173 | a `!` comment without `#` or `$` is rejected |
| RuleConverter.CommentWithHidingIsHiding | rule_converter.py:129-130 | a `!` comment containing `##` is classified as element hiding |
| RuleConverter.NetworkIsBasic | rule_converter.py:121-122 | `\|\|…^` is type 1 |
| RuleConverter.HidingIsType3 | rule_converter.py:129-130 | element hiding without exception or extended forms is type 3 |
| RuleConverter.ExceptionClassified | rule_converter.py:125-134 | an `@@` rule is type 4, or type 2 when it names `$domain=` without `##` |
| RuleConverter.ShadowedTypes | rule_converter.py:144-158 | a rule of type 7, 8 or 11 contains `#@#` or `#?#` |
| RuleConverter.HostsLineIsType9 | rule_converter.py:152-154 | every line in hosts format is classified as type 9 |
| RuleConverter.HostsLineChars | rule_converter.py:153 | a hosts-format line consists of host-name characters and whitespace and starts with the address's first digit |
| RuleConverter.Convert | rule_converter.py:101-108 | without the database the rule is returned with "Database converter not available"; a non-string source type is not found |
| RuleConverter.ConvertNeverFails | rule_converter.py:104-108 | for the scalar source types the model represents, with the database the "Conversion error" path is never taken, and the result is the database's |
| RuleConverter.InitialBuckets | rule_converter.py:53-56 | one empty bucket for each type id some section lists |
| RuleConverter.ProcessRules | rule_converter.py:40-88 | the buckets are exactly those of the section type ids |
| RuleConverter.StepSound | rule_converter.py:63-79 | one loop step keeps every bucketed rule non-empty, of its bucket's class, and recorded as processed |
| RuleConverter.StepSkips | rule_converter.py:66-79 | a blank rule, an already processed rule or a falsy conversion leaves the state alone; otherwise the converted rule is appended to its class's bucket and recorded |
| RuleConverter.StepTracked | rule_converter.py:76-79 | the processed set is exactly the set of filed rules, and only grows |
| RuleConverter.StepSourcesGood | rule_converter.py:59-79 | over all sources, with an identity converter, every new processed rule is a stripped fetched rule and every classifiable one is processed |
| RuleConverter.StepDistinct | rule_converter.py:67-79 | with an identity converter a step never files a rule a bucket already holds |
| RuleConverter.ProcessedIsBucketed | rule_converter.py:76-79 | every processed rule sits in the bucket of its own class |
| RuleConverter.ProcessRulesSound | rule_converter.py:76-79 | every bucketed rule is non-empty and classifies to its bucket's id |
| RuleConverter.ProcessRulesIdentity | rule_converter.py:40-88 | without conversion, a bucket holds exactly the stripped fetched rules of its class |
| RuleConverter.ProcessRulesDistinct | rule_converter.py:67-79 | without conversion, no bucket holds a rule twice |
| RuleConverter.NoDatabaseIsIdentity | rule_converter.py:101-102 | without the database `convert_rule` returns every rule unchanged |
| RuleConverter.UnknownSourceSkipped | rule_converter.py:71-73 | with the database, rules of a source type the table does not know are all skipped |
| RuleConverter.ConvertedRuleRecurs | rule_converter.py:66-79 | a rule that conversion changes, listed twice, is filed twice |
| RuleConverter.PiholeRuleRecurs | rule_converter.py:66-79 | a Pi-hole source listing `ads.example.com` twice yields `\|\|ads.example.com^` twice |
| Config.MetadataDiagnostics | src/config.py:62-65 | a warning is issued for exactly the required metadata fields that are absent |
| Config.ApplyDefaultsMeaning | src/config.py:79-81 | defaulting adds exactly the default keys, keeps present values, and gives missing keys their default |
| Config.DefaultKeysDistinct | src/config.py:68-76 | the seven defaults have distinct keys |
| Config.ValidatedSettings | src/config.py:68-81 | after validation every default key is present, present keys keep their values, and missing keys hold their default |
| Config.FieldDiagnostics | src/config.py:89-94 | a source's errors name exactly its missing required fields, with its number and name or `Unknown` |
| Config.WithPriorityMeaning | src/config.py:96-98 | a source keeps all its fields and gains only `priority`, set to its 1-based position when it had none |
| Config.ValidatedSource | src/config.py:96-98 | validation keeps every source field, adding only a missing `priority` equal to its position |
| Config.ValidateConfig | src/config.py:59-98 | validation keeps the number of sources, reports "No sources" exactly when there are none, and reports only required metadata fields that are absent |
| Config.MetadataReported | src/config.py:62-65 | a missing-metadata report appears exactly for an absent required field |
| Config.SourceFieldReported | src/config.py:87-94 | a missing-field report for source `i` appears exactly when that source lacks the field |
| Config.EnabledOnly | src/config.py:107 | the filter keeps exactly the enabled sources |
| Config.InsertByPriority | src/config.py:108 | insertion adds the source to the list, as a permutation |
| Config.InsertByPrioritySorted | src/config.py:108 | insertion into a priority-ordered list keeps it ordered |
| Config.InsertByPriorityStable | src/config.py:108 | the inserted source goes before every source of its own priority already in the list, which keeps the rest of their order |
| Config.SortByPriority | src/config.py:108 | sorting is a permutation |
| Config.SortByPriorityMeaning | src/config.py:108 | the sort is ordered by priority |
| Config.SortByPriorityStable | src/config.py:108 | sources of one priority keep their configuration order |
| Config.EnabledSources | src/config.py:100-108 | the result holds exactly the enabled sources |
| Config.EnabledSourcesMeaning | src/config.py:100-108 | the enabled sources sorted by priority, a permutation of them, each priority's sources in configuration order |
| Config.SectionIndexByRuleType | src/config.py:120-123 | the index found is the first section listing the type, and none exactly when no section lists it |
| Config.SectionByRuleType | src/config.py:110-123 | a section is returned exactly when some section lists the type, and it lists it |
| Config.SourceByName | src/config.py:125-138 | the first source with that name is returned, and one is returned exactly when some source has it |
| RuleOptimizer.Flatten | src/rule_optimizer.py:42-44 | a flattened rule belongs to the bucket of a listed type id, and every such rule appears |
| RuleOptimizer.OrderBySections | src/rule_optimizer.py:38-45 | ordering fails with `KeyError("rule_types")` exactly when some section lacks the key |
| RuleOptimizer.OrderBySectionsMembers | src/rule_optimizer.py:38-45 | a rule is in the ordered list exactly when some section lists a type whose bucket holds it |
| RuleOptimizer.DedupMeaning | src/rule_optimizer.py:47-60 | deduplication keeps exactly the rules that come first among those sharing their text before `$` |
| RuleOptimizer.DedupBases | src/rule_optimizer.py:47-60 | no two kept rules share a base, every kept rule is an input rule, and every base is represented |
| RuleOptimizer.RemoveRedundantMeaning | src/rule_optimizer.py:62-76 | the pass removes exactly the rules whose domain key an earlier rule in iteration order already had |
| RuleOptimizer.RemoveRedundantKeeps | src/rule_optimizer.py:62-76 | a rule is kept exactly when no earlier rule in iteration order has its domain key |
| RuleOptimizer.OnePerDomain | src/rule_optimizer.py:62-76 | the pass keeps a subset: cosmetic and wildcard rules stay, each domain keeps exactly one rule |
| RuleOptimizer.ResolveConflictsMeaning | src/rule_optimizer.py:78-92 | an exception survives exactly when its unblocked rule is a blocking rule; blocking rules are untouched |
| RuleOptimizer.ResolveConflictsIdempotent | src/rule_optimizer.py:78-92 | resolving twice equals resolving once |
| RuleOptimizer.KeyLessOrder | src/rule_optimizer.py:36 | the sort key order is irreflexive, transitive, total and asymmetric |
| RuleOptimizer.InsertByKeySorted | src/rule_optimizer.py:36 | insertion keeps the list strictly sorted by the key |
| RuleOptimizer.SortByKeySorted | src/rule_optimizer.py:36 | sorting distinct rules gives a strictly sorted list of the same length |
| RuleOptimizer.SortedUnique | src/rule_optimizer.py:36 | two sorted lists with the same elements are equal, so the output does not depend on iteration order |
| RuleOptimizer.Optimize | src/rule_optimizer.py:23-36 | optimization fails exactly when some section lacks `rule_types` |
| RuleOptimizer.OptimizeMeaning | src/rule_optimizer.py:23-36 | the output is sorted by the key and holds exactly the deduplicated, non-redundant, conflict-free rules |
| ListGenerator.SimpleClassify | src/list_generator.py:74-79 | the generator's class is 3 exactly for `##` rules, 4 exactly for other `@@` rules, 14 exactly for the remaining `$removeparam=` rules, and 1 otherwise |
| ListGenerator.ClassifiersAgree | src/list_generator.py:74-79 | on element hiding and exceptions the generator agrees with the converter's classifier, except exceptions holding `##` |
| ListGenerator.RemoveparamRefiled | src/list_generator.py:74-79 | a `\|\|…^$removeparam=` rule is type 1 for the converter but 14 for the generator |
| ListGenerator.Organize | src/list_generator.py:61-72 | organizing fails with a `KeyError` exactly when some section has no name |
| ListGenerator.OrganizeMeaning | src/list_generator.py:61-72 | the names are the section names, each once, and each list holds the rules whose section has that name, in input order |
| ListGenerator.MatchingMembers | src/list_generator.py:65-70 | a rule is under a name exactly when the first section listing its class has that name |
| ListGenerator.TotalRulesCounts | src/list_generator.py:81-83 | the total counts the rules placed under a section, at most all of them, and all exactly when every rule has a section |
| ListGenerator.StatsOfOrganized | src/list_generator.py:84-85 | the statistics have one entry per section name, equal to the size of its list |
| ListGenerator.Header | src/list_generator.py:44-59 | the header exists exactly when the five metadata keys do, and otherwise the first missing one in reading order is the error |
| ListGenerator.HeaderReadBack | src/list_generator.py:44-59 | split into lines, the header gives back each field after its label, and the total-rules line reads back as the rule count |
| ListGenerator.Generate | src/list_generator.py:28-42 | a header error comes first; generation succeeds exactly when header and organization do, with the header counting every rule |
| ListGenerator.GenerateStatistics | src/list_generator.py:42 | after generation each section name has its list's size, and the total equals the header's count exactly when no rule was left out |
| Text.SplitLines | source_fetcher.py:148 | `splitlines` yields lines without breaks, no more of them than characters |
| Text.SplitJoinLines | source_fetcher.py:148 | splitting undoes joining lines with newlines |
| Text.ParseNatToString | src/list_generator.py:52 | the decimal numeral of a count reads back as that count |
| Text.NatToStringInjective | src/list_generator.py:52 | distinct counts have distinct numerals |
| SourceFetcher.AnyMatch | source_fetcher.py:156 | a line is excluded exactly when some exclude pattern matches it |
| SourceFetcher.FilterLines | source_fetcher.py:154-157 | every kept line is stripped, non-blank and matches no exclude pattern |
| SourceFetcher.ProcessContent | source_fetcher.py:136-159 | every returned rule qualifies and holds no line break |
| SourceFetcher.FilterLinesMeaning | source_fetcher.py:154-159 | the result is the qualifying stripped lines, in their order |
| SourceFetcher.FilterLinesKeepsKept | source_fetcher.py:154-159 | lines that already qualify all pass through |
| SourceFetcher.ProcessContentIdempotent | source_fetcher.py:136-159 | rules written one per line process back into the same rules |
| SourceFetcher.Sanitize | source_fetcher.py:186 | the safe name keeps the length, keeps safe characters and turns others into `_` |
| SourceFetcher.SanitizeSafe | source_fetcher.py:186 | the safe name holds only safe characters, and sanitizing it again changes nothing |
| SourceFetcher.SanitizeFixed | source_fetcher.py:186 | a name is unchanged exactly when all its characters are safe |
| SourceFetcher.CacheFileInDirectory | source_fetcher.py:175-187 | the path is `cache/<stem>.txt` with a stem free of `/` and `.` |
| SourceFetcher.CacheFilesCollide | source_fetcher.py:186-187 | `a b` and `a_b` share a cache file |
| SourceFetcher.CacheValid | source_fetcher.py:189-207 | a missing file is invalid; an integer TTL compares the age; a null or string TTL raises `TypeError` |
| SourceFetcher.CacheExpiryPermanent | source_fetcher.py:203-207 | once expired a cached copy stays expired, and a copy fresh later was fresh earlier |
| SourceFetcher.DefaultCacheDay | source_fetcher.py:203 | with no configured TTL, validation makes a cached copy valid for 86400 seconds |

## Left out

- Config.Section: a section's `name` is a string and its `rule_types` a list of integers, each possibly absent; other JSON shapes are not modelled. A `"rule_types": null` makes Python raise `TypeError` in `process_rules` (rule_converter.py:54-55), `_order_rules_by_sections` (src/rule_optimizer.py:42) and `get_section_by_rule_type` (src/config.py:121). A string `rule_types` makes the optimizer iterate over its characters and the section lookup raise `TypeError`. A non-string `name` works in Python as a dictionary key (src/list_generator.py:63, 70). The model cannot express these inputs.
- SQLite itself is left out. The tables are constant data and the queries are functions over them. The `get_rule_types`, `get_adblocker_sources` and `get_conversion_rules_by_source` read-outs and the `create_database` demo are not modelled.
- General regular expressions are left out. The code's specific expressions are modelled by hand: the wildcard table patterns under Python's `$`, the CSS and scriptlet expressions, and the hosts-line expression. The exclude patterns of `_matches_pattern` are a `Matcher` parameter.
- SourceFetcher.ProcessContent: the exclude patterns are configuration strings passed straight to `re.match` (source_fetcher.py:173). An invalid pattern such as `[` raises `re.error` inside `_process_source_content`, and nothing catches it before `fetch_all_sources` (source_fetcher.py:76-77). The total `Matcher` parameter cannot express that exception, so the model does not promise a `Failure` for it.
- `str.isalnum` is a parameter of the cache-name functions, because Unicode tables are not modelled.
- HTTP fetching, retries, the thread pool and cache file reads and writes are left out. So are JSON loading, output file writing, the logger, the error handler's counters and the command line.
- `os.path.exists`, the file's modification time and the clock are parameters. Times are `real` and floating-point rounding is not modelled.
- The last-updated timestamp is a string parameter, because the wall clock is not modelled.
- Metadata values are strings. A non-string value in the configuration would be formatted by `str()`, which is not modelled.
- Config.EnabledSources: requires every source's priority to be an integer, a boolean or absent. Python's `sorted` raises `TypeError` when it compares a string priority with a number, and that case is not modelled. The precondition also excludes inputs Python handles without error: a single enabled source with a string priority (nothing is compared), all-string priorities (sorted lexicographically), and string priorities on disabled sources (they never reach the sort).
- RuleOptimizer.RemoveRedundant: the iteration order of the Python set is a parameter (`order`), because it depends on string hashing.
- RuleOptimizer.Optimize: models `optimize` on a fresh optimizer only. A second call on the same object would start from the rules left by the first.
- ListGenerator.Generate: models one call on a fresh generator. Its statistics are produced for that call, not accumulated over earlier calls.
- ListGenerator.GenerateStatistics: the text written after the header (section titles and rules) is not modelled; only its structure and the statistics are.
- Config.ValidateConfig: the handled errors and warnings are a list of diagnostics. Whether the error handler then exits is not modelled.
- SourceFetcher.CacheValid: a boolean TTL is compared as 0 or 1, and a float TTL is not modelled, since the configuration values are integers, booleans, strings or null.
- The conversion transforms named by rows 15 and 16 have no branch of their own, and they fall to the default branch as the code does.
- RuleConverter.ConvertNeverFails: the "Conversion error" path is modelled, and proved unreachable only for the configuration values the model represents.
- List, object and float configuration values are not modelled. A list or object source `type` would make SQLite's parameter binding raise, and `convert_rule` would then return `("", "Conversion error")`; the model cannot express that input.

=== FILE: config.dfy ===
/** The configuration manager after `sources.json` is loaded: metadata
    strings, settings and sources as JSON objects, and the list sections.
    `_validate_config` fills in defaults and reports what is missing;
    the lookups pick sources and sections. */
module Config {
  import opened Wrappers

  /** A JSON scalar of the configuration file. */
  datatype Value = Null | Bool(b: bool) | Int(i: int) | Str(s: string)

  /** Python truthiness of a scalar. */
  predicate Truthy(v: Value) {
    match v
    case Null => false
    case Bool(b) => b
    case Int(i) => i != 0
    case Str(s) => |s| > 0
  }

  /** A JSON object: a source, or the settings. */
  type Object = map<string, Value>

  /** `obj.get(key, default)` */
  function Get(obj: Object, key: string, default: Value): Value {
    if key in obj then obj[key] else default
  }

  /** A list section; a configuration file may leave out either field. */
  datatype Section = Section(name: Option<string>, ruleTypes: Option<seq<int>>)

  /** `section.get("rule_types", [])` */
  function TypesOf(s: Section): seq<int> {
    s.ruleTypes.GetOr([])
  }

  // ---------------------------------------------------------------------
  // _validate_config

  const RequiredMetadata: seq<string> := ["title", "description", "author"]
  const RequiredSourceFields: seq<string> := ["name", "type", "url", "enabled"]

  /** The settings defaults, in the order the dictionary lists them. */
  const DefaultSettings: seq<(string, Value)> := [
    ("cache_ttl", Int(86400)),
    ("max_retries", Int(3)),
    ("retry_delay", Int(5)),
    ("timeout", Int(30)),
    ("user_agent", Str("uBlock-Unified-List-Generator/1.0")),
    ("parallel_downloads", Int(5)),
    ("output_file", Str("ublock-unified-list.txt"))
  ]

  /** What validation reports, in the order it reports it: a warning per
      missing metadata field, then the handled `ValueError`s. `index` is the
      1-based source number and `name` the source's name or `Unknown`. */
  datatype Diagnostic =
    | MissingMetadata(field: string)
    | NoSources
    | MissingSourceField(field: string, index: nat, name: Value)

  datatype Validated = Validated(settings: Object, sources: seq<Object>, diagnostics: seq<Diagnostic>)

  /** Warnings for the required metadata fields absent from `metadata`. */
  function MetadataDiagnostics(metadata: map<string, string>, fields: seq<string>): (r: seq<Diagnostic>)
    ensures forall d | d in r :: d.MissingMetadata? && d.field in fields && d.field !in metadata
    ensures forall f | f in fields && f !in metadata :: MissingMetadata(f) in r
  {
    if |fields| == 0 then []
    else
      (if fields[0] !in metadata then [MissingMetadata(fields[0])] else [])
      + MetadataDiagnostics(metadata, fields[1..])
  }

  /** Missing settings keys take their default; present ones are kept. */
  function ApplyDefaults(settings: Object, defaults: seq<(string, Value)>): (r: Object)
    decreases |defaults|
  {
    if |defaults| == 0 then settings
    else
      var (k, v) := defaults[0];
      ApplyDefaults(if k in settings then settings else settings[k := v], defaults[1..])
  }

  /** Defaulting adds exactly the default keys, keeps every value already
      present, and gives each added key the first default listed for it. */
  lemma ApplyDefaultsMeaning(settings: Object, defaults: seq<(string, Value)>)
    ensures ApplyDefaults(settings, defaults).Keys == settings.Keys + set d | d in defaults :: d.0
    ensures forall k | k in settings :: ApplyDefaults(settings, defaults)[k] == settings[k]
    ensures forall i | 0 <= i < |defaults| && defaults[i].0 !in settings
                       && (forall j | 0 <= j < i :: defaults[j].0 != defaults[i].0) ::
              ApplyDefaults(settings, defaults)[defaults[i].0] == defaults[i].1
  {
    ApplyDefaultsKeys(settings, defaults);
    ApplyDefaultsKeeps(settings, defaults);
    forall i | 0 <= i < |defaults| && defaults[i].0 !in settings
               && (forall j | 0 <= j < i :: defaults[j].0 != defaults[i].0)
      ensures ApplyDefaults(settings, defaults)[defaults[i].0] == defaults[i].1
    {
      ApplyDefaultsFirst(settings, defaults, i);
    }
  }

  lemma {:induction false} ApplyDefaultsKeys(settings: Object, defaults: seq<(string, Value)>)
    ensures ApplyDefaults(settings, defaults).Keys == settings.Keys + set d | d in defaults :: d.0
    decreases |defaults|
  {
    if |defaults| > 0 {
      var (k, v) := defaults[0];
      var next := if k in settings then settings else settings[k := v];
      ApplyDefaultsKeys(next, defaults[1..]);
      assert (set d | d in defaults :: d.0) == {k} + set d | d in defaults[1..] :: d.0 by {
        assert forall d | d in defaults :: d == defaults[0] || d in defaults[1..];
      }
    }
  }

  lemma {:induction false} ApplyDefaultsKeeps(settings: Object, defaults: seq<(string, Value)>)
    ensures forall k | k in settings :: k in ApplyDefaults(settings, defaults)
    ensures forall k | k in settings :: ApplyDefaults(settings, defaults)[k] == settings[k]
    decreases |defaults|
  {
    if |defaults| > 0 {
      var (k, v) := defaults[0];
      var next := if k in settings then settings else settings[k := v];
      ApplyDefaultsKeeps(next, defaults[1..]);
    }
  }

  /** The first default for a key the settings lack is the one applied. */
  lemma {:induction false} ApplyDefaultsFirst(settings: Object, defaults: seq<(string, Value)>, i: nat)
    requires i < |defaults| && defaults[i].0 !in settings
    requires forall j | 0 <= j < i :: defaults[j].0 != defaults[i].0
    ensures defaults[i].0 in ApplyDefaults(settings, defaults)
    ensures ApplyDefaults(settings, defaults)[defaults[i].0] == defaults[i].1
    decreases |defaults|
  {
    var (k, v) := defaults[0];
    var next := if k in settings then settings else settings[k := v];
    if i == 0 {
      ApplyDefaultsKeeps(next, defaults[1..]);
    } else {
      assert defaults[i] == defaults[1..][i - 1];
      assert defaults[i].0 !in next;
      forall j | 0 <= j < i - 1 ensures defaults[1..][j].0 != defaults[1..][i - 1].0 {
        assert defaults[1..][j] == defaults[j + 1];
      }
      ApplyDefaultsFirst(next, defaults[1..], i - 1);
    }
  }

  /** The handled errors for a list of sources numbered from `i + 1`. */
  function SourceDiagnostics(sources: seq<Object>, fields: seq<string>, i: nat): (r: seq<Diagnostic>)
    ensures forall d | d in r :: d.MissingSourceField?
    decreases |sources|
  {
    if |sources| == 0 then []
    else FieldDiagnostics(sources[0], fields, i + 1) + SourceDiagnostics(sources[1..], fields, i + 1)
  }

  function FieldDiagnostics(source: Object, fields: seq<string>, index: nat): (r: seq<Diagnostic>)
    ensures forall d | d in r :: d.MissingSourceField? && d.index == index && d.field in fields
    ensures forall d | d in r :: d.field !in source && d.name == Get(source, "name", Str("Unknown"))
    ensures forall f | f in fields && f !in source ::
              MissingSourceField(f, index, Get(source, "name", Str("Unknown"))) in r
  {
    if |fields| == 0 then []
    else
      (if fields[0] !in source then [MissingSourceField(fields[0], index, Get(source, "name", Str("Unknown")))] else [])
      + FieldDiagnostics(source, fields[1..], index)
  }

  /** A source without `priority` gets its 1-based position. */
  function WithPriority(source: Object, i: nat): Object {
    if "priority" in source then source else source["priority" := Int(i + 1)]
  }

  function AddPriorities(sources: seq<Object>): (r: seq<Object>)
    ensures |r| == |sources|
    ensures forall i | 0 <= i < |r| :: r[i] == WithPriority(sources[i], i)
  {
    seq(|sources|, i requires 0 <= i < |sources| => WithPriority(sources[i], i))
  }

  /** `_validate_config`: its effect on the settings and sources and what it
      reports, in order. */
  function ValidateConfig(metadata: map<string, string>, settings: Object, sources: seq<Object>): (r: Validated)
    ensures |r.sources| == |sources|
    ensures NoSources in r.diagnostics <==> |sources| == 0
    ensures forall d | d in r.diagnostics && d.MissingMetadata? :: d.field in RequiredMetadata && d.field !in metadata
  {
    Validated(ApplyDefaults(settings, DefaultSettings), AddPriorities(sources), Report(metadata, sources))
  }

  /** Everything validation reports, in order. */
  function Report(metadata: map<string, string>, sources: seq<Object>): (r: seq<Diagnostic>)
    ensures NoSources in r <==> |sources| == 0
  {
    MetadataDiagnostics(metadata, RequiredMetadata)
    + ((if |sources| == 0 then [NoSources] else []) + SourceDiagnostics(sources, RequiredSourceFields, 0))
  }

  /** Each setting has one default: the keys differ in their first letter. */
  lemma DefaultKeysDistinct()
    ensures forall i, j | 0 <= i < j < |DefaultSettings| :: DefaultSettings[i].0 != DefaultSettings[j].0
  {
    var firsts := seq(|DefaultSettings|, i requires 0 <= i < |DefaultSettings| => DefaultSettings[i].0[0]);
    assert firsts == "cmrtupo";
  }

  /** After validation every default key is present, keys already present
      keep their values, and a key that was missing holds its default. */
  lemma ValidatedSettings(metadata: map<string, string>, settings: Object, sources: seq<Object>)
    ensures var s := ValidateConfig(metadata, settings, sources).settings;
      && (forall d | d in DefaultSettings :: d.0 in s)
      && (forall k | k in settings :: k in s && s[k] == settings[k])
      && (forall d | d in DefaultSettings && d.0 !in settings :: s[d.0] == d.1)
      && s.Keys == settings.Keys + set d | d in DefaultSettings :: d.0
  {
    ApplyDefaultsMeaning(settings, DefaultSettings);
    DefaultKeysDistinct();
    var s := ValidateConfig(metadata, settings, sources).settings;
    forall d | d in DefaultSettings && d.0 !in settings ensures s[d.0] == d.1 {
      var i :| 0 <= i < |DefaultSettings| && DefaultSettings[i] == d;
    }
  }

  /** Validation keeps every source and every field of it, adding only a
      missing `priority`, which is the source's 1-based position. */
  lemma ValidatedSource(metadata: map<string, string>, settings: Object, sources: seq<Object>, i: nat)
    requires i < |sources|
    ensures var r := ValidateConfig(metadata, settings, sources).sources;
      && |r| == |sources|
      && r[i].Keys == sources[i].Keys + {"priority"}
      && (forall k | k in sources[i] :: r[i][k] == sources[i][k])
      && ("priority" !in sources[i] ==> r[i]["priority"] == Int(i + 1))
  {
    var r := ValidateConfig(metadata, settings, sources).sources;
    assert r == AddPriorities(sources);
    assert r[i] == WithPriority(sources[i], i);
    WithPriorityMeaning(sources[i], i);
  }

  lemma WithPriorityMeaning(source: Object, i: nat)
    ensures WithPriority(source, i).Keys == source.Keys + {"priority"}
    ensures forall k | k in source :: WithPriority(source, i)[k] == source[k]
    ensures "priority" !in source ==> WithPriority(source, i)["priority"] == Int(i + 1)
  {
    if "priority" in source {
      assert source.Keys + {"priority"} == source.Keys;
    }
  }

  /** A report names a missing metadata field exactly when it is one of the
      three required and absent. */
  lemma MetadataReported(metadata: map<string, string>, settings: Object, sources: seq<Object>, f: string)
    ensures MissingMetadata(f) in ValidateConfig(metadata, settings, sources).diagnostics
        <==> f in RequiredMetadata && f !in metadata
  {
    var md := MetadataDiagnostics(metadata, RequiredMetadata);
    var rest := (if |sources| == 0 then [NoSources] else []) + SourceDiagnostics(sources, RequiredSourceFields, 0);
    assert Report(metadata, sources) == md + rest;
    assert MissingMetadata(f) !in rest;
  }

  /** A report names a missing source field exactly when that source lacks
      it, giving the source's 1-based number and its name. */
  lemma SourceFieldReported(metadata: map<string, string>, settings: Object, sources: seq<Object>, i: nat, f: string)
    requires i < |sources| && f in RequiredSourceFields
    ensures MissingSourceField(f, i + 1, Get(sources[i], "name", Str("Unknown")))
              in ValidateConfig(metadata, settings, sources).diagnostics
        <==> f !in sources[i]
  {
    var md := MetadataDiagnostics(metadata, RequiredMetadata);
    var sd := SourceDiagnostics(sources, RequiredSourceFields, 0);
    var d := MissingSourceField(f, i + 1, Get(sources[i], "name", Str("Unknown")));
    SourceDiagnosticsMeaning(sources, RequiredSourceFields, 0, i, f);
    assert d in sd <==> f !in sources[i];
    assert Report(metadata, sources) == md + ((if |sources| == 0 then [NoSources] else []) + sd);
    assert d !in md;
  }

  /** The reports for source `i` come from that source alone. */
  lemma {:induction false} SourceDiagnosticsMeaning(sources: seq<Object>, fields: seq<string>, base: nat, i: nat, f: string)
    requires i < |sources| && f in fields
    ensures MissingSourceField(f, base + i + 1, Get(sources[i], "name", Str("Unknown")))
              in SourceDiagnostics(sources, fields, base)
        <==> f !in sources[i]
    decreases |sources|
  {
    var d := MissingSourceField(f, base + i + 1, Get(sources[i], "name", Str("Unknown")));
    var head := FieldDiagnostics(sources[0], fields, base + 1);
    var tail := SourceDiagnostics(sources[1..], fields, base + 1);
    assert SourceDiagnostics(sources, fields, base) == head + tail;
    if i == 0 {
      SourceDiagnosticsIndex(sources[1..], fields, base + 1);
      assert d.index == base + 1;
    } else {
      assert d !in head;
      assert sources[1..][i - 1] == sources[i];
      SourceDiagnosticsMeaning(sources[1..], fields, base + 1, i - 1, f);
    }
  }

  /** Reports for sources numbered from `base + 1` carry numbers above `base`. */
  lemma {:induction false} SourceDiagnosticsIndex(sources: seq<Object>, fields: seq<string>, base: nat)
    ensures forall d | d in SourceDiagnostics(sources, fields, base) :: d.index > base
    decreases |sources|
  {
    if |sources| > 0 {
      SourceDiagnosticsIndex(sources[1..], fields, base + 1);
    }
  }

  // ---------------------------------------------------------------------
  // get_enabled_sources

  /** `s.get("enabled", True)` is truthy. */
  predicate Enabled(s: Object) {
    Truthy(Get(s, "enabled", Bool(true)))
  }

  /** A priority `sorted` can compare with integers: an integer, a boolean
      (a Python `int`), or absent. */
  predicate NumericPriority(s: Object) {
    "priority" !in s || s["priority"].Int? || s["priority"].Bool?
  }

  /** `s.get("priority", 999)` as an integer; other values are outside
      the model (see `EnabledSources`). */
  function Priority(s: Object): int
  {
    match Get(s, "priority", Int(999))
    case Int(i) => i
    case Bool(b) => if b then 1 else 0
    case _ => 999
  }

  function EnabledOnly(sources: seq<Object>): (r: seq<Object>)
    ensures |r| <= |sources|
    ensures forall s | s in r :: s in sources && Enabled(s)
    ensures forall s | s in sources && Enabled(s) :: s in r
  {
    if |sources| == 0 then []
    else (if Enabled(sources[0]) then [sources[0]] else []) + EnabledOnly(sources[1..])
  }

  predicate SortedByPriority(s: seq<Object>)
  {
    forall i, j | 0 <= i < j < |s| :: Priority(s[i]) <= Priority(s[j])
  }

  /** `x` placed before the first element whose priority is not below its
      own. */
  function InsertByPriority(x: Object, s: seq<Object>): (r: seq<Object>)
    ensures multiset(r) == multiset(s) + multiset{x}
    ensures forall y | y in r :: y == x || y in s
  {
    if |s| == 0 then [x]
    else if Priority(x) <= Priority(s[0]) then [x] + s
    else
      assert s == [s[0]] + s[1..];
      [s[0]] + InsertByPriority(x, s[1..])
  }

  lemma SortedCons(h: Object, r: seq<Object>)
    requires SortedByPriority(r)
    requires forall y | y in r :: Priority(h) <= Priority(y)
    ensures SortedByPriority([h] + r)
  {
    var t := [h] + r;
    forall i, j | 0 <= i < j < |t| ensures Priority(t[i]) <= Priority(t[j]) {
      assert t[j] == r[j - 1];
      if i > 0 {
        assert t[i] == r[i - 1];
      }
    }
  }

  lemma SortedHeadLeast(s: seq<Object>)
    requires SortedByPriority(s) && |s| > 0
    ensures forall y | y in s :: Priority(s[0]) <= Priority(y)
  {
    forall y | y in s ensures Priority(s[0]) <= Priority(y) {
      var k :| 0 <= k < |s| && s[k] == y;
      if k > 0 {
        assert Priority(s[0]) <= Priority(s[k]);
      }
    }
  }

  lemma {:induction false} InsertByPrioritySorted(x: Object, s: seq<Object>)
    requires SortedByPriority(s)
    ensures SortedByPriority(InsertByPriority(x, s))
  {
    if |s| > 0 {
      SortedHeadLeast(s);
      if Priority(x) <= Priority(s[0]) {
        SortedCons(x, s);
      } else {
        assert SortedByPriority(s[1..]);
        InsertByPrioritySorted(x, s[1..]);
        var r := InsertByPriority(x, s[1..]);
        assert forall y | y in s[1..] :: y in s;
        SortedCons(s[0], r);
      }
    }
  }

  /** `sorted(sources, key=priority)`: Python's sort is stable, which
      inserting each source ahead of its equals reproduces. */
  function SortByPriority(s: seq<Object>): (r: seq<Object>)
    ensures multiset(r) == multiset(s)
  {
    if |s| == 0 then []
    else
      assert s == [s[0]] + s[1..];
      InsertByPriority(s[0], SortByPriority(s[1..]))
  }

  /** `get_enabled_sources`, for sources whose priorities are numbers. */
  function EnabledSources(sources: seq<Object>): (r: seq<Object>)
    requires forall s | s in sources :: NumericPriority(s)
    ensures forall s | s in r :: s in sources && Enabled(s)
    ensures forall s | s in sources && Enabled(s) :: s in r
  {
    var e := EnabledOnly(sources);
    var r := SortByPriority(e);
    assert forall y | y in r :: y in multiset(r) && y in multiset(e);
    assert forall y | y in e :: y in multiset(e) && y in multiset(r);
    r
  }

  /** The priority sort is ordered and a permutation of the enabled
      sources. */
  lemma {:induction false} SortByPriorityMeaning(s: seq<Object>)
    ensures SortedByPriority(SortByPriority(s))
  {
    if |s| > 0 {
      SortByPriorityMeaning(s[1..]);
      InsertByPrioritySorted(s[0], SortByPriority(s[1..]));
    }
  }

  /** The sources of one priority, in their listed order. */
  function WithKey(s: seq<Object>, key: int): (r: seq<Object>)
    ensures forall y | y in r :: y in s && Priority(y) == key
  {
    if |s| == 0 then []
    else (if Priority(s[0]) == key then [s[0]] else []) + WithKey(s[1..], key)
  }

  lemma {:induction false} InsertByPriorityStable(x: Object, s: seq<Object>, key: int)
    requires SortedByPriority(s)
    ensures WithKey(InsertByPriority(x, s), key)
         == (if Priority(x) == key then [x] else []) + WithKey(s, key)
  {
    if |s| == 0 {
      assert InsertByPriority(x, s) == [x] + s;
      WithKeyCons(x, s, key);
    } else if Priority(x) <= Priority(s[0]) {
      assert InsertByPriority(x, s) == [x] + s;
      WithKeyCons(x, s, key);
    } else {
      var r := InsertByPriority(x, s[1..]);
      assert InsertByPriority(x, s) == [s[0]] + r;
      WithKeyCons(s[0], r, key);
      SortedTail(s);
      InsertByPriorityStable(x, s[1..], key);
      // x sorts after s[0], so at most one of them has the key
      SwapEmpty(if Priority(s[0]) == key then [s[0]] else [],
                if Priority(x) == key then [x] else [],
                WithKey(s[1..], key));
    }
  }

  lemma SortedTail(s: seq<Object>)
    requires SortedByPriority(s) && |s| > 0
    ensures SortedByPriority(s[1..])
  {
    assert forall i | 0 <= i < |s| - 1 :: s[1..][i] == s[i + 1];
  }

  lemma WithKeyCons(y: Object, t: seq<Object>, key: int)
    ensures WithKey([y] + t, key) == (if Priority(y) == key then [y] else []) + WithKey(t, key)
  {
    assert ([y] + t)[1..] == t;
  }

  lemma SwapEmpty<T>(h: seq<T>, m: seq<T>, rest: seq<T>)
    requires h == [] || m == []
    ensures h + (m + rest) == m + (h + rest)
  {
  }

  /** `sorted` is stable: the sources sharing a priority keep the order in
      which the configuration lists them. */
  lemma {:induction false} SortByPriorityStable(s: seq<Object>, key: int)
    ensures WithKey(SortByPriority(s), key) == WithKey(s, key)
  {
    if |s| > 0 {
      SortByPriorityStable(s[1..], key);
      SortByPriorityMeaning(s[1..]);
      InsertByPriorityStable(s[0], SortByPriority(s[1..]), key);
    }
  }

  /** `get_enabled_sources` returns the enabled sources, ordered by
      priority, each priority's sources in configuration order. */
  lemma EnabledSourcesMeaning(sources: seq<Object>, key: int)
    requires forall s | s in sources :: NumericPriority(s)
    ensures SortedByPriority(EnabledSources(sources))
    ensures multiset(EnabledSources(sources)) == multiset(EnabledOnly(sources))
    ensures WithKey(EnabledSources(sources), key) == WithKey(EnabledOnly(sources), key)
  {
    var e := EnabledOnly(sources);
    SortByPriorityMeaning(e);
    SortByPriorityStable(e, key);
  }

  // ---------------------------------------------------------------------
  // get_section_by_rule_type, get_source_by_name

  /** Index of the first section listing `ruleType`. */
  function SectionIndexByRuleType(sections: seq<Section>, ruleType: int): (r: Option<nat>)
    ensures r.Some? ==> r.value < |sections| && ruleType in TypesOf(sections[r.value])
    ensures r.Some? ==> forall j | 0 <= j < r.value :: ruleType !in TypesOf(sections[j])
    ensures r.None? <==> forall j | 0 <= j < |sections| :: ruleType !in TypesOf(sections[j])
  {
    if |sections| == 0 then None
    else if ruleType in TypesOf(sections[0]) then Some(0)
    else
      match SectionIndexByRuleType(sections[1..], ruleType)
      case None => None
      case Some(j) => Some(j + 1)
  }

  /** `get_section_by_rule_type` */
  function SectionByRuleType(sections: seq<Section>, ruleType: int): (r: Option<Section>)
    ensures r.Some? <==> exists s | s in sections :: ruleType in TypesOf(s)
    ensures r.Some? ==> r.value in sections && ruleType in TypesOf(r.value)
  {
    match SectionIndexByRuleType(sections, ruleType)
    case None => None
    case Some(i) => Some(sections[i])
  }

  /** `source.get("name") == name` */
  predicate Named(source: Object, name: string) {
    "name" in source && source["name"] == Str(name)
  }

  /** `get_source_by_name`: the first source with that name. */
  function SourceByName(sources: seq<Object>, name: string): (r: Option<Object>)
    ensures r.Some? <==> exists s | s in sources :: Named(s, name)
    ensures r.Some? ==> Named(r.value, name)
    ensures r.Some? ==> exists i | 0 <= i < |sources| ::
      sources[i] == r.value && forall j | 0 <= j < i :: !Named(sources[j], name)
  {
    if |sources| == 0 then None
    else if Named(sources[0], name) then Some(sources[0])
    else
      var r := SourceByName(sources[1..], name);
      assert forall s | s in sources[1..] :: s in sources;
      assert forall s | s in sources && s != sources[0] :: s in sources[1..];
      if r.Some? then
        var i :| 0 <= i < |sources[1..]| && sources[1..][i] == r.value
                 && forall j | 0 <= j < i :: !Named(sources[1..][j], name);
        assert sources[i + 1] == r.value;
        assert forall j | 1 <= j < i + 1 :: sources[j] == sources[1..][j - 1];
        r
      else r
  }
}

=== FILE: database.dfy ===
/** The conversion dictionary of `UBlockRuleConverter`: the adblocker
    sources, the rule patterns each source is known for, the conversion row
    attached to each pattern, and `convert_rule`, which tries the patterns of
    one source in table order and converts the rule with the first that
    matches. The SQLite tables are written out as constant rows in row-id
    order. */
module Database {
  import opened Wrappers
  import opened Strings
  import opened Wildcard
  import opened Transforms

  // ---------------------------------------------------------------------
  // Tables

  /** A row of `adblocker_sources` (the description column is not read by
      any conversion). */
  datatype Source = Source(id: nat, name: string)

  const SourceCount: nat := 8

  /** `adblocker_sources`, row `k` in id order. */
  function SourceAt(k: nat): Source
    requires k < SourceCount
  {
    if k == 0 then Source(1, "AdBlock Plus")
    else if k == 1 then Source(2, "AdGuard")
    else if k == 2 then Source(3, "Ghostery")
    else if k == 3 then Source(4, "ClearURLs")
    else if k == 4 then Source(5, "Privacy Badger")
    else if k == 5 then Source(6, "Pi-hole")
    else if k == 6 then Source(7, "uBlock Origin")
    else Source(8, "Hosts File")
  }

  // The rule texts of the tables. Most of them are written for the host
  // `example.com`; the AdGuard patterns are spelled with the markers of
  // the transforms that rewrite them.
  const ExampleDomain: string := "example.com"
  const NetworkExample: string := "||example.com^"
  const GenericHidingExample: string := "##.ad-class"
  const HidingExample: string := ExampleDomain + "##" + ".ad-class"
  const ExceptionExample: string := "@@||example.com^"
  const RegexExample: string := "/ads/[0-9]{3}x[0-9]{3}/"
  const ThirdPartyExample: string := "||example.com^$third-party"
  const AdGuardCssExample: string := ExampleDomain + CssOpen + ".ad-class" + CssSuffix
  const AdGuardScriptletExample: string :=
    ExampleDomain + ScriptletOpen + "abort-on-property-read" + ScriptletSep + "adBlockDetected" + ScriptletClose
  const HasExample: string := "example.com##.ad:has(.banner)"
  const RemoveparamExample: string := "||example.com^$removeparam=utm_source"
  const NooptextExample: string := "||ads.example.com^$redirect=nooptext"
  const TrackerPathExample: string := "example.com/tracker.js"
  const GhosteryWildcardExample: string := "*example.com*"
  const ClearUrlsPattern: string := ClearUrlsPrefix + "*"
  const ClearUrlsPrefix: string := ExampleDomain + "/?" + "utm_"
  const ClearUrlsParamExample: string := "{utm_source}"
  const PrivacyBadgerExample: string := "example.com/*"
  const ExampleHost: string := "ads.example.com"
  const ZeroHostsExample: string := "0.0.0.0 ads.example.com"
  const LoopbackHostsExample: string := "127.0.0.1 ads.example.com"
  const UBlockScriptletExample: string := ExampleDomain + "##+js(" + "aopr" + ", " + "adBlockDetected" + ")"
  const HasTextExample: string := "example.com##^script:has-text(ads)"
  const GifRedirectExample: string := "||ads.example.com^$redirect=1x1.gif"

  /** A row of `rule_patterns` (the example column is descriptive only). */
  datatype PatternRow = PatternRow(id: nat, sourceId: nat, ruleTypeId: nat, pattern: string)

  const PatternCount: nat := 24

  /** The source of pattern row `k`: the rows are grouped by source, in the
      order of the table's comment headers. */
  function RowSource(k: nat): nat {
    if k < 6 then 1 else if k < 11 then 2 else if k < 13 then 3 else if k < 15 then 4
    else if k < 16 then 5 else if k < 18 then 6 else if k < 19 then 8 else 7
  }

  /** `rule_patterns`, row `k` in id order. */
  function PatternAt(k: nat): (r: PatternRow)
    requires k < PatternCount
    ensures r.id == k + 1 && r.sourceId == RowSource(k)
  {
    if k < 6 then AdBlockPlusPattern(k)
    else if k < 11 then AdGuardPattern(k)
    else if k < 18 then OtherPattern(k)
    else if k < 19 then PatternRow(19, 8, 9, LoopbackHostsExample)
    else UBlockOriginPattern(k)
  }

  function AdBlockPlusPattern(k: nat): (r: PatternRow)
    requires k < 6
    ensures r.id == k + 1 && r.sourceId == 1
  {
    if k == 0 then PatternRow(1, 1, 1, NetworkExample)
    else if k == 1 then PatternRow(2, 1, 3, GenericHidingExample)
    else if k == 2 then PatternRow(3, 1, 3, HidingExample)
    else if k == 3 then PatternRow(4, 1, 4, ExceptionExample)
    else if k == 4 then PatternRow(5, 1, 5, RegexExample)
    else PatternRow(6, 1, 12, ThirdPartyExample)
  }

  function AdGuardPattern(k: nat): (r: PatternRow)
    requires 6 <= k < 11
    ensures r.id == k + 1 && r.sourceId == 2
  {
    if k == 6 then PatternRow(7, 2, 3, AdGuardCssExample)
    else if k == 7 then PatternRow(8, 2, 7, AdGuardScriptletExample)
    else if k == 8 then PatternRow(9, 2, 11, HasExample)
    else if k == 9 then PatternRow(10, 2, 14, RemoveparamExample)
    else PatternRow(11, 2, 15, NooptextExample)
  }

  /** Ghostery, ClearURLs, Privacy Badger and Pi-hole rows. */
  function OtherPattern(k: nat): (r: PatternRow)
    requires 11 <= k < 18
    ensures r.id == k + 1 && r.sourceId == RowSource(k)
  {
    if k == 11 then PatternRow(12, 3, 1, TrackerPathExample)
    else if k == 12 then PatternRow(13, 3, 2, GhosteryWildcardExample)
    else if k == 13 then PatternRow(14, 4, 14, ClearUrlsPattern)
    else if k == 14 then PatternRow(15, 4, 14, ClearUrlsParamExample)
    else if k == 15 then PatternRow(16, 5, 2, PrivacyBadgerExample)
    else if k == 16 then PatternRow(17, 6, 9, ExampleHost)
    else PatternRow(18, 6, 9, ZeroHostsExample)
  }

  function UBlockOriginPattern(k: nat): (r: PatternRow)
    requires 19 <= k < 24
    ensures r.id == k + 1 && r.sourceId == 7
  {
    if k == 19 then PatternRow(20, 7, 1, NetworkExample)
    else if k == 20 then PatternRow(21, 7, 3, HidingExample)
    else if k == 21 then PatternRow(22, 7, 7, UBlockScriptletExample)
    else if k == 22 then PatternRow(23, 7, 8, HasTextExample)
    else PatternRow(24, 7, 15, GifRedirectExample)
  }

  /** A row of `conversion_rules` (the notes column is descriptive only);
      `transform` is the nullable `conversion_function` column. */
  datatype ConversionRow = ConversionRow(id: nat, patternId: nat, ublockPattern: string, transform: Option<string>)

  const ConversionCount: nat := 19

  // The uBlock Origin texts of the conversion rows not already named above.
  const AbortScriptletExample: string := "example.com##+js(abort-on-property-read, adBlockDetected)"
  const TrackerNetworkExample: string := "||example.com/tracker.js^"
  const RemoveparamRegexExample: string := "||example.com^$removeparam=/utm_.*/i"
  const AnyRemoveparamExample: string := "||*$removeparam=utm_source"
  const AllExample: string := "||example.com^$all"
  const HostNetworkExample: string := "||" + ExampleHost + "^"

  /** `conversion_rules`, row `k` in id order: row `k` converts pattern row
      `k`, so the uBlock Origin patterns (ids 20 to 24) have no conversion
      and joining the two tables pairs them row by row. */
  function ConversionAt(k: nat): (r: ConversionRow)
    requires k < ConversionCount
    ensures r.id == k + 1 && r.patternId == PatternAt(k).id
  {
    if k < 6 then AdBlockPlusConversion(k)
    else if k < 11 then AdGuardConversion(k)
    else OtherConversion(k)
  }

  function AdBlockPlusConversion(k: nat): (r: ConversionRow)
    requires k < 6
    ensures r.id == k + 1 && r.patternId == k + 1
  {
    if k == 0 then ConversionRow(1, 1, NetworkExample, None)
    else if k == 1 then ConversionRow(2, 2, GenericHidingExample, None)
    else if k == 2 then ConversionRow(3, 3, HidingExample, None)
    else if k == 3 then ConversionRow(4, 4, ExceptionExample, None)
    else if k == 4 then ConversionRow(5, 5, RegexExample, None)
    else ConversionRow(6, 6, ThirdPartyExample, None)
  }

  function AdGuardConversion(k: nat): (r: ConversionRow)
    requires 6 <= k < 11
    ensures r.id == k + 1 && r.patternId == k + 1
  {
    if k == 6 then ConversionRow(7, 7, HidingExample, Some(CssTransform))
    else if k == 7 then ConversionRow(8, 8, AbortScriptletExample, Some(ScriptletTransform))
    else if k == 8 then ConversionRow(9, 9, HasExample, None)
    else if k == 9 then ConversionRow(10, 10, RemoveparamExample, None)
    else ConversionRow(11, 11, NooptextExample, Some(RedirectTransform))
  }

  /** Ghostery, ClearURLs, Privacy Badger, Pi-hole and hosts-file rows. */
  function OtherConversion(k: nat): (r: ConversionRow)
    requires 11 <= k < 19
    ensures r.id == k + 1 && r.patternId == k + 1
  {
    if k == 11 then ConversionRow(12, 12, TrackerNetworkExample, Some(GhosteryTransform))
    else if k == 12 then ConversionRow(13, 13, NetworkExample, Some(GhosteryWildcardTransform))
    else if k == 13 then ConversionRow(14, 14, RemoveparamRegexExample, Some(ClearUrlsTransform))
    else if k == 14 then ConversionRow(15, 15, AnyRemoveparamExample, Some(ClearUrlsParamTransform))
    else if k == 15 then ConversionRow(16, 16, AllExample, Some(PrivacyBadgerTransform))
    else if k == 16 then ConversionRow(17, 17, HostNetworkExample, Some(PiholeTransform))
    else if k == 17 then ConversionRow(18, 18, HostNetworkExample, Some(HostsTransform))
    else ConversionRow(19, 19, HostNetworkExample, Some(HostsTransform))
  }

  // ---------------------------------------------------------------------
  // Source lookup

  /** `SELECT id FROM adblocker_sources WHERE name = ?`, first row from `k`. */
  function SourceIdFrom(name: string, k: nat): (r: Option<nat>)
    requires k <= SourceCount
    ensures r.Some? ==> exists j | k <= j < SourceCount :: SourceAt(j).name == name && SourceAt(j).id == r.value
    ensures r.None? ==> forall j | k <= j < SourceCount :: SourceAt(j).name != name
    decreases SourceCount - k
  {
    if k == SourceCount then None
    else if SourceAt(k).name == name then Some(SourceAt(k).id)
    else SourceIdFrom(name, k + 1)
  }

  function SourceId(name: string): Option<nat> {
    SourceIdFrom(name, 0)
  }

  /** The eight source names. */
  predicate KnownSource(name: string) {
    name in ["AdBlock Plus", "AdGuard", "Ghostery", "ClearURLs", "Privacy Badger",
             "Pi-hole", "uBlock Origin", "Hosts File"]
  }

  /** A name is found exactly when it is one of the eight. */
  lemma SourceIdFound(name: string)
    ensures SourceId(name).Some? <==> KnownSource(name)
  {
    if SourceId(name).None? {
      assert forall j | 0 <= j < SourceCount :: SourceAt(j).name != name;
      assert SourceAt(0).name != name && SourceAt(1).name != name && SourceAt(2).name != name;
      assert SourceAt(3).name != name && SourceAt(4).name != name && SourceAt(5).name != name;
      assert SourceAt(6).name != name && SourceAt(7).name != name;
    }
  }

  /** Lookup from row `j` finds row `k` when the rows between hold other
      names. */
  lemma {:induction false} SourceIdFromFinds(name: string, j: nat, k: nat)
    requires j <= k < SourceCount && SourceAt(k).name == name
    requires forall i | j <= i < k :: SourceAt(i).name != name
    ensures SourceIdFrom(name, j) == Some(SourceAt(k).id)
    decreases k - j
  {
    if j < k {
      assert SourceAt(j).name != name;
      SourceIdFromFinds(name, j + 1, k);
    }
  }

  /** The source names are distinct, so each name finds its own row. */
  lemma SourceIdOfRow(k: nat)
    requires k < SourceCount
    ensures SourceId(SourceAt(k).name) == Some(k + 1)
  {
    SourceIdFromFinds(SourceAt(k).name, 0, k);
  }

  // ---------------------------------------------------------------------
  // The joined rows of one source

  /** One row of the join `rule_patterns JOIN conversion_rules`. */
  datatype Candidate = Candidate(patternId: nat, pattern: string, ublockPattern: string, transform: Option<string>)

  /** Join row `k`: pattern row `k` with its conversion row. */
  function Joined(k: nat): Candidate
    requires k < ConversionCount
  {
    var p := PatternAt(k);
    var c := ConversionAt(k);
    Candidate(p.id, p.pattern, c.ublockPattern, c.transform)
  }

  /** The joined rows of source `sid`, from row `k` on, in row-id order;
      `RowSource(k)` is the `source_id` column of pattern row `k`. */
  function CandidatesFrom(sid: nat, k: nat): seq<Candidate>
    requires k <= ConversionCount
    decreases ConversionCount - k
  {
    if k == ConversionCount then []
    else if RowSource(k) == sid then [Joined(k)] + CandidatesFrom(sid, k + 1)
    else CandidatesFrom(sid, k + 1)
  }

  /** The rows `convert_rule` fetches for source `sid`. */
  function Candidates(sid: nat): seq<Candidate> {
    CandidatesFrom(sid, 0)
  }

  /** Join rows `lo` to `hi - 1`, in order. */
  function JoinedRange(lo: nat, hi: nat): (r: seq<Candidate>)
    requires lo <= hi <= ConversionCount
    ensures |r| == hi - lo
    decreases hi - lo
  {
    if lo == hi then [] else [Joined(lo)] + JoinedRange(lo + 1, hi)
  }

  /** The rows of each source form one block of the tables, under the
      source's comment header; uBlock Origin and unknown ids have none. */
  function SourceBlock(sid: nat): (b: (nat, nat))
    ensures b.0 <= b.1 <= ConversionCount
  {
    if sid == 1 then (0, 6) else if sid == 2 then (6, 11) else if sid == 3 then (11, 13)
    else if sid == 4 then (13, 15) else if sid == 5 then (15, 16) else if sid == 6 then (16, 18)
    else if sid == 8 then (18, 19) else (19, 19)
  }

  /** Rows of other sources are passed over. */
  lemma {:induction false} CandidatesSkip(sid: nat, k: nat, m: nat)
    requires k <= m <= ConversionCount
    requires forall j | k <= j < m :: RowSource(j) != sid
    ensures CandidatesFrom(sid, k) == CandidatesFrom(sid, m)
    decreases m - k
  {
    if k < m {
      CandidatesSkip(sid, k + 1, m);
    }
  }

  /** Rows of the source are all taken, in order. */
  lemma {:induction false} CandidatesTake(sid: nat, k: nat, m: nat)
    requires k <= m <= ConversionCount
    requires forall j | k <= j < m :: RowSource(j) == sid
    ensures CandidatesFrom(sid, k) == JoinedRange(k, m) + CandidatesFrom(sid, m)
    decreases m - k
  {
    if k < m {
      var row := Joined(k);
      assert RowSource(k) == sid;
      assert CandidatesFrom(sid, k) == [row] + CandidatesFrom(sid, k + 1);
      assert JoinedRange(k, m) == [row] + JoinedRange(k + 1, m);
      CandidatesTake(sid, k + 1, m);
      AppendAssoc([row], JoinedRange(k + 1, m), CandidatesFrom(sid, m));
    }
  }


  /** The join filtered on `source_id` is exactly the source's block. */
  lemma CandidatesAreBlock(sid: nat)
    ensures Candidates(sid) == JoinedRange(SourceBlock(sid).0, SourceBlock(sid).1)
  {
    var (lo, hi) := SourceBlock(sid);
    CandidatesSkip(sid, 0, lo);
    CandidatesTake(sid, lo, hi);
    CandidatesSkip(sid, hi, ConversionCount);
    assert JoinedRange(lo, hi) + [] == JoinedRange(lo, hi);
  }

  // ---------------------------------------------------------------------
  // convert_rule

  const SourceNotFound: string := "Source not found"
  const Converted: string := "Converted"
  const DirectCompatibility: string := "Direct compatibility"
  const AssumedCompatibility: string := "No specific conversion rule found, assuming compatibility"

  /** The pair `convert_rule` returns; `rule` is `None` for Python's `None`. */
  datatype Conversion = Conversion(rule: Option<string>, status: string)

  /** Python truthiness of the nullable `conversion_function` column. */
  predicate HasTransform(f: Option<string>) {
    f.Some? && |f.value| > 0
  }

  /** What a matching row produces: its transform applied to the rule, or
      the rule itself when the row has no transform. */
  function Outcome(rule: string, c: Candidate): (r: Result<Conversion, ConversionError>)
    ensures r.Success? && !HasTransform(c.transform) ==> r.value == Conversion(Some(rule), DirectCompatibility)
    ensures r.Success? && HasTransform(c.transform) ==>
      var a := ApplyConversion(rule, c.transform.value, c.ublockPattern);
      a.Success? && r.value == Conversion(Some(a.value), Converted)
    ensures r.Failure? <==> HasTransform(c.transform) && ApplyConversion(rule, c.transform.value, c.ublockPattern).Failure?
  {
    if HasTransform(c.transform) then
      match ApplyConversion(rule, c.transform.value, c.ublockPattern)
      case Success(v) => Success(Conversion(Some(v), Converted))
      case Failure(e) => Failure(e)
    else Success(Conversion(Some(rule), DirectCompatibility))
  }

  /** The loop of `convert_rule` over the fetched rows. */
  function Scan(rule: string, cs: seq<Candidate>): (r: Result<Conversion, ConversionError>)
    ensures r.Success? ==> r.value.rule.Some?
    ensures r.Success? && r.value.status != Converted ==> r.value.rule == Some(rule)
    ensures r.Success? ==> r.value.status in {Converted, DirectCompatibility, AssumedCompatibility}
  {
    if |cs| == 0 then Success(Conversion(Some(rule), AssumedCompatibility))
    else if PatternMatches(cs[0].pattern, rule) then Outcome(rule, cs[0])
    else Scan(rule, cs[1..])
  }

  /** `UBlockRuleConverter.convert_rule(rule, source_name)`; a `Failure` is
      an exception escaping the call. */
  function ConvertRule(rule: string, sourceName: string): (r: Result<Conversion, ConversionError>)
    ensures !KnownSource(sourceName) ==> r == Success(Conversion(None, SourceNotFound))
    ensures KnownSource(sourceName) && r.Success? ==> r.value.rule.Some? && r.value.status != SourceNotFound
  {
    SourceIdFound(sourceName);
    match SourceId(sourceName)
    case None => Success(Conversion(None, SourceNotFound))
    case Some(sid) => Scan(rule, Candidates(sid))
  }

  // ---------------------------------------------------------------------
  // First match decides

  /** Index of the first row whose pattern matches `rule`. */
  function FirstMatch(rule: string, cs: seq<Candidate>): (r: Option<nat>)
    ensures r.Some? ==> r.value < |cs| && PatternMatches(cs[r.value].pattern, rule)
    ensures r.Some? ==> forall j | 0 <= j < r.value :: !PatternMatches(cs[j].pattern, rule)
    ensures r.None? ==> forall j | 0 <= j < |cs| :: !PatternMatches(cs[j].pattern, rule)
  {
    if |cs| == 0 then None
    else if PatternMatches(cs[0].pattern, rule) then Some(0)
    else match FirstMatch(rule, cs[1..])
      case None => None
      case Some(i) => Some(i + 1)
  }

  /** The scan's result is decided by the first matching row alone; with
      none, the rule passes through as assumed compatible. */
  lemma {:induction false} ScanIsFirstMatch(rule: string, cs: seq<Candidate>)
    ensures Scan(rule, cs) == match FirstMatch(rule, cs)
      case None => Success(Conversion(Some(rule), AssumedCompatibility))
      case Some(i) => Outcome(rule, cs[i])
  {
    if |cs| > 0 && !PatternMatches(cs[0].pattern, rule) {
      ScanIsFirstMatch(rule, cs[1..]);
      match FirstMatch(rule, cs[1..]) {
        case None =>
        case Some(i) => assert cs[1..][i] == cs[i + 1];
      }
    }
  }

  /** Rows after a matching one are never consulted. */
  lemma {:induction false} LaterRowsIgnored(rule: string, a: seq<Candidate>, b: seq<Candidate>, i: nat)
    requires i < |a| && PatternMatches(a[i].pattern, rule)
    ensures Scan(rule, a + b) == Scan(rule, a)
  {
    if !PatternMatches(a[0].pattern, rule) {
      assert (a + b)[1..] == a[1..] + b;
      LaterRowsIgnored(rule, a[1..], b, i - 1);
    } else {
      assert (a + b)[0] == a[0];
    }
  }

  // ---------------------------------------------------------------------
  // The conversion never raises

  /** A row that can raise is the one row whose pattern guarantees `/?`. */
  predicate CannotRaise(c: Candidate) {
    c.transform == Some(ClearUrlsTransform) ==> c.pattern == ClearUrlsPattern
  }

  /** The only row with the ClearURLs transform is pattern 14. */
  lemma ClearUrlsRowUnique()
    ensures forall j | 0 <= j < ConversionCount :: CannotRaise(Joined(j))
  {
  }

  lemma {:induction false} CandidatesCannotRaise(sid: nat, k: nat)
    requires k <= ConversionCount
    requires forall j | k <= j < ConversionCount :: CannotRaise(Joined(j))
    ensures forall i | 0 <= i < |CandidatesFrom(sid, k)| :: CannotRaise(CandidatesFrom(sid, k)[i])
    decreases ConversionCount - k
  {
    if k < ConversionCount {
      CandidatesCannotRaise(sid, k + 1);
    }
  }

  /** Whatever pattern 14 matches contains the `/?` the transform splits on. */
  lemma ClearUrlsPatternHasSplit(rule: string)
    requires PatternMatches(ClearUrlsPattern, rule)
    ensures Contains(rule, "/?")
  {
    var lit := ClearUrlsPrefix;
    PatternMatchesPrefix(lit, "*", rule);
    assert rule[11..13] == lit[11..13];
    assert OccursAt(rule, "/?", 11);
  }

  lemma {:induction false} ScanSucceeds(rule: string, cs: seq<Candidate>)
    requires forall i | 0 <= i < |cs| :: CannotRaise(cs[i])
    ensures Scan(rule, cs).Success?
  {
    if |cs| > 0 {
      if PatternMatches(cs[0].pattern, rule) {
        if cs[0].transform == Some(ClearUrlsTransform) {
          ClearUrlsPatternHasSplit(rule);
        }
      } else {
        ScanSucceeds(rule, cs[1..]);
      }
    }
  }

  /** The IndexError of the ClearURLs transform cannot escape: the one row
      that uses it only matches rules containing `/?`. */
  lemma ConvertRuleSucceeds(rule: string, sourceName: string)
    ensures ConvertRule(rule, sourceName).Success?
  {
    if SourceId(sourceName).Some? {
      var cs := Candidates(SourceId(sourceName).value);
      ClearUrlsRowUnique();
      CandidatesCannotRaise(SourceId(sourceName).value, 0);
      ScanSucceeds(rule, cs);
    }
  }

  /** The status is one of the four the converter reports. */
  lemma ConvertRuleStatus(rule: string, sourceName: string)
    ensures ConvertRule(rule, sourceName).Success? ==>
      ConvertRule(rule, sourceName).value.status in {SourceNotFound, Converted, DirectCompatibility, AssumedCompatibility}
  {
  }

  // ---------------------------------------------------------------------
  // Worked conversions

  /** uBlock Origin has patterns but no conversion rows, so every rule
      passes through as assumed compatible. */
  lemma UBlockOriginPassesThrough(rule: string)
    ensures ConvertRule(rule, "uBlock Origin") == Success(Conversion(Some(rule), AssumedCompatibility))
  {
    UBlockOriginId();
    CandidatesAreBlock(7);
    assert JoinedRange(19, 19) == [];
  }

  lemma UBlockOriginId()
    ensures SourceId("uBlock Origin") == Some(7)
  {
    SourceIdOfRow(6);
  }

  /** `convert_rule` on the source of row `k` scans that source's block. */
  lemma ConvertViaSource(rule: string, k: nat)
    requires k < SourceCount
    ensures var (lo, hi) := SourceBlock(k + 1);
      ConvertRule(rule, SourceAt(k).name) == Scan(rule, JoinedRange(lo, hi))
  {
    SourceIdOfRow(k);
    CandidatesAreBlock(k + 1);
  }

  /** The scan of a block stops at its first row when that row matches. */
  lemma ScanBlockFirst(rule: string, lo: nat, hi: nat)
    requires lo < hi <= ConversionCount
    requires PatternMatches(Joined(lo).pattern, rule)
    ensures Scan(rule, JoinedRange(lo, hi)) == Outcome(rule, Joined(lo))
  {
  }

  /** A block's first row that does not match is passed over. */
  lemma ScanBlockPast(rule: string, lo: nat, hi: nat)
    requires lo < hi <= ConversionCount
    requires !PatternMatches(Joined(lo).pattern, rule)
    ensures Scan(rule, JoinedRange(lo, hi)) == Scan(rule, JoinedRange(lo + 1, hi))
  {
    assert JoinedRange(lo, hi)[1..] == JoinedRange(lo + 1, hi);
  }

  /** When the first row of a source's block matches, `convert_rule` on
      that source is decided by that row. */
  lemma ConvertFirstRow(rule: string, k: nat, lo: nat)
    requires k < SourceCount
    requires lo == SourceBlock(k + 1).0 < SourceBlock(k + 1).1
    requires PatternMatches(Joined(lo).pattern, rule)
    ensures ConvertRule(rule, SourceAt(k).name) == Outcome(rule, Joined(lo))
  {
    ConvertViaSource(rule, k);
    ScanBlockFirst(rule, lo, SourceBlock(k + 1).1);
  }

  /** When the first row of a block does not match but the second does,
      the second decides. */
  lemma ConvertSecondRow(rule: string, k: nat, lo: nat)
    requires k < SourceCount
    requires lo == SourceBlock(k + 1).0 && lo + 1 < SourceBlock(k + 1).1
    requires !PatternMatches(Joined(lo).pattern, rule)
    requires PatternMatches(Joined(lo + 1).pattern, rule)
    ensures ConvertRule(rule, SourceAt(k).name) == Outcome(rule, Joined(lo + 1))
  {
    var hi := SourceBlock(k + 1).1;
    ConvertViaSource(rule, k);
    ScanBlockPast(rule, lo, hi);
    ScanBlockFirst(rule, lo + 1, hi);
  }

  /** A row with no transform passes the rule through. */
  lemma OutcomeDirect(rule: string, c: Candidate)
    requires c.transform.None?
    ensures Outcome(rule, c) == Success(Conversion(Some(rule), DirectCompatibility))
  {
  }

  /** A row whose transform succeeds reports the transformed rule. */
  lemma OutcomeConverted(rule: string, c: Candidate, v: string)
    requires HasTransform(c.transform)
    requires ApplyConversion(rule, c.transform.value, c.ublockPattern) == Success(v)
    ensures Outcome(rule, c) == Success(Conversion(Some(v), Converted))
  {
  }

  /** A row with the hosts or Pi-hole transform rewrites the rule with it. */
  lemma OutcomeOfHosts(rule: string, c: Candidate)
    requires c.transform == Some(PiholeTransform) || c.transform == Some(HostsTransform)
    ensures Outcome(rule, c) == Success(Conversion(Some(HostsToNetwork(rule)), Converted))
  {
    assert HasTransform(c.transform);
  }

  /** A rule matching the Pi-hole host row is rewritten by the hosts
      transform. */
  lemma PiholeConverts(rule: string)
    requires PatternMatches(ExampleHost, rule)
    ensures ConvertRule(rule, "Pi-hole") == Success(Conversion(Some(HostsToNetwork(rule)), Converted))
  {
    var c := Joined(16);
    assert c.pattern == ExampleHost && c.transform == Some(PiholeTransform);
    assert SourceBlock(6) == (16, 18);
    assert SourceAt(5).name == "Pi-hole";
    ConvertFirstRow(rule, 5, 16);
    OutcomeOfHosts(rule, c);
  }

  /** The table's own Pi-hole host becomes `||ads.example.com^`. */
  lemma PiholeExample()
    ensures ConvertRule(ExampleHost, "Pi-hole") == Success(Conversion(Some(HostNetworkExample), Converted))
  {
    LiteralMatchesItself(ExampleHost);
    PiholeConverts(ExampleHost);
    PiholeHostIsBare();
  }

  lemma PiholeHostIsBare()
    ensures HostsToNetwork(ExampleHost) == "||" + ExampleHost + "^"
  {
    assert ExampleHost[0] == 'a' && ExampleHost[|ExampleHost| - 1] == 'm';
    HostsBareName(ExampleHost);
  }

  /** AdBlock Plus network filters are already uBlock Origin syntax: a rule
      matching the first row passes through. */
  lemma AdBlockPlusDirect(rule: string)
    requires PatternMatches(NetworkExample, rule)
    ensures ConvertRule(rule, "AdBlock Plus") == Success(Conversion(Some(rule), DirectCompatibility))
  {
    var c := Joined(0);
    assert c.pattern == NetworkExample && c.transform.None?;
    ConvertFirstRow(rule, 0, 0);
    OutcomeDirect(rule, c);
  }

  /** A rule matching the AdGuard CSS row is rewritten by the CSS
      transform. */
  lemma AdGuardCssRow(rule: string)
    requires PatternMatches(AdGuardCssExample, rule)
    ensures ConvertRule(rule, "AdGuard") == Success(Conversion(Some(CssHiding(rule)), Converted))
  {
    var c := Joined(6);
    assert c.pattern == AdGuardCssExample && c.transform == Some(CssTransform);
    ConvertFirstRow(rule, 1, 6);
    OutcomeConverted(rule, c, CssHiding(rule));
  }

  lemma AdGuardCssText()
    ensures CssHiding(AdGuardCssExample) == HidingExample
  {
    CssHidingShape(ExampleDomain, ".ad-class");
  }

  /** The table's AdGuard CSS rule becomes the matching element-hiding
      filter. */
  lemma AdGuardCssConverts()
    ensures ConvertRule(AdGuardCssExample, "AdGuard") == Success(Conversion(Some(HidingExample), Converted))
  {
    LiteralMatchesItself(AdGuardCssExample);
    AdGuardCssRow(AdGuardCssExample);
    AdGuardCssText();
  }

  /** A rule matching the AdGuard scriptlet row, and not the CSS row before
      it, is rewritten by the scriptlet transform. */
  lemma AdGuardScriptletRow(rule: string)
    requires !PatternMatches(AdGuardCssExample, rule)
    requires PatternMatches(AdGuardScriptletExample, rule)
    ensures ConvertRule(rule, "AdGuard") == Success(Conversion(Some(Scriptlet(rule)), Converted))
  {
    var c := Joined(7);
    assert Joined(6).pattern == AdGuardCssExample;
    assert c.pattern == AdGuardScriptletExample && c.transform == Some(ScriptletTransform);
    ConvertSecondRow(rule, 1, 6);
    OutcomeConverted(rule, c, Scriptlet(rule));
  }

  lemma AdGuardScriptletText()
    ensures Scriptlet(AdGuardScriptletExample) == UBlockScriptletExample
  {
    ScriptletShape(ExampleDomain, "abort-on-property-read", "adBlockDetected");
    assert ScriptletName("abort-on-property-read") == "aopr";
  }

  lemma AdGuardScriptletNotCss()
    ensures !PatternMatches(AdGuardCssExample, AdGuardScriptletExample)
  {
    assert AdGuardCssExample[12] == '$' && AdGuardScriptletExample[12] == '%';
    LiteralMismatch(AdGuardCssExample, AdGuardScriptletExample, 12);
  }

  /** The table's AdGuard scriptlet rule passes over the CSS row and becomes
      the abbreviated uBlock Origin scriptlet: the uBlock Origin scriptlet
      row's own text, not the conversion row's unabbreviated one. */
  lemma AdGuardScriptletConverts()
    ensures ConvertRule(AdGuardScriptletExample, "AdGuard")
         == Success(Conversion(Some(UBlockScriptletExample), Converted))
  {
    AdGuardScriptletNotCss();
    LiteralMatchesItself(AdGuardScriptletExample);
    AdGuardScriptletRow(AdGuardScriptletExample);
    AdGuardScriptletText();
  }

  /** A rule matching the ClearURLs query row is rewritten by the ClearURLs
      transform, which cannot fail on it. */
  lemma ClearUrlsRow(rule: string)
    requires PatternMatches(ClearUrlsPattern, rule)
    ensures ClearUrls(rule).Success?
    ensures ConvertRule(rule, "ClearURLs") == Success(Conversion(Some(ClearUrls(rule).value), Converted))
  {
    ClearUrlsPatternHasSplit(rule);
    var c := Joined(13);
    assert c.pattern == ClearUrlsPattern && c.transform == Some(ClearUrlsTransform);
    ConvertFirstRow(rule, 3, 13);
    OutcomeConverted(rule, c, ClearUrls(rule).value);
  }

  /** A rule matching the Privacy Badger row takes the default branch: the
      row's strict-blocking filter with the rule's leading domain in place
      of `example.com`. */
  lemma PrivacyBadgerRow(rule: string)
    requires PatternMatches(PrivacyBadgerExample, rule)
    ensures ConvertRule(rule, "Privacy Badger") == Success(Conversion(Some(FillTemplate(rule, AllExample)), Converted))
  {
    var c := Joined(15);
    assert c.pattern == PrivacyBadgerExample && c.transform == Some(PrivacyBadgerTransform);
    assert c.ublockPattern == AllExample;
    ConvertFirstRow(rule, 4, 15);
    ApplyConversionPrivacyBadger(rule, AllExample);
    OutcomeConverted(rule, c, FillTemplate(rule, AllExample));
  }

  /** The strict-blocking template filled with a rule that is all domain. */
  lemma PrivacyBadgerTemplate(rule: string)
    requires '#' !in rule && '^' !in rule && '$' !in rule
    ensures FillTemplate(rule, AllExample) == "||" + rule + "^$all"
  {
    LeadingDomainWhole(rule);
    assert AllExample == "||" + "example.com" + "^$all";
    FillTemplateLeading(rule, "||", "^$all");
    assert !Contains("^$all", "example.com");
  }

  /** A path under `example.com/` becomes a strict-blocking network filter
      for that path. */
  lemma PrivacyBadgerPath(w: string)
    requires '\n' !in w && '#' !in w && '^' !in w && '$' !in w
    ensures ConvertRule(ExampleDomain + "/" + w, "Privacy Badger")
         == Success(Conversion(Some("||" + (ExampleDomain + "/" + w) + "^$all"), Converted))
  {
    var rule := ExampleDomain + "/" + w;
    LiteralStarMatches(ExampleDomain + "/", w);
    assert PrivacyBadgerExample == ExampleDomain + "/" + "*";
    assert PatternMatches(PrivacyBadgerExample, rule);
    var host := ExampleDomain + "/";
    HostIsDomain();
    assert forall c | c in rule :: c in host || c in w;
    PrivacyBadgerDomain(rule);
  }

  /** `example.com/` holds none of the characters that end a leading
      domain. */
  lemma HostIsDomain()
    ensures var host := ExampleDomain + "/"; '#' !in host && '^' !in host && '$' !in host
  {
  }

  /** A matching rule that is all domain is blocked strictly as it is. */
  lemma PrivacyBadgerDomain(rule: string)
    requires PatternMatches(PrivacyBadgerExample, rule)
    requires '#' !in rule && '^' !in rule && '$' !in rule
    ensures ConvertRule(rule, "Privacy Badger") == Success(Conversion(Some("||" + rule + "^$all"), Converted))
  {
    PrivacyBadgerRow(rule);
    PrivacyBadgerTemplate(rule);
  }

  /** A rule that misses the Ghostery tracker row and matches the wildcard
      row is rewritten by the wildcard transform. */
  lemma GhosteryWildcardRow(rule: string)
    requires !PatternMatches(TrackerPathExample, rule)
    requires PatternMatches(GhosteryWildcardExample, rule)
    ensures ConvertRule(rule, "Ghostery") == Success(Conversion(Some(GhosteryWildcard(rule)), Converted))
  {
    var c := Joined(12);
    assert c.pattern == GhosteryWildcardExample && c.transform == Some(GhosteryWildcardTransform);
    ConvertSecondRow(rule, 2, 11);
    ApplyConversionWildcard(rule, c.ublockPattern);
    OutcomeConverted(rule, c, GhosteryWildcard(rule));
  }

  /** The wildcard pattern matches its own text, a `*` standing for itself. */
  lemma WildcardMatchesItself()
    ensures PatternMatches(GhosteryWildcardExample, GhosteryWildcardExample)
  {
    StarWrappedMatchesItself(ExampleDomain);
    assert GhosteryWildcardExample == "*" + ExampleDomain + "*";
  }

  /** The table's Ghostery wildcard rule becomes `||example.com^`. */
  lemma GhosteryWildcardConverts()
    ensures ConvertRule(GhosteryWildcardExample, "Ghostery")
         == Success(Conversion(Some(NetworkExample), Converted))
  {
    LiteralMismatch(TrackerPathExample, GhosteryWildcardExample, 0);
    WildcardMatchesItself();
    GhosteryWildcardRow(GhosteryWildcardExample);
    GhosteryWildcardWhole();
  }

  /** A hosts-file line is rewritten exactly when it matches the table's
      one hosts-file row; any other line passes through. */
  lemma HostsFileRow(rule: string)
    ensures PatternMatches(LoopbackHostsExample, rule) ==>
      ConvertRule(rule, "Hosts File") == Success(Conversion(Some(HostsToNetwork(rule)), Converted))
    ensures !PatternMatches(LoopbackHostsExample, rule) ==>
      ConvertRule(rule, "Hosts File") == Success(Conversion(Some(rule), AssumedCompatibility))
  {
    var c := Joined(18);
    assert c.pattern == LoopbackHostsExample && c.transform == Some(HostsTransform);
    if PatternMatches(LoopbackHostsExample, rule) {
      ConvertFirstRow(rule, 7, 18);
      OutcomeOfHosts(rule, c);
    } else {
      ConvertViaSource(rule, 7);
      ScanBlockPast(rule, 18, 19);
    }
  }

  /** The hosts-file line of the demonstration, which names a host other
      than the table's, is not rewritten: it passes through unchanged. */
  lemma HostsFileOtherHost()
    ensures ConvertRule("127.0.0.1 track.example.com", "Hosts File")
         == Success(Conversion(Some("127.0.0.1 track.example.com"), AssumedCompatibility))
  {
    LiteralMismatch(LoopbackHostsExample, "127.0.0.1 track.example.com", 10);
    HostsFileRow("127.0.0.1 track.example.com");
  }
}

=== FILE: list_generator.dfy ===
/** The list generator: the header of the unified list, the rules grouped
    under the configured section names, and the statistics kept about
    them. */
module ListGenerator {
  import opened Wrappers
  import opened Strings
  import opened Config
  import opened Text
  import RuleConverter

  /** A missing key of a dictionary subscript. */
  datatype KeyError = KeyError(key: string)

  // ---------------------------------------------------------------------
  // _classify_rule

  /** `_classify_rule`: the generator's own, coarser classification. */
  function SimpleClassify(rule: string): (r: int)
    ensures r in {1, 3, 4, 14}
    ensures r == 3 <==> Contains(rule, "##")
    ensures r == 4 <==> !Contains(rule, "##") && StartsWith(rule, "@@")
    ensures r == 14 <==> !Contains(rule, "##") && !StartsWith(rule, "@@") && Contains(rule, "$removeparam=")
  {
    if Contains(rule, "##") then 3
    else if StartsWith(rule, "@@") then 4
    else if Contains(rule, "$removeparam=") then 14
    else 1
  }

  /** Where the converter's classification and the generator's agree:
      element hiding stays element hiding, and an exception stays one
      unless it holds `##`. */
  lemma ClassifiersAgree(rule: string)
    ensures RuleConverter.Classify(rule) == Some(3) ==> SimpleClassify(rule) == 3
    ensures RuleConverter.Classify(rule) == Some(4) ==>
      SimpleClassify(rule) == (if Contains(rule, "##") then 3 else 4)
  {
  }

  /** Where they disagree: a network rule with `$removeparam=` is filed as
      basic blocking (1) by the converter but written under the id of
      parameter removal (14) by the generator. */
  lemma RemoveparamRefiled(rule: string)
    requires StartsWith(rule, "||") && '^' in rule && Contains(rule, "$removeparam=")
    requires !Contains(rule, "##")
    ensures RuleConverter.Classify(rule) == Some(1)
    ensures SimpleClassify(rule) == 14
  {
    RuleConverter.NetworkIsBasic(rule);
    assert rule[0] == '|';
  }

  // ---------------------------------------------------------------------
  // _organize_rules

  /** The organized rules: section names, in dictionary order, each with its
      rules. */
  type Organized = seq<(string, seq<string>)>

  function Names(d: Organized): (r: seq<string>)
    ensures |r| == |d| && forall k | 0 <= k < |d| :: r[k] == d[k].0
  {
    seq(|d|, k requires 0 <= k < |d| => d[k].0)
  }

  /** `{s['name']: [] for s in sections}` after `acc`: a repeated name keeps
      its first position. */
  function InitialFrom(sections: seq<Section>, acc: Organized): (r: Result<Organized, KeyError>)
    decreases |sections|
  {
    if |sections| == 0 then Success(acc)
    else match sections[0].name
      case None => Failure(KeyError("name"))
      case Some(n) =>
        InitialFrom(sections[1..], if n in Names(acc) then acc else acc + [(n, [])])
  }

  /** The section a rule is written under, by name. */
  function Target(sections: seq<Section>, rule: string): Option<string> {
    match SectionByRuleType(sections, SimpleClassify(rule))
    case None => None
    case Some(s) => s.name
  }

  /** `sections[name].append(rule)` */
  function AppendTo(d: Organized, n: string, rule: string): (r: Organized)
    ensures |r| == |d|
    ensures forall k | 0 <= k < |d| :: r[k] == (d[k].0, d[k].1 + (if d[k].0 == n then [rule] else []))
  {
    seq(|d|, k requires 0 <= k < |d| => (d[k].0, d[k].1 + (if d[k].0 == n then [rule] else [])))
  }

  /** One iteration: the rule is appended to its target section's list, if
      it has one. */
  function FileRule(d: Organized, sections: seq<Section>, rule: string): (r: Organized)
    ensures |r| == |d|
    ensures forall k | 0 <= k < |d| ::
      r[k] == (d[k].0, d[k].1 + (if Target(sections, rule) == Some(d[k].0) then [rule] else []))
  {
    var t := Target(sections, rule);
    if t.None? then
      assert forall k | 0 <= k < |d| :: d[k].1 + [] == d[k].1;
      d
    else
      var r := AppendTo(d, t.value, rule);
      assert forall k | 0 <= k < |d| :: (t == Some(d[k].0) <==> d[k].0 == t.value);
      r
  }

  /** The loop over the rules. */
  function OrganizeFrom(d: Organized, sections: seq<Section>, rules: seq<string>): (r: Organized)
    ensures |r| == |d|
    decreases |rules|
  {
    if |rules| == 0 then d
    else OrganizeFrom(FileRule(d, sections, rules[0]), sections, rules[1..])
  }

  /** `_organize_rules` */
  function Organize(sections: seq<Section>, rules: seq<string>): (r: Result<Organized, KeyError>)
    ensures r.Failure? <==> exists s | s in sections :: s.name.None?
  {
    InitialFromFails(sections, []);
    match InitialFrom(sections, [])
    case Failure(e) => Failure(e)
    case Success(d) => Success(OrganizeFrom(d, sections, rules))
  }

  lemma {:induction false} InitialFromFails(sections: seq<Section>, acc: Organized)
    ensures InitialFrom(sections, acc).Failure? <==> exists s | s in sections :: s.name.None?
    decreases |sections|
  {
    if |sections| > 0 {
      var n := sections[0].name;
      if n.Some? {
        InitialFromFails(sections[1..], if n.value in Names(acc) then acc else acc + [(n.value, [])]);
        assert forall s | s in sections[1..] :: s in sections;
        assert forall s | s in sections :: s == sections[0] || s in sections[1..];
      }
    }
  }

  /** No name occurs twice. */
  predicate DistinctNames(d: Organized) {
    forall i, j | 0 <= i < j < |d| :: d[i].0 != d[j].0
  }

  lemma {:induction false} InitialFromMeaning(sections: seq<Section>, acc: Organized)
    requires InitialFrom(sections, acc).Success? && DistinctNames(acc)
    requires forall k | 0 <= k < |acc| :: acc[k].1 == []
    ensures var d := InitialFrom(sections, acc).value;
      && DistinctNames(d)
      && |acc| <= |d| && d[..|acc|] == acc
      && (forall k | 0 <= k < |d| :: d[k].1 == [])
      && (forall n :: n in Names(d) <==> n in Names(acc) || exists s | s in sections :: s.name == Some(n))
    decreases |sections|
  {
    if |sections| > 0 {
      var n := sections[0].name.value;
      var acc' := if n in Names(acc) then acc else acc + [(n, [])];
      assert forall m :: m in Names(acc') <==> m in Names(acc) || m == n by {
        if n !in Names(acc) {
          assert Names(acc') == Names(acc) + [n];
        }
      }
      InitialFromMeaning(sections[1..], acc');
      var d := InitialFrom(sections, acc).value;
      assert d[..|acc|] == d[..|acc'|][..|acc|];
      forall m | m in Names(d) && m !in Names(acc) ensures exists s | s in sections :: s.name == Some(m) {
        if m == n {
          assert sections[0] in sections;
        } else {
          var s :| s in sections[1..] && s.name == Some(m);
          assert s in sections;
        }
      }
      forall m | exists s | s in sections :: s.name == Some(m) ensures m in Names(d) {
        var s :| s in sections && s.name == Some(m);
        if s != sections[0] {
          assert s in sections[1..];
        }
      }
    }
  }

  /** The rules written under section `n`, in input order. */
  function Matching(sections: seq<Section>, rules: seq<string>, n: string): (r: seq<string>)
    ensures |r| <= |rules|
  {
    if |rules| == 0 then []
    else (if Target(sections, rules[0]) == Some(n) then [rules[0]] else []) + Matching(sections, rules[1..], n)
  }

  lemma {:induction false} OrganizeFromAt(d: Organized, sections: seq<Section>, rules: seq<string>, k: nat)
    requires k < |d|
    ensures OrganizeFrom(d, sections, rules)[k] == (d[k].0, d[k].1 + Matching(sections, rules, d[k].0))
    decreases |rules|
  {
    if |rules| > 0 {
      var next := FileRule(d, sections, rules[0]);
      var head := if Target(sections, rules[0]) == Some(d[k].0) then [rules[0]] else [];
      OrganizeFromAt(next, sections, rules[1..], k);
      assert next[k] == (d[k].0, d[k].1 + head);
      assert Matching(sections, rules, d[k].0) == head + Matching(sections, rules[1..], d[k].0);
      AppendAssoc(d[k].1, head, Matching(sections, rules[1..], d[k].0));
    } else {
      assert d[k].1 + [] == d[k].1;
    }
  }

  lemma OrganizeFromMeaning(d: Organized, sections: seq<Section>, rules: seq<string>)
    ensures var r := OrganizeFrom(d, sections, rules);
      forall k | 0 <= k < |d| :: r[k] == (d[k].0, d[k].1 + Matching(sections, rules, d[k].0))
  {
    forall k | 0 <= k < |d|
      ensures OrganizeFrom(d, sections, rules)[k] == (d[k].0, d[k].1 + Matching(sections, rules, d[k].0))
    {
      OrganizeFromAt(d, sections, rules, k);
    }
  }

  /** `_organize_rules` keys the result by every section name, each once, in
      order of first appearance, and files under each name exactly the
      rules whose class id's first section has that name, in input order;
      rules whose id no section lists are dropped. */
  lemma OrganizeMeaning(sections: seq<Section>, rules: seq<string>)
    requires Organize(sections, rules).Success?
    ensures var d := Organize(sections, rules).value;
      && DistinctNames(d)
      && (forall n :: n in Names(d) <==> exists s | s in sections :: s.name == Some(n))
      && (forall k | 0 <= k < |d| :: d[k].1 == Matching(sections, rules, d[k].0))
  {
    InitialFromFails(sections, []);
    var d0 := InitialFrom(sections, []).value;
    InitialFromMeaning(sections, []);
    var d := OrganizeFrom(d0, sections, rules);
    assert Organize(sections, rules).value == d;
    OrganizeFromMeaning(d0, sections, rules);
    assert forall k | 0 <= k < |d| :: d[k].0 == d0[k].0 && d[k].1 == Matching(sections, rules, d[k].0);
    assert Names(d) == Names(d0);
  }

  /** A rule is filed under a name exactly when the first section listing
      its class id has that name. */
  lemma {:induction false} MatchingMembers(sections: seq<Section>, rules: seq<string>, n: string, x: string)
    ensures x in Matching(sections, rules, n) <==> x in rules && Target(sections, x) == Some(n)
    decreases |rules|
  {
    if |rules| > 0 {
      MatchingMembers(sections, rules[1..], n, x);
      assert x in rules <==> x == rules[0] || x in rules[1..];
    }
  }

  // ---------------------------------------------------------------------
  // _update_statistics

  /** `sum(len(r) for r in sections.values())` */
  function TotalRules(d: Organized): (r: nat)
  {
    if |d| == 0 then 0 else |d[0].1| + TotalRules(d[1..])
  }

  /** `self.stats['sections']` after the update, starting empty. */
  function SectionStats(d: Organized): (r: map<string, nat>)
    ensures r.Keys == set k | 0 <= k < |d| :: d[k].0
  {
    if |d| == 0 then map[]
    else
      var rest := SectionStats(d[1..]);
      assert (set k | 0 <= k < |d| :: d[k].0) == {d[0].0} + set k | 0 <= k < |d[1..]| :: d[1..][k].0 by {
        forall k | 0 <= k < |d| ensures d[k].0 == d[0].0 || d[k].0 in set k' | 0 <= k' < |d[1..]| :: d[1..][k'].0 {
          if k > 0 {
            assert d[k] == d[1..][k - 1];
          }
        }
      }
      rest[d[0].0 := |d[0].1|]
  }

  /** For distinct names each entry's count is its own list's length. */
  lemma {:induction false} SectionStatsMeaning(d: Organized, k: nat)
    requires DistinctNames(d) && k < |d|
    ensures SectionStats(d)[d[k].0] == |d[k].1|
    decreases |d|
  {
    if k > 0 {
      assert d[k] == d[1..][k - 1];
      assert DistinctNames(d[1..]) by {
        forall i, j | 0 <= i < j < |d[1..]| ensures d[1..][i].0 != d[1..][j].0 {
          assert d[1..][i] == d[i + 1] && d[1..][j] == d[j + 1];
        }
      }
      SectionStatsMeaning(d[1..], k - 1);
    }
  }

  /** The rules whose section name is among `names`. */
  function Covered(sections: seq<Section>, rules: seq<string>, names: seq<string>): (r: nat)
    ensures r <= |rules|
  {
    if |rules| == 0 then 0
    else
      (if Target(sections, rules[0]).Some? && Target(sections, rules[0]).value in names then 1 else 0)
      + Covered(sections, rules[1..], names)
  }

  /** How many of the distinct `names` are `n`. */
  lemma {:induction false} CountName(names: seq<string>, n: string, sections: seq<Section>, rules: seq<string>)
    requires forall i, j | 0 <= i < j < |names| :: names[i] != names[j]
    requires |rules| > 0
    ensures SumMatching(sections, rules, names)
         == (if Target(sections, rules[0]).Some? && Target(sections, rules[0]).value in names then 1 else 0)
          + SumMatching(sections, rules[1..], names)
    decreases |names|
  {
    if |names| > 0 {
      CountName(names[1..], n, sections, rules);
      var t := Target(sections, rules[0]);
      assert t.Some? && t.value in names <==> t == Some(names[0]) || (t.Some? && t.value in names[1..]);
      if t == Some(names[0]) {
        assert names[0] !in names[1..];
      }
    }
  }

  /** The sizes of the lists filed under `names`, summed. */
  function SumMatching(sections: seq<Section>, rules: seq<string>, names: seq<string>): nat {
    if |names| == 0 then 0 else |Matching(sections, rules, names[0])| + SumMatching(sections, rules, names[1..])
  }

  lemma {:induction false} SumMatchingCovered(sections: seq<Section>, rules: seq<string>, names: seq<string>)
    requires forall i, j | 0 <= i < j < |names| :: names[i] != names[j]
    ensures SumMatching(sections, rules, names) == Covered(sections, rules, names)
    decreases |rules|
  {
    if |rules| == 0 {
      SumMatchingEmpty(sections, names);
    } else {
      CountName(names, "", sections, rules);
      SumMatchingCovered(sections, rules[1..], names);
    }
  }

  lemma {:induction false} SumMatchingEmpty(sections: seq<Section>, names: seq<string>)
    ensures SumMatching(sections, [], names) == 0
    decreases |names|
  {
    if |names| > 0 {
      SumMatchingEmpty(sections, names[1..]);
    }
  }

  lemma {:induction false} TotalIsSum(d: Organized, sections: seq<Section>, rules: seq<string>)
    requires forall k | 0 <= k < |d| :: d[k].1 == Matching(sections, rules, d[k].0)
    ensures TotalRules(d) == SumMatching(sections, rules, Names(d))
    decreases |d|
  {
    if |d| > 0 {
      TotalIsSum(d[1..], sections, rules);
      assert Names(d)[1..] == Names(d[1..]);
    }
  }

  /** The statistic `total_rules` counts the rules filed under some section:
      it equals the header's count, the number of optimized rules, exactly
      when no rule was dropped. */
  lemma TotalRulesCounts(sections: seq<Section>, rules: seq<string>)
    requires Organize(sections, rules).Success?
    ensures var d := Organize(sections, rules).value;
      && TotalRules(d) == Covered(sections, rules, Names(d))
      && TotalRules(d) <= |rules|
      && (TotalRules(d) == |rules| <==> forall k | 0 <= k < |rules| :: Target(sections, rules[k]).Some?)
  {
    OrganizeMeaning(sections, rules);
    var d := Organize(sections, rules).value;
    TotalIsSum(d, sections, rules);
    SumMatchingCovered(sections, rules, Names(d));
    CoveredAll(sections, rules, Names(d));
  }

  /** Every rule with a target section is counted, since the names hold
      every section's name. */
  lemma {:induction false} CoveredAll(sections: seq<Section>, rules: seq<string>, names: seq<string>)
    requires forall s | s in sections && s.name.Some? :: s.name.value in names
    ensures Covered(sections, rules, names) == |rules| <==> forall k | 0 <= k < |rules| :: Target(sections, rules[k]).Some?
    decreases |rules|
  {
    if |rules| > 0 {
      CoveredAll(sections, rules[1..], names);
      var t := Target(sections, rules[0]);
      if t.Some? {
        var s := SectionByRuleType(sections, SimpleClassify(rules[0])).value;
        assert s in sections && s.name == t;
      }
      assert forall k | 1 <= k < |rules| :: rules[k] == rules[1..][k - 1];
      if forall k | 0 <= k < |rules[1..]| :: Target(sections, rules[1..][k]).Some? {
        assert forall k | 1 <= k < |rules| :: Target(sections, rules[k]).Some?;
      }
    }
  }

  // ---------------------------------------------------------------------
  // _generate_header

  const Dashes := "------------------------------"
  const TitleLabel := "! Title: "
  const DescriptionLabel := "! Description: "
  const AuthorLabel := "! Author: "
  const HomepageLabel := "! Homepage: "
  const UpdatedLabel := "! Last updated: "
  const TotalRulesLabel := "! Total rules: "
  const ExpiresLabel := "! Expires: "

  /** The lines of the header, once every metadata field is found: the
      labelled fields, then a fixed trailer. */
  function HeaderLines(title: string, description: string, author: string, homepage: string,
                       lastUpdated: string, ruleCount: nat, expires: string): seq<string>
  {
    [ TitleLabel + title,
      DescriptionLabel + description,
      AuthorLabel + author,
      HomepageLabel + homepage,
      UpdatedLabel + lastUpdated,
      TotalRulesLabel + NatToString(ruleCount),
      ExpiresLabel + expires ]
    + Trailer(homepage)
  }

  function Trailer(homepage: string): seq<string> {
    [ "!",
      "! Please report issues or contribute at:",
      "! " + homepage,
      "!",
      "! " + Dashes + " General Blocking Rules " + Dashes ]
  }

  /** `_generate_header`: the metadata subscripts are evaluated in the order
      the fields appear, so the first missing one is the error. */
  function Header(meta: map<string, string>, lastUpdated: string, ruleCount: nat): (r: Result<string, KeyError>)
    ensures r.Success? <==> "title" in meta && "description" in meta && "author" in meta
                            && "homepage" in meta && "expires" in meta
    ensures "title" !in meta ==> r == Failure(KeyError("title"))
    ensures "title" in meta && "description" !in meta ==> r == Failure(KeyError("description"))
    ensures "title" in meta && "description" in meta && "author" !in meta ==> r == Failure(KeyError("author"))
    ensures ("title" in meta && "description" in meta && "author" in meta && "homepage" !in meta)
            ==> r == Failure(KeyError("homepage"))
    ensures ("title" in meta && "description" in meta && "author" in meta && "homepage" in meta
             && "expires" !in meta) ==> r == Failure(KeyError("expires"))
  {
    if "title" !in meta then Failure(KeyError("title"))
    else if "description" !in meta then Failure(KeyError("description"))
    else if "author" !in meta then Failure(KeyError("author"))
    else if "homepage" !in meta then Failure(KeyError("homepage"))
    else if "expires" !in meta then Failure(KeyError("expires"))
    else Success(JoinLines(HeaderLines(meta["title"], meta["description"], meta["author"],
                                       meta["homepage"], lastUpdated, ruleCount, meta["expires"])))
  }

  lemma NumeralNoBreaks(n: nat)
    ensures NoBreaks(NatToString(n))
  {
    var s := NatToString(n);
    forall i | 0 <= i < |s| ensures !IsLineBreak(s[i]) {
      assert IsDigit(s[i]);
    }
  }

  lemma LabelsSingle()
    ensures NoBreaks(TitleLabel) && NoBreaks(DescriptionLabel) && NoBreaks(AuthorLabel)
    ensures NoBreaks(HomepageLabel)
  {
    NoBreaksByMembers(TitleLabel);
    NoBreaksByMembers(DescriptionLabel);
    NoBreaksByMembers(AuthorLabel);
    NoBreaksByMembers(HomepageLabel);
  }

  lemma MoreLabelsSingle()
    ensures NoBreaks(UpdatedLabel) && NoBreaks(TotalRulesLabel) && NoBreaks(ExpiresLabel)
  {
    NoBreaksByMembers(UpdatedLabel);
    NoBreaksByMembers(TotalRulesLabel);
    NoBreaksByMembers(ExpiresLabel);
  }

  /** Read back line by line, the header shows the metadata fields in
      order and, on its sixth line, the rule count it was given, which is
      the number of optimized rules passed to `generate`. The fields must be
      single lines. */
  lemma HeaderReadBack(meta: map<string, string>, lastUpdated: string, ruleCount: nat)
    requires Header(meta, lastUpdated, ruleCount).Success?
    requires forall k | k in meta :: NoBreaks(meta[k])
    requires NoBreaks(lastUpdated)
    ensures var lines := SplitLines(Header(meta, lastUpdated, ruleCount).value);
      && |lines| >= 7
      && lines[0] == TitleLabel + meta["title"]
      && lines[1] == DescriptionLabel + meta["description"]
      && lines[2] == AuthorLabel + meta["author"]
      && lines[3] == HomepageLabel + meta["homepage"]
      && lines[4] == UpdatedLabel + lastUpdated
      && lines[6] == ExpiresLabel + meta["expires"]
      && StartsWith(lines[5], TotalRulesLabel)
      && (forall i | |TotalRulesLabel| <= i < |lines[5]| :: IsDigit(lines[5][i]))
      && ParseNat(lines[5][|TotalRulesLabel|..]) == ruleCount
  {
    var fields := [ TitleLabel + meta["title"], DescriptionLabel + meta["description"],
                    AuthorLabel + meta["author"], HomepageLabel + meta["homepage"],
                    UpdatedLabel + lastUpdated, TotalRulesLabel + NatToString(ruleCount),
                    ExpiresLabel + meta["expires"] ];
    var trailer := Trailer(meta["homepage"]);
    LabelsSingle();
    MoreLabelsSingle();
    NumeralNoBreaks(ruleCount);
    NoBreaksConcat(TitleLabel, meta["title"]);
    NoBreaksConcat(DescriptionLabel, meta["description"]);
    NoBreaksConcat(AuthorLabel, meta["author"]);
    NoBreaksConcat(HomepageLabel, meta["homepage"]);
    NoBreaksConcat(UpdatedLabel, lastUpdated);
    NoBreaksConcat(TotalRulesLabel, NatToString(ruleCount));
    NoBreaksConcat(ExpiresLabel, meta["expires"]);
    assert forall k | 0 <= k < |fields| :: NoBreaks(fields[k]);
    SingleLinesEach(fields);
    JoinLinesAppend(fields, trailer);
    SplitJoinLines(fields, JoinLines(trailer));
    assert fields[5][|TotalRulesLabel|..] == NatToString(ruleCount);
    ParseNatToString(ruleCount);
  }

  // ---------------------------------------------------------------------
  // generate

  /** `self.stats` after one run: the rule total and the per-section
      counts. */
  datatype Stats = Stats(totalRules: nat, sections: map<string, nat>)

  /** What `generate` produces: the header, the organized sections written
      after it, and the statistics. */
  datatype Output = Output(header: string, sections: Organized, stats: Stats)

  /** `generate` on a fresh generator: the header counts every optimized
      rule; a missing metadata field is reported before a missing section
      name. */
  function Generate(meta: map<string, string>, lastUpdated: string, sections: seq<Section>,
                    rules: seq<string>): (r: Result<Output, KeyError>)
    ensures Header(meta, lastUpdated, |rules|).Failure? ==> r == Failure(Header(meta, lastUpdated, |rules|).error)
    ensures r.Success? <==> Header(meta, lastUpdated, |rules|).Success? && Organize(sections, rules).Success?
    ensures r.Success? ==> r.value.header == Header(meta, lastUpdated, |rules|).value
  {
    match Header(meta, lastUpdated, |rules|)
    case Failure(e) => Failure(e)
    case Success(h) =>
      match Organize(sections, rules)
      case Failure(e) => Failure(e)
      case Success(d) => Success(Output(h, d, Stats(TotalRules(d), SectionStats(d))))
  }

  /** After `generate`, every section name has a statistic equal to the
      size of its list, and the total counts the rules written, which is
      the header's count exactly when no rule was dropped. */
  lemma GenerateStatistics(meta: map<string, string>, lastUpdated: string, sections: seq<Section>,
                           rules: seq<string>)
    requires Generate(meta, lastUpdated, sections, rules).Success?
    ensures var out := Generate(meta, lastUpdated, sections, rules).value;
      && (forall n :: n in out.stats.sections <==> exists s | s in sections :: s.name == Some(n))
      && (forall n | n in out.stats.sections :: out.stats.sections[n] == |Matching(sections, rules, n)|)
      && out.stats.totalRules <= |rules|
      && (out.stats.totalRules == |rules| <==> forall k | 0 <= k < |rules| :: Target(sections, rules[k]).Some?)
  {
    var d := Organize(sections, rules).value;
    TotalRulesCounts(sections, rules);
    StatsOfOrganized(sections, rules);
  }

  /** The per-section statistics of an organized rule list. */
  lemma StatsOfOrganized(sections: seq<Section>, rules: seq<string>)
    requires Organize(sections, rules).Success?
    ensures var stats := SectionStats(Organize(sections, rules).value);
      && (forall n :: n in stats <==> exists s | s in sections :: s.name == Some(n))
      && (forall n | n in stats :: stats[n] == |Matching(sections, rules, n)|)
  {
    var d := Organize(sections, rules).value;
    OrganizeMeaning(sections, rules);
    forall n | n in SectionStats(d) ensures SectionStats(d)[n] == |Matching(sections, rules, n)| {
      var k :| 0 <= k < |d| && d[k].0 == n;
      SectionStatsMeaning(d, k);
    }
    assert forall n :: n in SectionStats(d) <==> n in Names(d);
  }
}

=== FILE: rule_converter.dfy ===
/** The rule converter: classifying a rule into one of the list's rule
    types, converting it through the conversion database, and sorting the
    rules of every fetched source into per-type buckets. */
module RuleConverter {
  import opened Wrappers
  import opened Strings
  import opened Config
  import Database

  // ---------------------------------------------------------------------
  // classify_rule

  /** A host-name character of the hosts-file pattern: `[a-z0-9.-]`. */
  predicate HostChar(c: char) {
    ('a' <= c <= 'z') || ('0' <= c <= '9') || c == '.' || c == '-'
  }

  /** What follows the address: `\s+[a-z0-9.-]+` to the end. */
  predicate HostsBody(u: string) {
    && |u| > 0 && IsSpace(u[0])
    && var h := LStrip(u);
    && |h| > 0 && forall k | 0 <= k < |h| :: HostChar(h[k])
  }

  /** `re.match(r'^(0\.0\.0\.0|127\.0\.0\.1)\s+[a-z0-9.-]+$', rule)`:
      `$` also matches just before a final newline, which `\s+` cannot have
      swallowed since a host name must follow it. */
  predicate HostsTail(t: string) {
    HostsBody(t) || (|t| > 0 && t[|t| - 1] == '\n' && HostsBody(t[..|t| - 1]))
  }

  predicate HostsFormat(rule: string) {
    || (StartsWith(rule, "0.0.0.0") && HostsTail(rule[7..]))
    || (StartsWith(rule, "127.0.0.1") && HostsTail(rule[9..]))
  }

  /** The rule type ids the classifier can produce. */
  const ClassifiedTypes: set<int> := {1, 2, 3, 4, 5, 7, 8, 9, 11, 12, 14, 15}

  /** `classify_rule`: the first test of the cascade that holds decides. */
  function Classify(rule: string): (r: Option<int>)
    ensures r.Some? ==> r.value in ClassifiedTypes
    ensures r.None? ==> |rule| == 0 || StartsWith(rule, "!")
  {
    if StartsWith(rule, "||") && '^' in rule && !StartsWith(rule, "@@") then Some(1)
    else if !Contains(rule, "##") && Contains(rule, "$domain=") then Some(2)
    else if Contains(rule, "##") && !StartsWith(rule, "@@") && !Contains(rule, "#@#") && !Contains(rule, "#?#") then Some(3)
    else if StartsWith(rule, "@@") then Some(4)
    else if StartsWith(rule, "/") && EndsWith(rule, "/") then Some(5)
    else if Contains(rule, "$redirect=") then Some(15)
    else if Contains(rule, "##+js") then Some(7)
    else if Contains(rule, "##^") then Some(8)
    else if HostsFormat(rule) then Some(9)
    else if Contains(rule, "##") && (Contains(rule, ":has(") || Contains(rule, ":not(") || Contains(rule, ":is(")) then Some(11)
    else if '$' in rule && !Contains(rule, "$redirect=") && !Contains(rule, "$domain=") && !Contains(rule, "$removeparam=") then Some(12)
    else if Contains(rule, "$removeparam=") then Some(14)
    else if |rule| > 0 && !StartsWith(rule, "!") then Some(1)
    else None
  }

  /** A rule with no `#` and no `$` that does not start with `||`, `@@`
      or `/` reaches the end of the cascade: a hosts-file line, basic
      blocking, or nothing for a comment. */
  lemma PlainRule(rule: string)
    requires '#' !in rule && '$' !in rule
    requires !StartsWith(rule, "||") && !StartsWith(rule, "@@") && !StartsWith(rule, "/")
    ensures Classify(rule) ==
      if HostsFormat(rule) then Some(9)
      else if |rule| > 0 && !StartsWith(rule, "!") then Some(1)
      else None
  {
    ContainsHasChar(rule, "##", 0);
    ContainsHasChar(rule, "$domain=", 0);
    ContainsHasChar(rule, "$redirect=", 0);
    ContainsHasChar(rule, "$removeparam=", 0);
    ContainsHasChar(rule, "##+js", 0);
    ContainsHasChar(rule, "##^", 0);
  }

  /** A comment line without `#` or `$` is rejected. */
  lemma CommentUnclassified(rule: string)
    requires StartsWith(rule, "!") && '#' !in rule && '$' !in rule
    ensures Classify(rule).None?
  {
    assert rule[0] == '!';
    PlainRule(rule);
    assert !StartsWith(rule, "0.0.0.0") && !StartsWith(rule, "127.0.0.1");
  }

  /** A `!` comment holding `##` is taken for element hiding: the cascade
      tests element hiding before it tests for comments. */
  lemma CommentWithHidingIsHiding(rule: string)
    requires StartsWith(rule, "!") && Contains(rule, "##")
    requires !Contains(rule, "#@#") && !Contains(rule, "#?#")
    ensures Classify(rule) == Some(3)
  {
    assert rule[0] == '!';
  }

  /** A network filter `||…^` is basic URL blocking. */
  lemma NetworkIsBasic(rule: string)
    requires StartsWith(rule, "||") && '^' in rule
    ensures Classify(rule) == Some(1)
  {
    assert rule[0] == '|';
  }

  /** An element-hiding rule without exception or extended syntax is type 3. */
  lemma HidingIsType3(rule: string)
    requires Contains(rule, "##") && !StartsWith(rule, "@@")
    requires !Contains(rule, "#@#") && !Contains(rule, "#?#")
    requires !(StartsWith(rule, "||") && '^' in rule)
    ensures Classify(rule) == Some(3)
  {
  }

  /** An `@@` exception is type 4, unless it names `$domain=` without `##`,
      which makes it domain-specific blocking (type 2). */
  lemma ExceptionClassified(rule: string)
    requires StartsWith(rule, "@@")
    ensures Classify(rule) == (if !Contains(rule, "##") && Contains(rule, "$domain=") then Some(2) else Some(4))
  {
  }

  /** Scriptlet (7), HTML filtering (8) and extended CSS (11) are reached
      only by rules holding `#@#` or `#?#`: any other rule with `##` stops at
      element hiding or an exception first. */
  lemma ShadowedTypes(rule: string)
    requires Classify(rule) == Some(7) || Classify(rule) == Some(8) || Classify(rule) == Some(11)
    ensures Contains(rule, "#@#") || Contains(rule, "#?#")
  {
    ContainsPrefix(rule, "##+js", 2);
    assert "##+js"[..2] == "##";
    ContainsPrefix(rule, "##^", 2);
    assert "##^"[..2] == "##";
  }

  /** A hosts-file line is type 9: none of its characters can start an
      earlier test of the cascade. */
  lemma HostsLineIsType9(rule: string)
    requires HostsFormat(rule)
    ensures Classify(rule) == Some(9)
  {
    HostsLineChars(rule);
    NoHashOrDollar(rule);
    StartsWithHead(rule, "||");
    StartsWithHead(rule, "@@");
    StartsWithHead(rule, "/");
    PlainRule(rule);
  }

  lemma NoHashOrDollar(rule: string)
    requires forall k | 0 <= k < |rule| :: IsSpace(rule[k]) || HostChar(rule[k])
    ensures '#' !in rule && '$' !in rule
  {
    forall k | 0 <= k < |rule| ensures rule[k] != '#' && rule[k] != '$' {
      assert IsSpace(rule[k]) || HostChar(rule[k]);
    }
  }

  /** A hosts-file line is made of host-name characters and white space,
      and starts with a digit. */
  lemma HostsLineChars(rule: string)
    requires HostsFormat(rule)
    ensures forall k | 0 <= k < |rule| :: IsSpace(rule[k]) || HostChar(rule[k])
    ensures |rule| > 0 && (rule[0] == '0' || rule[0] == '1')
  {
    var ip := if StartsWith(rule, "0.0.0.0") && HostsTail(rule[7..]) then "0.0.0.0" else "127.0.0.1";
    var t := rule[|ip|..];
    assert rule[..|ip|] == ip;
    HostsTailChars(t);
    AddressChars(ip);
    forall k | 0 <= k < |rule| ensures IsSpace(rule[k]) || HostChar(rule[k]) {
      if k < |ip| {
        assert rule[k] == rule[..|ip|][k];
      } else {
        assert rule[k] == t[k - |ip|];
      }
    }
    assert rule[0] == ip[0];
  }

  lemma AddressChars(ip: string)
    requires ip == "0.0.0.0" || ip == "127.0.0.1"
    ensures forall k | 0 <= k < |ip| :: HostChar(ip[k])
  {
  }

  lemma HostsTailChars(t: string)
    requires HostsTail(t)
    ensures forall k | 0 <= k < |t| :: IsSpace(t[k]) || HostChar(t[k])
  {
    if HostsBody(t) {
      HostsBodyChars(t);
    } else {
      HostsBodyChars(t[..|t| - 1]);
      NewlineEnd(t, t[..|t| - 1]);
    }
  }

  /** A final newline is white space. */
  lemma NewlineEnd(t: string, u: string)
    requires |t| > 0 && t[|t| - 1] == '\n' && u == t[..|t| - 1]
    requires forall k | 0 <= k < |u| :: IsSpace(u[k]) || HostChar(u[k])
    ensures forall k | 0 <= k < |t| :: IsSpace(t[k]) || HostChar(t[k])
  {
    forall k | 0 <= k < |t| ensures IsSpace(t[k]) || HostChar(t[k]) {
      if k < |u| {
        assert t[k] == u[k];
      }
    }
  }

  lemma HostsBodyChars(u: string)
    requires HostsBody(u)
    ensures forall k | 0 <= k < |u| :: IsSpace(u[k]) || HostChar(u[k])
  {
    var h := LStrip(u);
    assert u == u[..|u| - |h|] + h;
    forall k | 0 <= k < |u| ensures IsSpace(u[k]) || HostChar(u[k]) {
      if k >= |u| - |h| {
        assert u[k] == h[k - (|u| - |h|)];
      }
    }
  }

  // ---------------------------------------------------------------------
  // convert_rule

  const NoDatabase: string := "Database converter not available"
  const ConversionFailed: string := "Conversion error"

  /** `RuleConverter.convert_rule`: `dbAvailable` is whether the database
      converter could be built; `sourceType` is the source's `type` field,
      which the database looks up by name. An exception in the database
      call yields `("", "Conversion error")`. */
  function Convert(dbAvailable: bool, rule: string, sourceType: Value): (r: Database.Conversion)
    ensures !dbAvailable ==> r == Database.Conversion(Some(rule), NoDatabase)
    ensures dbAvailable && !sourceType.Str? ==> r == Database.Conversion(None, Database.SourceNotFound)
  {
    if !dbAvailable then Database.Conversion(Some(rule), NoDatabase)
    else match sourceType
      case Str(name) =>
        (match Database.ConvertRule(rule, name)
         case Success(c) => c
         case Failure(_) => Database.Conversion(Some(""), ConversionFailed))
      case _ => Database.Conversion(None, Database.SourceNotFound)
  }

  /** With the database available the error path is never taken: every
      conversion the database can apply succeeds on the rules it is applied
      to, and a named source yields the database's own answer. */
  lemma ConvertNeverFails(rule: string, sourceType: Value)
    ensures Convert(true, rule, sourceType).status != ConversionFailed
    ensures sourceType.Str? ==>
      Success(Convert(true, rule, sourceType)) == Database.ConvertRule(rule, sourceType.s)
  {
    if sourceType.Str? {
      Database.ConvertRuleSucceeds(rule, sourceType.s);
      var c := Database.ConvertRule(rule, sourceType.s).value;
      assert c.status != ConversionFailed by {
        Database.ConvertRuleStatus(rule, sourceType.s);
      }
    }
  }

  // ---------------------------------------------------------------------
  // process_rules

  /** One entry of `source_lists`: the source's name, its rules and its
      configuration object. */
  datatype SourceRules = SourceRules(name: string, rules: seq<string>, metadata: Object)

  /** The loop state: the rules per type id and the converted rules seen. */
  datatype State = State(buckets: map<int, seq<string>>, processed: set<string>)

  /** A converter as `process_rules` calls it: `(rule, source type)` to
      `(converted rule, status)`. */
  type Converter = (string, Value) -> Database.Conversion

  /** The type ids some section lists. */
  function SectionTypes(sections: seq<Section>): set<int> {
    set s, t | s in sections && t in TypesOf(s) :: t
  }

  /** An empty bucket for each type id some section lists. */
  function InitialBuckets(sections: seq<Section>): (r: map<int, seq<string>>)
    ensures r.Keys == SectionTypes(sections)
    ensures forall t | t in r :: r[t] == []
  {
    map t | t in SectionTypes(sections) :: []
  }

  /** `converted_rule` is truthy. */
  predicate Kept(c: Database.Conversion) {
    c.rule.Some? && |c.rule.value| > 0
  }

  /** One rule of one source through the loop body. */
  function Step(st: State, rule: string, sourceType: Value, convert: Converter): (r: State)
    ensures r.buckets.Keys == st.buckets.Keys
  {
    var raw := Strip(rule);
    if |raw| == 0 || raw in st.processed then st
    else
      var c := convert(raw, sourceType);
      if !Kept(c) then st
      else match Classify(c.rule.value)
        case None => st
        case Some(t) =>
          if t in st.buckets then
            State(st.buckets[t := st.buckets[t] + [c.rule.value]], st.processed + {c.rule.value})
          else st
  }

  function StepAll(st: State, rules: seq<string>, sourceType: Value, convert: Converter): (r: State)
    ensures r.buckets.Keys == st.buckets.Keys
    decreases |rules|
  {
    if |rules| == 0 then st
    else StepAll(Step(st, rules[0], sourceType, convert), rules[1..], sourceType, convert)
  }

  /** `source_metadata.get("type", "")` */
  function SourceType(src: SourceRules): Value {
    Get(src.metadata, "type", Str(""))
  }

  function StepSources(st: State, sources: seq<SourceRules>, convert: Converter): (r: State)
    ensures r.buckets.Keys == st.buckets.Keys
    decreases |sources|
  {
    if |sources| == 0 then st
    else StepSources(StepAll(st, sources[0].rules, SourceType(sources[0]), convert), sources[1..], convert)
  }

  /** `process_rules`: the buckets of type ids the sections list. */
  function ProcessRules(sections: seq<Section>, sources: seq<SourceRules>, convert: Converter): (r: map<int, seq<string>>)
    ensures r.Keys == SectionTypes(sections)
  {
    StepSources(State(InitialBuckets(sections), {}), sources, convert).buckets
  }

  /** Every bucketed rule is non-empty, classifies to its bucket's id, and
      has been recorded as processed. */
  predicate Sound(st: State) {
    forall t | t in st.buckets ::
      forall k | 0 <= k < |st.buckets[t]| ::
        && |st.buckets[t][k]| > 0
        && Classify(st.buckets[t][k]) == Some(t)
        && st.buckets[t][k] in st.processed
  }

  lemma StepSound(st: State, rule: string, sourceType: Value, convert: Converter)
    requires Sound(st)
    ensures Sound(Step(st, rule, sourceType, convert))
  {
    var r := Step(st, rule, sourceType, convert);
    StepSkips(st, rule, sourceType, convert);
    if r != st {
      var c := convert(Strip(rule), sourceType).rule.value;
      var t0 :| t0 in st.buckets && Classify(c) == Some(t0)
        && r == State(st.buckets[t0 := st.buckets[t0] + [c]], st.processed + {c});
      assert |c| > 0;
      forall t | t in r.buckets
        ensures forall k | 0 <= k < |r.buckets[t]| ::
          && |r.buckets[t][k]| > 0
          && Classify(r.buckets[t][k]) == Some(t)
          && r.buckets[t][k] in r.processed
      {
        if t == t0 {
          forall k | 0 <= k < |r.buckets[t]|
            ensures |r.buckets[t][k]| > 0 && Classify(r.buckets[t][k]) == Some(t) && r.buckets[t][k] in r.processed
          {
            if k < |st.buckets[t]| {
              assert r.buckets[t][k] == st.buckets[t][k];
            } else {
              assert r.buckets[t][k] == c;
            }
          }
        } else {
          assert r.buckets[t] == st.buckets[t];
        }
      }
    }
  }

  lemma {:induction false} StepAllSound(st: State, rules: seq<string>, sourceType: Value, convert: Converter)
    requires Sound(st)
    ensures Sound(StepAll(st, rules, sourceType, convert))
    decreases |rules|
  {
    if |rules| > 0 {
      StepSound(st, rules[0], sourceType, convert);
      StepAllSound(Step(st, rules[0], sourceType, convert), rules[1..], sourceType, convert);
    }
  }

  lemma {:induction false} StepSourcesSound(st: State, sources: seq<SourceRules>, convert: Converter)
    requires Sound(st)
    ensures Sound(StepSources(st, sources, convert))
    decreases |sources|
  {
    if |sources| > 0 {
      StepAllSound(st, sources[0].rules, SourceType(sources[0]), convert);
      StepSourcesSound(StepAll(st, sources[0].rules, SourceType(sources[0]), convert), sources[1..], convert);
    }
  }

  /** `process_rules` keeps exactly the sections' type ids as keys, and
      every rule it files is non-empty and classifies to the id it is filed
      under; so no rule is filed under two ids. */
  lemma ProcessRulesSound(sections: seq<Section>, sources: seq<SourceRules>, convert: Converter, t: int, k: nat)
    requires t in ProcessRules(sections, sources, convert)
    requires k < |ProcessRules(sections, sources, convert)[t]|
    ensures var rule := ProcessRules(sections, sources, convert)[t][k];
      |rule| > 0 && Classify(rule) == Some(t)
  {
    StepSourcesSound(State(InitialBuckets(sections), {}), sources, convert);
  }

  /** The rules filed in some bucket. */
  function Filed(buckets: map<int, seq<string>>): set<string> {
    set t, k | t in buckets && 0 <= k < |buckets[t]| :: buckets[t][k]
  }

  /** `processed_rules` is exactly the set of filed rules. */
  predicate Tracked(st: State) {
    st.processed == Filed(st.buckets)
  }

  lemma StepTracked(st: State, rule: string, sourceType: Value, convert: Converter)
    requires Tracked(st)
    ensures Tracked(Step(st, rule, sourceType, convert))
    ensures st.processed <= Step(st, rule, sourceType, convert).processed
  {
    var r := Step(st, rule, sourceType, convert);
    if r != st {
      var c := convert(Strip(rule), sourceType).rule.value;
      var t := Classify(c).value;
      assert r.buckets == st.buckets[t := st.buckets[t] + [c]];
      assert r.buckets[t][|st.buckets[t]|] == c;
      forall x | x in Filed(r.buckets) ensures x in r.processed {
        var u, k :| u in r.buckets && 0 <= k < |r.buckets[u]| && r.buckets[u][k] == x;
        if u != t || k < |st.buckets[t]| {
          assert x in Filed(st.buckets);
        }
      }
      forall x | x in st.processed ensures x in Filed(r.buckets) {
        var u, k :| u in st.buckets && 0 <= k < |st.buckets[u]| && st.buckets[u][k] == x;
        assert r.buckets[u][k] == x;
      }
    }
  }

  /** A converter that returns every rule unchanged, as `convert_rule` does
      when the database is unavailable. */
  ghost predicate Identity(convert: Converter) {
    forall r, v :: convert(r, v).rule == Some(r)
  }

  /** No rule occurs twice in a bucket. */
  predicate Distinct(st: State) {
    forall t | t in st.buckets :: forall i, j | 0 <= i < j < |st.buckets[t]| :: st.buckets[t][i] != st.buckets[t][j]
  }

  lemma StepDistinct(st: State, rule: string, sourceType: Value, convert: Converter)
    requires Tracked(st) && Distinct(st) && Identity(convert)
    ensures Distinct(Step(st, rule, sourceType, convert))
  {
    var r := Step(st, rule, sourceType, convert);
    if r != st {
      var c := Strip(rule);
      assert convert(c, sourceType).rule == Some(c);
      var t := Classify(c).value;
      assert c !in st.processed;
      assert r.buckets[t] == st.buckets[t] + [c];
      forall i | 0 <= i < |st.buckets[t]| ensures st.buckets[t][i] != c {
        assert st.buckets[t][i] in Filed(st.buckets);
      }
    }
  }

  /** The invariants together, each step preserving them. */
  ghost predicate Good(st: State, convert: Converter) {
    Sound(st) && Tracked(st) && (Identity(convert) ==> Distinct(st))
  }

  lemma StepGood(st: State, rule: string, sourceType: Value, convert: Converter)
    requires Good(st, convert)
    ensures Good(Step(st, rule, sourceType, convert), convert)
    ensures st.processed <= Step(st, rule, sourceType, convert).processed
  {
    StepSound(st, rule, sourceType, convert);
    StepTracked(st, rule, sourceType, convert);
    if Identity(convert) {
      StepDistinct(st, rule, sourceType, convert);
    }
  }

  /** A rule the loop files into one of the buckets it has. */
  predicate Bucketable(x: string, keys: set<int>) {
    |x| > 0 && Classify(x).Some? && Classify(x).value in keys
  }

  /** With an identity converter every stripped, classifiable rule is
      processed once its step has run. */
  lemma StepRecords(st: State, rule: string, sourceType: Value, convert: Converter)
    requires Good(st, convert) && Identity(convert)
    requires Bucketable(Strip(rule), st.buckets.Keys)
    ensures Strip(rule) in Step(st, rule, sourceType, convert).processed
  {
    assert convert(Strip(rule), sourceType).rule == Some(Strip(rule));
  }

  /** The invariants hold through a source's rules; with an identity
      converter each classifiable rule ends up processed, and everything
      newly processed is one of the source's stripped rules. */
  lemma {:induction false} StepAllGood(st: State, rules: seq<string>, sourceType: Value, convert: Converter)
    requires Good(st, convert)
    ensures var r := StepAll(st, rules, sourceType, convert);
      && Good(r, convert)
      && st.processed <= r.processed
      && (Identity(convert) ==> forall x | x in r.processed && x !in st.processed ::
            exists k | 0 <= k < |rules| :: Strip(rules[k]) == x)
      && (Identity(convert) ==> forall k | 0 <= k < |rules| && Bucketable(Strip(rules[k]), st.buckets.Keys) ::
              Strip(rules[k]) in r.processed)
    decreases |rules|
  {
    if |rules| > 0 {
      var st' := Step(st, rules[0], sourceType, convert);
      StepGood(st, rules[0], sourceType, convert);
      StepAllGood(st', rules[1..], sourceType, convert);
      var r := StepAll(st', rules[1..], sourceType, convert);
      if Identity(convert) {
        StepNew(st, rules[0], sourceType, convert);
        NewOfRules(st.processed, st'.processed, r.processed, rules);
        if Bucketable(Strip(rules[0]), st.buckets.Keys) {
          StepRecords(st, rules[0], sourceType, convert);
        }
        RecordsOfRules(x => Bucketable(x, st.buckets.Keys), st'.processed, r.processed, rules);
      }
    }
  }

  /** Under an identity converter the loop body records nothing but the
      stripped rule. */
  lemma StepNew(st: State, rule: string, sourceType: Value, convert: Converter)
    requires Identity(convert)
    ensures forall x | x in Step(st, rule, sourceType, convert).processed && x !in st.processed :: x == Strip(rule)
  {
    StepSkips(st, rule, sourceType, convert);
  }

  lemma NewOfRules(p0: set<string>, p1: set<string>, p2: set<string>, rules: seq<string>)
    requires |rules| > 0
    requires forall x | x in p1 && x !in p0 :: x == Strip(rules[0])
    requires forall x | x in p2 && x !in p1 :: exists k | 0 <= k < |rules[1..]| :: Strip(rules[1..][k]) == x
    ensures forall x | x in p2 && x !in p0 :: exists k | 0 <= k < |rules| :: Strip(rules[k]) == x
  {
    forall x | x in p2 && x !in p0 ensures exists k | 0 <= k < |rules| :: Strip(rules[k]) == x {
      if x in p1 {
        assert Strip(rules[0]) == x;
      } else {
        var k :| 0 <= k < |rules[1..]| && Strip(rules[1..][k]) == x;
        assert rules[k + 1] == rules[1..][k];
      }
    }
  }

  lemma RecordsOfRules(want: string -> bool, p1: set<string>, p2: set<string>, rules: seq<string>)
    requires |rules| > 0 && p1 <= p2
    requires want(Strip(rules[0])) ==> Strip(rules[0]) in p1
    requires forall k | 0 <= k < |rules[1..]| && want(Strip(rules[1..][k])) ::
        Strip(rules[1..][k]) in p2
    ensures forall k | 0 <= k < |rules| && want(Strip(rules[k])) ::
        Strip(rules[k]) in p2
  {
    forall k | 0 <= k < |rules| && want(Strip(rules[k]))
      ensures Strip(rules[k]) in p2
    {
      if k > 0 {
        assert rules[k] == rules[1..][k - 1];
      }
    }
  }

  lemma {:induction false} StepSourcesGood(st: State, sources: seq<SourceRules>, convert: Converter)
    requires Good(st, convert)
    ensures var r := StepSources(st, sources, convert);
      && Good(r, convert)
      && st.processed <= r.processed
      && (Identity(convert) ==> forall x | x in r.processed && x !in st.processed ::
            exists i, k | 0 <= i < |sources| && 0 <= k < |sources[i].rules| :: Strip(sources[i].rules[k]) == x)
      && (Identity(convert) ==> forall i, k | 0 <= i < |sources| && 0 <= k < |sources[i].rules|
            && Bucketable(Strip(sources[i].rules[k]), st.buckets.Keys) ::
              Strip(sources[i].rules[k]) in r.processed)
    decreases |sources|
  {
    if |sources| > 0 {
      var st' := StepAll(st, sources[0].rules, SourceType(sources[0]), convert);
      StepAllGood(st, sources[0].rules, SourceType(sources[0]), convert);
      StepSourcesGood(st', sources[1..], convert);
      var r := StepSources(st', sources[1..], convert);
      if Identity(convert) {
        NewOfSources(st.processed, st'.processed, r.processed, sources);
        RecordsOfSources(x => Bucketable(x, st.buckets.Keys), st'.processed, r.processed, sources);
      }
    }
  }

  lemma NewOfSources(p0: set<string>, p1: set<string>, p2: set<string>, sources: seq<SourceRules>)
    requires |sources| > 0
    requires forall x | x in p1 && x !in p0 ::
      exists k | 0 <= k < |sources[0].rules| :: Strip(sources[0].rules[k]) == x
    requires forall x | x in p2 && x !in p1 ::
      exists i, k | 0 <= i < |sources[1..]| && 0 <= k < |sources[1..][i].rules| :: Strip(sources[1..][i].rules[k]) == x
    ensures forall x | x in p2 && x !in p0 ::
      exists i, k | 0 <= i < |sources| && 0 <= k < |sources[i].rules| :: Strip(sources[i].rules[k]) == x
  {
    forall x | x in p2 && x !in p0
      ensures exists i, k | 0 <= i < |sources| && 0 <= k < |sources[i].rules| :: Strip(sources[i].rules[k]) == x
    {
      if x in p1 {
        var k :| 0 <= k < |sources[0].rules| && Strip(sources[0].rules[k]) == x;
      } else {
        var i, k :| 0 <= i < |sources[1..]| && 0 <= k < |sources[1..][i].rules| && Strip(sources[1..][i].rules[k]) == x;
        assert sources[i + 1] == sources[1..][i];
      }
    }
  }

  lemma RecordsOfSources(want: string -> bool, p1: set<string>, p2: set<string>, sources: seq<SourceRules>)
    requires |sources| > 0 && p1 <= p2
    requires forall k | 0 <= k < |sources[0].rules| && want(Strip(sources[0].rules[k])) ::
        Strip(sources[0].rules[k]) in p1
    requires forall i, k | 0 <= i < |sources[1..]| && 0 <= k < |sources[1..][i].rules|
      && want(Strip(sources[1..][i].rules[k])) ::
        Strip(sources[1..][i].rules[k]) in p2
    ensures forall i, k | 0 <= i < |sources| && 0 <= k < |sources[i].rules|
      && want(Strip(sources[i].rules[k])) ::
        Strip(sources[i].rules[k]) in p2
  {
    forall i, k | 0 <= i < |sources| && 0 <= k < |sources[i].rules|
      && want(Strip(sources[i].rules[k]))
      ensures Strip(sources[i].rules[k]) in p2
    {
      if i > 0 {
        assert sources[i] == sources[1..][i - 1];
      }
    }
  }

  /** The fetched rules, stripped. */
  predicate Fetched(sources: seq<SourceRules>, x: string) {
    exists i, k | 0 <= i < |sources| && 0 <= k < |sources[i].rules| :: Strip(sources[i].rules[k]) == x
  }

  /** Without the database (or with any converter that returns its input),
      `process_rules` files each fetched rule, stripped, under the id it
      classifies to when a section lists that id, and files nothing else. */
  lemma ProcessRulesIdentity(sections: seq<Section>, sources: seq<SourceRules>, convert: Converter, t: int, x: string)
    requires Identity(convert) && t in SectionTypes(sections)
    ensures x in ProcessRules(sections, sources, convert)[t] <==>
      Fetched(sources, x) && |x| > 0 && Classify(x) == Some(t)
  {
    var st := State(InitialBuckets(sections), {});
    assert Filed(st.buckets) == {};
    StepSourcesGood(st, sources, convert);
    var r := StepSources(st, sources, convert);
    if x in r.buckets[t] {
      BucketedIsFetched(st, r, sources, t, x);
    }
    if Fetched(sources, x) && |x| > 0 && Classify(x) == Some(t) {
      assert x in r.processed;
      ProcessedIsBucketed(r, x);
    }
  }

  lemma BucketedIsFetched(st: State, r: State, sources: seq<SourceRules>, t: int, x: string)
    requires st.processed == {} && Sound(r) && t in r.buckets && x in r.buckets[t]
    requires forall y | y in r.processed && y !in st.processed ::
      exists i, k | 0 <= i < |sources| && 0 <= k < |sources[i].rules| :: Strip(sources[i].rules[k]) == y
    ensures Fetched(sources, x) && |x| > 0 && Classify(x) == Some(t)
  {
    var k :| 0 <= k < |r.buckets[t]| && r.buckets[t][k] == x;
    assert x in r.processed;
  }

  /** A processed rule sits in the bucket of its class. */
  lemma ProcessedIsBucketed(r: State, x: string)
    requires Sound(r) && Tracked(r) && x in r.processed
    ensures Classify(x).Some? && Classify(x).value in r.buckets && x in r.buckets[Classify(x).value]
  {
    assert x in Filed(r.buckets);
    var u, k :| u in r.buckets && 0 <= k < |r.buckets[u]| && r.buckets[u][k] == x;
  }

  /** Under an identity converter no bucket holds a rule twice. */
  lemma ProcessRulesDistinct(sections: seq<Section>, sources: seq<SourceRules>, convert: Converter, t: int)
    requires Identity(convert) && t in SectionTypes(sections)
    ensures var b := ProcessRules(sections, sources, convert)[t];
      forall i, j | 0 <= i < j < |b| :: b[i] != b[j]
  {
    var st := State(InitialBuckets(sections), {});
    assert Filed(st.buckets) == {};
    StepSourcesGood(st, sources, convert);
  }

  /** Without the database, `convert_rule` returns every rule unchanged. */
  lemma NoDatabaseIsIdentity()
    ensures Identity((r, v) => Convert(false, r, v))
  {
  }

  /** The loop body skips a blank line, a rule already recorded as
      processed, and a rule whose conversion is missing or empty; a rule that
      is not skipped and changes the state is appended, converted, to the
      list of its class and recorded. */
  lemma StepSkips(st: State, rule: string, sourceType: Value, convert: Converter)
    ensures |Strip(rule)| == 0 ==> Step(st, rule, sourceType, convert) == st
    ensures Strip(rule) in st.processed ==> Step(st, rule, sourceType, convert) == st
    ensures !Kept(convert(Strip(rule), sourceType)) ==> Step(st, rule, sourceType, convert) == st
    ensures Step(st, rule, sourceType, convert) != st ==>
      var c := convert(Strip(rule), sourceType).rule.value;
      exists t | t in st.buckets && Classify(c) == Some(t) ::
        Step(st, rule, sourceType, convert) == State(st.buckets[t := st.buckets[t] + [c]], st.processed + {c})
  {
  }

  /** `convert_rule` with the database in place. */
  function DatabaseConverter(rule: string, sourceType: Value): Database.Conversion {
    Convert(true, rule, sourceType)
  }

  /** With the database in place, the rules of a source whose type the
      database does not know are all skipped. */
  lemma UnknownSourceSkipped(st: State, rule: string, name: string)
    requires !Database.KnownSource(name)
    ensures Step(st, rule, Str(name), DatabaseConverter) == st
  {
    StepSkips(st, rule, Str(name), DatabaseConverter);
  }

  /** The skip test looks up the rule as fetched while the set records the
      rule as converted: a rule the converter changes is filed again each
      time it recurs. */
  lemma ConvertedRuleRecurs(sections: seq<Section>, convert: Converter, rule: string, v: Value, c: string, t: int)
    requires IsStripped(rule) && |rule| > 0
    requires convert(rule, v).rule == Some(c) && c != rule && |c| > 0
    requires Classify(c) == Some(t) && t in SectionTypes(sections)
    ensures ProcessRules(sections, [SourceRules("", [rule, rule], map["type" := v])], convert)[t] == [c, c]
  {
    StripStripped(rule);
    var src := SourceRules("", [rule, rule], map["type" := v]);
    assert SourceType(src) == v;
    var st0 := State(InitialBuckets(sections), {});
    var st1 := Step(st0, rule, v, convert);
    assert st1.buckets[t] == [c] && st1.processed == {c};
    var st2 := Step(st1, rule, v, convert);
    assert st2.buckets[t] == [c, c];
    assert StepAll(st0, src.rules, v, convert) == StepAll(st1, [rule], v, convert);
    assert StepAll(st1, [rule], v, convert) == StepAll(st2, [], v, convert);
    assert StepSources(st0, [src], convert) == StepSources(st2, [], convert);
  }

  /** With the database, a Pi-hole source listing `ads.example.com` twice
      yields `||ads.example.com^` twice in the basic-blocking bucket. */
  lemma PiholeRuleRecurs(sections: seq<Section>)
    requires 1 in SectionTypes(sections)
    ensures ProcessRules(sections,
              [SourceRules("", [Database.ExampleHost, Database.ExampleHost], map["type" := Str("Pi-hole")])],
              (r, v) => Convert(true, r, v))[1]
         == [Database.HostNetworkExample, Database.HostNetworkExample]
  {
    var host := Database.ExampleHost;
    var c := Database.HostNetworkExample;
    Database.PiholeExample();
    assert Convert(true, host, Str("Pi-hole")).rule == Some(c);
    assert c[..2] == "||" && c[|c| - 1] == '^';
    NetworkIsBasic(c);
    assert |c| != |host|;
    assert host[0] == 'a' && host[|host| - 1] == 'm';
    ConvertedRuleRecurs(sections, (r, v) => Convert(true, r, v), host, Str("Pi-hole"), c, 1);
  }
}

=== FILE: rule_optimizer.dfy ===
/** The rule optimizer: it flattens the validated buckets in section
    order, drops rules whose text before `$` was already seen, keeps one
    rule per blocked domain, drops exceptions that unblock nothing, and
    sorts what is left. */
module RuleOptimizer {
  import opened Wrappers
  import opened Strings
  import opened Config

  // ---------------------------------------------------------------------
  // _order_rules_by_sections

  /** `section["rule_types"]` on a section without the key. */
  datatype KeyError = KeyError(key: string)

  /** The buckets of `types`, in that order, skipping ids without a bucket. */
  function Flatten(types: seq<int>, validated: map<int, seq<string>>): (r: seq<string>)
    ensures forall x :: x in r <==> exists k | 0 <= k < |types| :: types[k] in validated && x in validated[types[k]]
  {
    if |types| == 0 then []
    else
      var rest := Flatten(types[1..], validated);
      assert forall k | 0 <= k < |types[1..]| :: types[1..][k] == types[k + 1];
      (if types[0] in validated then validated[types[0]] else []) + rest
  }

  /** `_order_rules_by_sections`: fails at the first section without
      `rule_types`. */
  function OrderBySections(sections: seq<Section>, validated: map<int, seq<string>>): (r: Result<seq<string>, KeyError>)
    ensures r.Failure? <==> exists s | s in sections :: s.ruleTypes.None?
    ensures r.Failure? ==> r.error == KeyError("rule_types")
  {
    if |sections| == 0 then Success([])
    else match sections[0].ruleTypes
      case None => Failure(KeyError("rule_types"))
      case Some(types) =>
        assert forall s | s in sections[1..] :: s in sections;
        assert forall s | s in sections :: s == sections[0] || s in sections[1..];
        match OrderBySections(sections[1..], validated)
        case Failure(e) => Failure(e)
        case Success(rest) => Success(Flatten(types, validated) + rest)
  }

  /** A flattened rule is in the bucket of an id some section lists, and
      every such bucket's rules appear. */
  lemma {:induction false} OrderBySectionsMembers(sections: seq<Section>, validated: map<int, seq<string>>, x: string)
    requires OrderBySections(sections, validated).Success?
    ensures x in OrderBySections(sections, validated).value <==>
      exists i, t | 0 <= i < |sections| && t in sections[i].ruleTypes.value :: t in validated && x in validated[t]
  {
    if |sections| > 0 {
      var types := sections[0].ruleTypes.value;
      OrderBySectionsMembers(sections[1..], validated, x);
      assert OrderBySections(sections, validated).value
        == Flatten(types, validated) + OrderBySections(sections[1..], validated).value;
      if x in Flatten(types, validated) {
        var k :| 0 <= k < |types| && types[k] in validated && x in validated[types[k]];
        assert types[k] in sections[0].ruleTypes.value;
      }
      if exists i, t | 0 <= i < |sections| && t in sections[i].ruleTypes.value :: t in validated && x in validated[t] {
        var i, t :| 0 <= i < |sections| && t in sections[i].ruleTypes.value && t in validated && x in validated[t];
        if i == 0 {
          var k :| 0 <= k < |types| && types[k] == t;
        } else {
          assert sections[1..][i - 1] == sections[i];
        }
      }
    }
  }

  // ---------------------------------------------------------------------
  // _remove_duplicates, _is_duplicate

  /** `rule.split('$')[0]` */
  function Base(rule: string): string {
    BeforeChar(rule, '$')
  }

  /** `_is_duplicate(rule, seen)` */
  predicate IsDuplicate(rule: string, seen: set<string>) {
    exists r | r in seen :: Base(rule) == Base(r)
  }

  /** The loop of `_remove_duplicates` from index `i` on, with `seen` the
      rules kept so far; the result is the final `seen`. */
  function DedupFrom(rules: seq<string>, i: nat, seen: set<string>): (r: set<string>)
    requires i <= |rules|
    ensures seen <= r
    decreases |rules| - i
  {
    if i == |rules| then seen
    else if IsDuplicate(rules[i], seen) then DedupFrom(rules, i + 1, seen)
    else DedupFrom(rules, i + 1, seen + {rules[i]})
  }

  /** `_remove_duplicates` on a fresh optimizer. */
  function Dedup(rules: seq<string>): set<string> {
    DedupFrom(rules, 0, {})
  }

  /** No earlier rule has the base of rule `j`. */
  predicate FirstOfBase(rules: seq<string>, j: nat)
    requires j < |rules|
  {
    forall i | 0 <= i < j :: Base(rules[i]) != Base(rules[j])
  }

  /** The rules that are the first of their base among the first `i`. */
  function FirstsBefore(rules: seq<string>, i: nat): set<string>
    requires i <= |rules|
  {
    set j | 0 <= j < i && FirstOfBase(rules, j) :: rules[j]
  }

  /** An earlier rule with some base means an earlier first rule with it. */
  lemma {:induction false} EarliestOfBase(rules: seq<string>, j: nat, b: string)
    requires j < |rules| && Base(rules[j]) == b
    ensures exists m | 0 <= m <= j :: FirstOfBase(rules, m) && Base(rules[m]) == b
    decreases j
  {
    if !FirstOfBase(rules, j) {
      var i :| 0 <= i < j && Base(rules[i]) == Base(rules[j]);
      EarliestOfBase(rules, i, b);
    }
  }

  lemma {:induction false} DedupFromMeaning(rules: seq<string>, i: nat)
    requires i <= |rules|
    ensures DedupFrom(rules, i, FirstsBefore(rules, i)) == FirstsBefore(rules, |rules|)
    decreases |rules| - i
  {
    if i < |rules| {
      var seen := FirstsBefore(rules, i);
      assert IsDuplicate(rules[i], seen) <==> !FirstOfBase(rules, i) by {
        if IsDuplicate(rules[i], seen) {
          var r :| r in seen && Base(rules[i]) == Base(r);
          var j :| 0 <= j < i && FirstOfBase(rules, j) && rules[j] == r;
        }
        if !FirstOfBase(rules, i) {
          var j :| 0 <= j < i && Base(rules[j]) == Base(rules[i]);
          EarliestOfBase(rules, j, Base(rules[i]));
          var m :| 0 <= m <= j && FirstOfBase(rules, m) && Base(rules[m]) == Base(rules[i]);
          assert rules[m] in seen;
        }
      }
      if FirstOfBase(rules, i) {
        assert FirstsBefore(rules, i + 1) == seen + {rules[i]};
      } else {
        assert FirstsBefore(rules, i + 1) == seen;
      }
      DedupFromMeaning(rules, i + 1);
    }
  }

  /** `_remove_duplicates` keeps exactly the rules that come first among
      those sharing their text before `$`. */
  lemma DedupMeaning(rules: seq<string>)
    ensures Dedup(rules) == set j | 0 <= j < |rules| && FirstOfBase(rules, j) :: rules[j]
  {
    assert FirstsBefore(rules, 0) == {};
    DedupFromMeaning(rules, 0);
  }

  /** After deduplication no two rules share a base, and every input rule's
      base is represented. */
  lemma DedupBases(rules: seq<string>)
    ensures forall x, y | x in Dedup(rules) && y in Dedup(rules) && Base(x) == Base(y) :: x == y
    ensures forall x | x in Dedup(rules) :: x in rules
    ensures forall j | 0 <= j < |rules| :: exists x | x in Dedup(rules) :: Base(x) == Base(rules[j])
  {
    DedupMeaning(rules);
    var d := Dedup(rules);
    forall x, y | x in d && y in d && Base(x) == Base(y) ensures x == y {
      var i :| 0 <= i < |rules| && FirstOfBase(rules, i) && rules[i] == x;
      var j :| 0 <= j < |rules| && FirstOfBase(rules, j) && rules[j] == y;
      assert !(i < j) && !(j < i);
    }
    forall j | 0 <= j < |rules| ensures exists x | x in d :: Base(x) == Base(rules[j]) {
      EarliestOfBase(rules, j, Base(rules[j]));
      var m :| 0 <= m <= j && FirstOfBase(rules, m) && Base(rules[m]) == Base(rules[j]);
      assert rules[m] in d;
    }
  }

  // ---------------------------------------------------------------------
  // _remove_redundant_rules

  /** `rule.split('/')[0].lstrip('||').rstrip('^')`: `lstrip` removes every
      leading `|`, however many. */
  function Domain(rule: string): string {
    RStripChar(LStripChar(BeforeChar(rule, '/'), '|'), '^')
  }

  /** The domain under which the redundancy pass files a rule, or `None`
      for the rules it skips: cosmetic rules and domains holding `*`. */
  function DomainKey(rule: string): Option<string> {
    if Contains(rule, "##") || Contains(rule, "#@#") then None
    else
      var d := Domain(rule);
      if '*' in d then None else Some(d)
  }

  /** The loop of `_remove_redundant_rules` over `order`, the iteration order
      of `list(self.optimized_rules)`, from index `i` on; `keys[j]` is the
      domain key of `order[j]` and `domains` is `domain_map`. */
  function RedundantFrom(order: seq<string>, keys: seq<Option<string>>, i: nat,
                         domains: map<string, string>, opt: set<string>): set<string>
    requires |keys| == |order| && i <= |order|
    decreases |order| - i
  {
    if i == |order| then opt
    else match keys[i]
      case None => RedundantFrom(order, keys, i + 1, domains, opt)
      case Some(d) =>
        if d in domains then RedundantFrom(order, keys, i + 1, domains, opt - {order[i]})
        else RedundantFrom(order, keys, i + 1, domains[d := order[i]], opt)
  }

  /** `_remove_redundant_rules`; `order` is how Python happens to iterate
      the set, which depends on string hashing. */
  function RemoveRedundant(opt: set<string>, order: seq<string>): set<string> {
    RedundantFrom(order, KeysOf(order), 0, map[], opt)
  }

  /** The domain keys of `order`, position by position. */
  function KeysOf(order: seq<string>): (keys: seq<Option<string>>)
    ensures |keys| == |order|
    ensures forall j | 0 <= j < |order| :: keys[j] == DomainKey(order[j])
  {
    seq(|order|, j requires 0 <= j < |order| => DomainKey(order[j]))
  }

  /** A key before position `i` is `d`. */
  predicate Claimed(keys: seq<Option<string>>, i: nat, d: string)
    requires i <= |keys|
  {
    exists j | 0 <= j < i :: keys[j] == Some(d)
  }

  /** Position `i` has a key an earlier position already has. */
  predicate Dropped(keys: seq<Option<string>>, i: nat)
    requires i < |keys|
  {
    keys[i].Some? && Claimed(keys, i, keys[i].value)
  }

  /** The rules of `order` from index `i` on that the pass discards. */
  function DroppedAfter(order: seq<string>, keys: seq<Option<string>>, i: nat): set<string>
    requires |keys| == |order| && i <= |order|
  {
    set j | i <= j < |order| && Dropped(keys, j) :: order[j]
  }

  lemma ClaimedStep(keys: seq<Option<string>>, i: nat)
    requires i < |keys|
    ensures forall e :: Claimed(keys, i + 1, e) <==> Claimed(keys, i, e) || keys[i] == Some(e)
  {
    forall e | Claimed(keys, i + 1, e) && !Claimed(keys, i, e) ensures keys[i] == Some(e) {
      var j :| 0 <= j < i + 1 && keys[j] == Some(e);
    }
  }

  lemma DroppedStep(order: seq<string>, keys: seq<Option<string>>, i: nat)
    requires |keys| == |order| && i < |order|
    ensures DroppedAfter(order, keys, i)
         == DroppedAfter(order, keys, i + 1) + (if Dropped(keys, i) then {order[i]} else {})
  {
  }

  lemma {:induction false} RedundantFromMeaning(order: seq<string>, keys: seq<Option<string>>, i: nat,
                                                domains: map<string, string>, opt: set<string>)
    requires |keys| == |order| && i <= |order|
    requires forall d :: d in domains <==> Claimed(keys, i, d)
    ensures RedundantFrom(order, keys, i, domains, opt) == opt - DroppedAfter(order, keys, i)
    decreases |order| - i
  {
    if i < |order| {
      ClaimedStep(keys, i);
      DroppedStep(order, keys, i);
      match keys[i]
      case None =>
        RedundantFromMeaning(order, keys, i + 1, domains, opt);
      case Some(d) =>
        if d in domains {
          RedundantFromMeaning(order, keys, i + 1, domains, opt - {order[i]});
        } else {
          RedundantFromMeaning(order, keys, i + 1, domains[d := order[i]], opt);
        }
    }
  }

  /** The redundancy pass removes exactly the rules whose domain key an
      earlier rule of the iteration order already has. */
  lemma RemoveRedundantMeaning(opt: set<string>, order: seq<string>)
    ensures RemoveRedundant(opt, order) == opt - DroppedAfter(order, KeysOf(order), 0)
  {
    RedundantFromMeaning(order, KeysOf(order), 0, map[], opt);
  }

  /** `order` lists the set `s`, each element once, as `list(s)` does. */
  ghost predicate Lists(order: seq<string>, s: set<string>) {
    && (forall x :: x in order <==> x in s)
    && (forall i, j | 0 <= i < j < |order| :: order[i] != order[j])
  }

  /** For an iteration order listing the set, a rule is kept exactly when
      no rule before it has its domain key. */
  lemma RemoveRedundantKeeps(opt: set<string>, order: seq<string>, i: nat)
    requires Lists(order, opt) && i < |order|
    ensures order[i] in RemoveRedundant(opt, order) <==> !Dropped(KeysOf(order), i)
  {
    RemoveRedundantMeaning(opt, order);
    var keys := KeysOf(order);
    if order[i] in DroppedAfter(order, keys, 0) {
      var j :| 0 <= j < |order| && Dropped(keys, j) && order[j] == order[i];
      assert i == j;
    }
  }

  /** Every key is first claimed somewhere. */
  lemma {:induction false} EarliestOfKey(keys: seq<Option<string>>, j: nat)
    requires j < |keys| && keys[j].Some?
    ensures exists m | 0 <= m <= j :: keys[m] == keys[j] && !Dropped(keys, m)
    decreases j
  {
    if Dropped(keys, j) {
      var i :| 0 <= i < j && keys[i] == keys[j];
      EarliestOfKey(keys, i);
    }
  }

  /** After the pass, every rule it skips is still there, and each domain
      of the rules it considers has exactly one rule left: the first the
      iteration reached. Nothing is added. */
  lemma OnePerDomain(opt: set<string>, order: seq<string>)
    requires Lists(order, opt)
    ensures RemoveRedundant(opt, order) <= opt
    ensures forall x | x in opt && DomainKey(x).None? :: x in RemoveRedundant(opt, order)
    ensures forall x | x in opt && DomainKey(x).Some? ::
      exists y | y in RemoveRedundant(opt, order) :: DomainKey(y) == DomainKey(x)
    ensures forall x, y | x in RemoveRedundant(opt, order) && y in RemoveRedundant(opt, order)
      && DomainKey(x).Some? && DomainKey(x) == DomainKey(y) :: x == y
  {
    var r := RemoveRedundant(opt, order);
    var keys := KeysOf(order);
    RemoveRedundantMeaning(opt, order);
    forall x | x in opt && DomainKey(x).None? ensures x in r {
      var i :| 0 <= i < |order| && order[i] == x;
      RemoveRedundantKeeps(opt, order, i);
    }
    forall x | x in opt && DomainKey(x).Some? ensures exists y | y in r :: DomainKey(y) == DomainKey(x) {
      var j :| 0 <= j < |order| && order[j] == x;
      EarliestOfKey(keys, j);
      var m :| 0 <= m <= j && keys[m] == keys[j] && !Dropped(keys, m);
      RemoveRedundantKeeps(opt, order, m);
    }
    forall x, y | x in r && y in r && DomainKey(x).Some? && DomainKey(x) == DomainKey(y) ensures x == y {
      var i :| 0 <= i < |order| && order[i] == x;
      var j :| 0 <= j < |order| && order[j] == y;
      RemoveRedundantKeeps(opt, order, i);
      RemoveRedundantKeeps(opt, order, j);
      assert !(i < j) && !(j < i);
    }
  }

  // ---------------------------------------------------------------------
  // _resolve_conflicts

  predicate IsException(rule: string) {
    StartsWith(rule, "@@")
  }

  /** `blocking_rules` */
  function Blocking(opt: set<string>): set<string> {
    set r | r in opt && !IsException(r)
  }

  /** `exception_rules`: the exceptions with their `@@` removed. */
  function Exceptions(opt: set<string>): set<string> {
    set r | r in opt && IsException(r) :: r[2..]
  }

  /** `_resolve_conflicts`: every exception whose unblocked rule is not a
      blocking rule is discarded. */
  function ResolveConflicts(opt: set<string>): set<string> {
    opt - set e | e in Exceptions(opt) && e !in Blocking(opt) :: "@@" + e
  }

  /** An exception survives exactly when the rule it unblocks is present;
      blocking rules are untouched. */
  lemma ResolveConflictsMeaning(opt: set<string>)
    ensures ResolveConflicts(opt) == set r | r in opt && (!IsException(r) || r[2..] in Blocking(opt))
    ensures Blocking(ResolveConflicts(opt)) == Blocking(opt)
    ensures forall r | r in ResolveConflicts(opt) && IsException(r) :: r[2..] in ResolveConflicts(opt)
  {
    var dropped := set e | e in Exceptions(opt) && e !in Blocking(opt) :: "@@" + e;
    forall r | r in opt
      ensures r in dropped <==> IsException(r) && r[2..] !in Blocking(opt)
    {
      if IsException(r) {
        assert r == "@@" + r[2..];
        assert r[2..] in Exceptions(opt);
      }
      if r in dropped {
        var e :| e in Exceptions(opt) && e !in Blocking(opt) && r == "@@" + e;
        assert r[..2] == "@@" && r[2..] == e;
      }
    }
    forall r | r in dropped ensures IsException(r) {
      var e :| e in Exceptions(opt) && e !in Blocking(opt) && r == "@@" + e;
      assert r[..2] == "@@";
    }
  }

  /** Resolving twice changes nothing more. */
  lemma ResolveConflictsIdempotent(opt: set<string>)
    ensures ResolveConflicts(ResolveConflicts(opt)) == ResolveConflicts(opt)
  {
    ResolveConflictsMeaning(opt);
    ResolveConflictsMeaning(ResolveConflicts(opt));
  }

  // ---------------------------------------------------------------------
  // The final sort and optimize

  /** Python's `a < b` on strings: code points compared left to right, a
      proper prefix first. */
  predicate StrLess(a: string, b: string)
    decreases |a|
  {
    |b| > 0 && (|a| == 0 || a[0] < b[0] || (a[0] == b[0] && StrLess(a[1..], b[1..])))
  }

  lemma {:induction false} StrLessIrreflexive(a: string)
    ensures !StrLess(a, a)
    decreases |a|
  {
    if |a| > 0 {
      StrLessIrreflexive(a[1..]);
    }
  }

  lemma {:induction false} StrLessTransitive(a: string, b: string, c: string)
    requires StrLess(a, b) && StrLess(b, c)
    ensures StrLess(a, c)
    decreases |a|
  {
    if |a| > 0 && a[0] == b[0] && b[0] == c[0] {
      StrLessTransitive(a[1..], b[1..], c[1..]);
    }
  }

  lemma {:induction false} StrLessTotal(a: string, b: string)
    requires a != b
    ensures StrLess(a, b) || StrLess(b, a)
    decreases |a|
  {
    if |a| > 0 && |b| > 0 && a[0] == b[0] {
      assert a == [a[0]] + a[1..] && b == [b[0]] + b[1..];
      StrLessTotal(a[1..], b[1..]);
    }
  }

  /** The sort key `(len(x.split('/')[0]), x)` compared as Python compares
      tuples. */
  predicate KeyLess(a: string, b: string) {
    var la := |BeforeChar(a, '/')|;
    var lb := |BeforeChar(b, '/')|;
    la < lb || (la == lb && StrLess(a, b))
  }

  lemma KeyLessOrder(a: string, b: string, c: string)
    ensures !KeyLess(a, a)
    ensures KeyLess(a, b) && KeyLess(b, c) ==> KeyLess(a, c)
    ensures a != b ==> KeyLess(a, b) || KeyLess(b, a)
    ensures KeyLess(a, b) ==> !KeyLess(b, a)
  {
    StrLessIrreflexive(a);
    if KeyLess(a, b) && KeyLess(b, c) && |BeforeChar(a, '/')| == |BeforeChar(c, '/')| {
      StrLessTransitive(a, b, c);
    }
    if a != b {
      StrLessTotal(a, b);
    }
    if KeyLess(a, b) && KeyLess(b, a) {
      StrLessTransitive(a, b, a);
    }
  }

  /** Strictly increasing by the sort key. */
  predicate SortedByKey(s: seq<string>) {
    forall i, j | 0 <= i < j < |s| :: KeyLess(s[i], s[j])
  }

  function InsertByKey(x: string, s: seq<string>): (r: seq<string>)
    ensures forall y :: y in r <==> y == x || y in s
    ensures |r| == |s| + 1
  {
    if |s| == 0 || KeyLess(x, s[0]) then [x] + s
    else [s[0]] + InsertByKey(x, s[1..])
  }

  lemma {:induction false} InsertByKeySorted(x: string, s: seq<string>)
    requires SortedByKey(s) && x !in s
    ensures SortedByKey(InsertByKey(x, s))
  {
    if |s| > 0 && !KeyLess(x, s[0]) {
      KeyLessOrder(x, s[0], x);
      InsertByKeySorted(x, s[1..]);
      var r := InsertByKey(x, s[1..]);
      var t := [s[0]] + r;
      forall i, j | 0 <= i < j < |t| ensures KeyLess(t[i], t[j]) {
        if i == 0 {
          assert t[j] in r;
          if t[j] != x {
            var k :| 1 <= k < |s| && s[k] == t[j] by {
              var k' :| 0 <= k' < |s[1..]| && s[1..][k'] == t[j];
              assert s[k' + 1] == t[j];
            }
          }
        } else {
          assert t[i] == r[i - 1] && t[j] == r[j - 1];
        }
      }
    } else {
      var t := [x] + s;
      forall i, j | 0 <= i < j < |t| ensures KeyLess(t[i], t[j]) {
        if i == 0 {
          KeyLessOrder(x, s[0], t[j]);
        } else {
          assert t[i] == s[i - 1] && t[j] == s[j - 1];
        }
      }
    }
  }

  /** `sorted(rules, key=...)` for rules without repeats. */
  function SortByKey(s: seq<string>): (r: seq<string>)
    ensures forall y :: y in r <==> y in s
  {
    if |s| == 0 then [] else InsertByKey(s[0], SortByKey(s[1..]))
  }

  lemma {:induction false} SortByKeySorted(s: seq<string>)
    requires forall i, j | 0 <= i < j < |s| :: s[i] != s[j]
    ensures SortedByKey(SortByKey(s))
    ensures |SortByKey(s)| == |s|
  {
    if |s| > 0 {
      SortByKeySorted(s[1..]);
      assert s[0] !in s[1..];
      InsertByKeySorted(s[0], SortByKey(s[1..]));
    }
  }

  /** The sort key orders strings totally, so two strictly sorted lists of
      the same rules are the same list: the output does not depend on the
      set's iteration order. */
  lemma {:induction false} SortedUnique(a: seq<string>, b: seq<string>)
    requires SortedByKey(a) && SortedByKey(b)
    requires forall y :: y in a <==> y in b
    ensures a == b
    decreases |a|
  {
    if |a| > 0 && |b| > 0 {
      assert a[0] in b && b[0] in a;
      if a[0] != b[0] {
        var i :| 0 < i < |b| && b[i] == a[0];
        var j :| 0 < j < |a| && a[j] == b[0];
        KeyLessOrder(b[0], a[0], b[0]);
      }
      forall y ensures y in a[1..] <==> y in b[1..] {
        if y in a[1..] {
          var k :| 1 <= k < |a| && a[k] == y by {
            var k' :| 0 <= k' < |a[1..]| && a[1..][k'] == y;
            assert a[k' + 1] == y;
          }
          KeyLessOrder(a[0], y, a[0]);
          assert y in b;
        }
        if y in b[1..] {
          var k :| 1 <= k < |b| && b[k] == y by {
            var k' :| 0 <= k' < |b[1..]| && b[1..][k'] == y;
            assert b[k' + 1] == y;
          }
          KeyLessOrder(b[0], y, b[0]);
          assert y in a;
        }
      }
      SortedUnique(a[1..], b[1..]);
      assert a == [a[0]] + a[1..] && b == [b[0]] + b[1..];
    } else {
      NoMembersEmpty(a);
      NoMembersEmpty(b);
    }
  }

  lemma NoMembersEmpty(s: seq<string>)
    ensures |s| > 0 ==> s[0] in s
  {
  }

  /** The elements of `order` that are in `keep`, in order. */
  function Filter(order: seq<string>, keep: set<string>): (r: seq<string>)
    ensures forall y :: y in r <==> y in order && y in keep
    ensures (forall i, j | 0 <= i < j < |order| :: order[i] != order[j]) ==>
      forall i, j | 0 <= i < j < |r| :: r[i] != r[j]
  {
    if |order| == 0 then []
    else
      var rest := Filter(order[1..], keep);
      assert forall i, j | 0 <= i < j < |order[1..]| :: order[1..][i] == order[i + 1] && order[1..][j] == order[j + 1];
      (if order[0] in keep then [order[0]] else []) + rest
  }

  /** `optimize` on a fresh optimizer; `order` is the iteration order of the
      deduplicated set. */
  function Optimize(sections: seq<Section>, validated: map<int, seq<string>>, order: seq<string>): (r: Result<seq<string>, KeyError>)
    ensures r.Failure? <==> exists s | s in sections :: s.ruleTypes.None?
  {
    match OrderBySections(sections, validated)
    case Failure(e) => Failure(e)
    case Success(ordered) =>
      var kept := ResolveConflicts(RemoveRedundant(Dedup(ordered), order));
      Success(SortByKey(Filter(order, kept)))
  }

  /** When `order` lists the deduplicated rules, `optimize` returns the
      rules that survive the three passes, each once, strictly increasing by
      the sort key; any other listing of the same set gives the same list
      only if the redundancy pass keeps the same rules. */
  lemma OptimizeMeaning(sections: seq<Section>, validated: map<int, seq<string>>, order: seq<string>)
    requires OrderBySections(sections, validated).Success?
    requires Lists(order, Dedup(OrderBySections(sections, validated).value))
    ensures var r := Optimize(sections, validated, order).value;
      var d := Dedup(OrderBySections(sections, validated).value);
      && SortedByKey(r)
      && (forall y :: y in r <==> y in ResolveConflicts(RemoveRedundant(d, order)))
  {
    var d := Dedup(OrderBySections(sections, validated).value);
    var kept := ResolveConflicts(RemoveRedundant(d, order));
    OnePerDomain(d, order);
    ResolveConflictsMeaning(RemoveRedundant(d, order));
    SortByKeySorted(Filter(order, kept));
  }
}

=== FILE: source_fetcher.dfy ===
/** The pure parts of the source fetcher: turning downloaded text into
    rules, naming a source's cache file, and deciding whether a cached copy
    is still fresh. Downloading, retrying and the cache files themselves
    are not modelled. */
module SourceFetcher {
  import opened Wrappers
  import opened Strings
  import opened Text
  import opened Config

  // ---------------------------------------------------------------------
  // _process_source_content, _matches_pattern

  /** `_matches_pattern(line, pattern)`: whether `re.match(pattern, line)`
      succeeds. Regular expressions are not modelled, so the matcher is a
      parameter. */
  type Matcher = (string, string) -> bool

  /** `any(self._matches_pattern(line, p) for p in patterns)` */
  function AnyMatch(line: string, patterns: seq<string>, matches: Matcher): (r: bool)
    ensures r <==> exists k | 0 <= k < |patterns| :: matches(line, patterns[k])
  {
    if |patterns| == 0 then false
    else
      assert forall k | 1 <= k < |patterns| :: patterns[k] == patterns[1..][k - 1];
      matches(line, patterns[0]) || AnyMatch(line, patterns[1..], matches)
  }

  /** What a line of a source list must be to become a rule: already
      stripped, not blank, and matching no exclude pattern. */
  predicate Kept(line: string, patterns: seq<string>, matches: Matcher) {
    |line| > 0 && IsStripped(line) && !AnyMatch(line, patterns, matches)
  }

  /** The filtering loop: every line is stripped, and kept when it is
      non-blank and matches no exclude pattern. */
  function FilterLines(lines: seq<string>, patterns: seq<string>, matches: Matcher): (r: seq<string>)
    ensures |r| <= |lines|
    ensures forall k | 0 <= k < |r| :: Kept(r[k], patterns, matches)
  {
    if |lines| == 0 then []
    else
      var line := Strip(lines[0]);
      (if |line| > 0 && !AnyMatch(line, patterns, matches) then [line] else [])
      + FilterLines(lines[1..], patterns, matches)
  }

  /** `_process_source_content`: the source configuration it is handed is
      not consulted. */
  function ProcessContent(content: string, patterns: seq<string>, matches: Matcher): (r: seq<string>)
    ensures forall k | 0 <= k < |r| :: Kept(r[k], patterns, matches) && NoBreaks(r[k])
  {
    var lines := SplitLines(content);
    FilterNoBreaks(lines, patterns, matches);
    FilterLines(lines, patterns, matches)
  }

  /** Stripping a single line leaves a single line. */
  lemma StripNoBreaks(s: string)
    requires NoBreaks(s)
    ensures NoBreaks(Strip(s))
  {
    var r := Strip(s);
    NoBreaksSlice(s, StripStart(s), StripStart(s) + |r|);
  }

  lemma {:induction false} FilterNoBreaks(lines: seq<string>, patterns: seq<string>, matches: Matcher)
    requires forall k | 0 <= k < |lines| :: NoBreaks(lines[k])
    ensures forall k | 0 <= k < |FilterLines(lines, patterns, matches)| ::
      NoBreaks(FilterLines(lines, patterns, matches)[k])
    decreases |lines|
  {
    if |lines| > 0 {
      var line := Strip(lines[0]);
      var head := if |line| > 0 && !AnyMatch(line, patterns, matches) then [line] else [];
      var rest := FilterLines(lines[1..], patterns, matches);
      StripNoBreaks(lines[0]);
      FilterNoBreaks(lines[1..], patterns, matches);
      assert FilterLines(lines, patterns, matches) == head + rest;
      SinglesConcat(head, rest);
    }
  }

  /** Each line stripped, before filtering. */
  function Stripped(lines: seq<string>): (r: seq<string>)
    ensures |r| == |lines| && forall k | 0 <= k < |lines| :: r[k] == Strip(lines[k])
  {
    seq(|lines|, k requires 0 <= k < |lines| => Strip(lines[k]))
  }

  /** `a` is `b` with some elements left out. */
  predicate Subsequence(a: seq<string>, b: seq<string>)
    decreases |b|
  {
    if |a| == 0 then true
    else if |b| == 0 then false
    else (a[0] == b[0] && Subsequence(a[1..], b[1..])) || Subsequence(a, b[1..])
  }

  /** The kept lines are exactly the stripped lines that qualify, in the
      order they came: filtering drops lines and never reorders them. */
  lemma {:induction false} FilterLinesMeaning(lines: seq<string>, patterns: seq<string>, matches: Matcher)
    ensures var r := FilterLines(lines, patterns, matches);
      && Subsequence(r, Stripped(lines))
      && forall x :: x in r <==> x in Stripped(lines) && Kept(x, patterns, matches)
    decreases |lines|
  {
    if |lines| > 0 {
      FilterLinesMeaning(lines[1..], patterns, matches);
      var s := Stripped(lines);
      assert s[1..] == Stripped(lines[1..]);
      assert s == [s[0]] + s[1..];
      var r := FilterLines(lines, patterns, matches);
      var rest := FilterLines(lines[1..], patterns, matches);
      if |s[0]| > 0 && !AnyMatch(s[0], patterns, matches) {
        assert r == [s[0]] + rest;
        assert r[1..] == rest;
      } else {
        assert r == rest;
      }
    }
  }

  /** Lines that already qualify all pass through unchanged. */
  lemma {:induction false} FilterLinesKeepsKept(lines: seq<string>, patterns: seq<string>, matches: Matcher)
    requires forall k | 0 <= k < |lines| :: Kept(lines[k], patterns, matches)
    ensures FilterLines(lines, patterns, matches) == lines
    decreases |lines|
  {
    if |lines| > 0 {
      StripStripped(lines[0]);
      FilterLinesKeepsKept(lines[1..], patterns, matches);
      assert lines == [lines[0]] + lines[1..];
    }
  }

  /** Processing is idempotent: the rules, written one per line, process
      back into the same rules. */
  lemma ProcessContentIdempotent(content: string, patterns: seq<string>, matches: Matcher)
    ensures var r := ProcessContent(content, patterns, matches);
      ProcessContent(JoinLines(r), patterns, matches) == r
  {
    var r := ProcessContent(content, patterns, matches);
    SingleLinesEach(r);
    SplitJoinLines(r, "");
    assert JoinLines(r) + "" == JoinLines(r);
    assert SplitLines("") == [];
    assert r + [] == r;
    FilterLinesKeepsKept(r, patterns, matches);
  }

  // ---------------------------------------------------------------------
  // _get_cache_file_path

  const CacheDir := "cache"

  /** A character a cache file name may keep; `isAlnum` is `str.isalnum`,
      whose Unicode tables are not modelled. */
  predicate SafeChar(c: char, isAlnum: char -> bool) {
    isAlnum(c) || c == '-' || c == '_'
  }

  /** The safe file name of a source name. */
  function Sanitize(name: string, isAlnum: char -> bool): (r: string)
    ensures |r| == |name|
    ensures forall i | 0 <= i < |name| :: SafeChar(name[i], isAlnum) ==> r[i] == name[i]
    ensures forall i | 0 <= i < |name| :: !SafeChar(name[i], isAlnum) ==> r[i] == '_'
  {
    if |name| == 0 then ""
    else
      var rest := Sanitize(name[1..], isAlnum);
      assert forall i | 1 <= i < |name| :: name[i] == name[1..][i - 1];
      [if SafeChar(name[0], isAlnum) then name[0] else '_'] + rest
  }

  /** The sanitised name holds only safe characters, and sanitising it again
      changes nothing. */
  lemma SanitizeSafe(name: string, isAlnum: char -> bool)
    ensures var r := Sanitize(name, isAlnum);
      && (forall i | 0 <= i < |r| :: SafeChar(r[i], isAlnum))
      && Sanitize(r, isAlnum) == r
  {
    var r := Sanitize(name, isAlnum);
    assert forall i | 0 <= i < |r| :: SafeChar(r[i], isAlnum);
    var rr := Sanitize(r, isAlnum);
    assert forall i | 0 <= i < |r| :: rr[i] == r[i];
  }

  /** A name is left alone exactly when all its characters are safe. */
  lemma SanitizeFixed(name: string, isAlnum: char -> bool)
    ensures Sanitize(name, isAlnum) == name <==> forall i | 0 <= i < |name| :: SafeChar(name[i], isAlnum)
  {
    var r := Sanitize(name, isAlnum);
    if r == name {
      forall i | 0 <= i < |name| ensures SafeChar(name[i], isAlnum) {
        assert r[i] == name[i];
      }
    }
  }

  /** `os.path.join(self.cache_dir, f"{safe_name}.txt")` */
  function CacheFilePath(sourceName: string, isAlnum: char -> bool): (r: string)
    ensures |r| == |CacheDir| + 1 + |sourceName| + 4
  {
    CacheDir + "/" + Sanitize(sourceName, isAlnum) + ".txt"
  }

  /** As long as `/` and `.` are not alphanumeric (they are not, for
      Python), the cache file sits directly in the cache directory,
      whatever the source is called: its name has no separator and no dot
      before the extension. */
  lemma CacheFileInDirectory(sourceName: string, isAlnum: char -> bool)
    requires !isAlnum('/') && !isAlnum('.')
    ensures var p := CacheFilePath(sourceName, isAlnum);
      && StartsWith(p, CacheDir + "/") && EndsWith(p, ".txt")
      && var stem := p[|CacheDir| + 1..|p| - 4];
         stem == Sanitize(sourceName, isAlnum) && '/' !in stem && '.' !in stem
  {
    var p := CacheFilePath(sourceName, isAlnum);
    var stem := Sanitize(sourceName, isAlnum);
    assert p[|CacheDir| + 1..|p| - 4] == stem;
    assert p[..|CacheDir| + 1] == CacheDir + "/";
    assert p[|p| - 4..] == ".txt";
    SanitizeSafe(sourceName, isAlnum);
  }

  /** Distinct sources can share a cache file: a space and an underscore
      both come out as `_`. */
  lemma CacheFilesCollide(isAlnum: char -> bool)
    requires isAlnum('a') && isAlnum('b') && !isAlnum(' ')
    ensures CacheFilePath("a b", isAlnum) == CacheFilePath("a_b", isAlnum)
  {
    assert Sanitize("a b", isAlnum) == "a_b";
    assert Sanitize("a_b", isAlnum) == "a_b";
  }

  // ---------------------------------------------------------------------
  // _is_cache_valid

  /** Comparing a float with a non-number raises. */
  datatype TypeError = TypeError

  /** `self.config.settings.get("cache_ttl", 86400)` */
  function CacheTtl(settings: Object): Value {
    Get(settings, "cache_ttl", Int(86400))
  }

  /** `_is_cache_valid`: `present` stands for `os.path.exists`, and the file's
      modification time and the clock are parameters. */
  function CacheValid(present: bool, settings: Object, mtime: real, now: real): (r: Result<bool, TypeError>)
    ensures !present ==> r == Success(false)
    ensures present && CacheTtl(settings).Int? ==> r == Success(now - mtime < CacheTtl(settings).i as real)
    ensures r.Failure? <==> present && (CacheTtl(settings).Null? || CacheTtl(settings).Str?)
  {
    if !present then Success(false)
    else match CacheTtl(settings)
      case Int(i) => Success(now - mtime < i as real)
      case Bool(b) => Success(now - mtime < if b then 1.0 else 0.0)
      case _ => Failure(TypeError)
  }

  /** Once a cached copy has expired it stays expired, and a copy that is
      fresh now was fresh at every earlier moment since it was written. */
  lemma CacheExpiryPermanent(settings: Object, mtime: real, now: real, later: real)
    requires now <= later
    requires CacheValid(true, settings, mtime, now).Success?
    ensures CacheValid(true, settings, mtime, now) == Success(false) ==>
      CacheValid(true, settings, mtime, later) == Success(false)
    ensures CacheValid(true, settings, mtime, later) == Success(true) ==>
      CacheValid(true, settings, mtime, now) == Success(true)
  {
  }

  /** Unless the configuration sets a time to live, validated settings give
      a cached copy one day: it is fresh exactly when written less than
      86400 seconds ago. */
  lemma DefaultCacheDay(metadata: map<string, string>, settings: Object, sources: seq<Object>,
                        mtime: real, now: real)
    requires "cache_ttl" !in settings
    ensures var s := ValidateConfig(metadata, settings, sources).settings;
      CacheValid(true, s, mtime, now) == Success(now - mtime < 86400.0)
  {
    ValidatedSettings(metadata, settings, sources);
    assert DefaultSettings[0] in DefaultSettings;
  }
}

=== FILE: strings.dfy ===
/** The handful of Python `str` operations the list generator relies on,
    written over `seq<char>` with their meaning stated as contracts. */
module Strings {
  import opened Wrappers

  /** Python's `str.isspace()` for one character; Python's `\s` in a `str`
      regular expression and `str.strip()` use the same set. */
  predicate IsSpace(c: char) {
    || c == ' '
    || ('\t' <= c <= '\r')
    || ('\U{1C}' <= c <= '\U{1F}')
    || c == '\U{85}' || c == '\U{A0}' || c == '\U{1680}'
    || ('\U{2000}' <= c <= '\U{200A}')
    || c == '\U{2028}' || c == '\U{2029}' || c == '\U{202F}'
    || c == '\U{205F}' || c == '\U{3000}'
  }

  /** `s.startswith(p)` */
  predicate StartsWith(s: string, p: string) {
    |p| <= |s| && s[..|p|] == p
  }

  /** Concatenation is associative; stated once so that proofs need not
      rediscover it through extensionality. */
  lemma AppendAssoc<T>(a: seq<T>, b: seq<T>, c: seq<T>)
    ensures a + b + c == a + (b + c)
  {
  }

  /** A string starts with the first character of each of its prefixes. */
  lemma StartsWithHead(s: string, p: string)
    requires |p| > 0
    ensures StartsWith(s, p) ==> |s| > 0 && s[0] == p[0]
  {
    if StartsWith(s, p) {
      assert s[..|p|][0] == s[0];
    }
  }

  /** `s.endswith(p)` */
  predicate EndsWith(s: string, p: string) {
    |p| <= |s| && s[|s| - |p|..] == p
  }

  /** `p` occurs in `s` starting at index `i`. */
  predicate OccursAt(s: string, p: string, i: int) {
    0 <= i && i + |p| <= |s| && s[i..i + |p|] == p
  }


  /** Adjacent slices join into one. */
  lemma SliceJoin(s: string, i: nat, j: nat, k: nat)
    requires i <= j <= k <= |s|
    ensures s[i..j] + s[j..k] == s[i..k]
  {
  }

  /** An occurrence starts with the first character of what occurs. */
  lemma OccursAtHead(s: string, p: string, i: int)
    requires |p| > 0
    ensures OccursAt(s, p, i) ==> s[i] == p[0]
  {
    if OccursAt(s, p, i) {
      assert s[i..i + |p|][0] == s[i];
    }
  }

  /** No occurrence of `p` starts where its first character is absent. */
  lemma NoOccurrenceWithoutHead(s: string, p: string, lo: int, hi: int)
    requires |p| > 0
    requires forall j | lo <= j < hi && 0 <= j < |s| :: s[j] != p[0]
    ensures forall j | lo <= j < hi :: !OccursAt(s, p, j)
  {
    forall j | lo <= j < hi ensures !OccursAt(s, p, j) {
      OccursAtHead(s, p, j);
    }
  }

  /** A one-character string occurs exactly where that character is. */
  lemma OccursAtSingle(s: string, c: char, i: int)
    ensures OccursAt(s, [c], i) <==> 0 <= i < |s| && s[i] == c
  {
    if 0 <= i < |s| && s[i] == c {
      assert s[i..i + 1] == [c];
    }
    OccursAtHead(s, [c], i);
  }

  /** `p in s` */
  predicate Contains(s: string, p: string) {
    exists i | 0 <= i <= |s| - |p| :: OccursAt(s, p, i)
  }

  /** `c in s` for a single character agrees with `[c] in s`. */
  lemma ContainsChar(s: string, c: char)
    ensures Contains(s, [c]) <==> c in s
  {
    if c in s {
      var i :| 0 <= i < |s| && s[i] == c;
      assert OccursAt(s, [c], i);
    }
    if Contains(s, [c]) {
      var i :| 0 <= i <= |s| - 1 && OccursAt(s, [c], i);
      assert s[i..i + 1][0] == s[i];
    }
  }

  /** Whatever contains `p` contains each of its characters. */
  lemma ContainsHasChar(s: string, p: string, k: nat)
    requires k < |p|
    ensures Contains(s, p) ==> p[k] in s
  {
    if Contains(s, p) {
      var i :| 0 <= i <= |s| - |p| && OccursAt(s, p, i);
      assert s[i..i + |p|][k] == s[i + k];
    }
  }

  /** Whatever contains `p` contains every prefix of it. */
  lemma ContainsPrefix(s: string, p: string, n: nat)
    requires n <= |p|
    ensures Contains(s, p) ==> Contains(s, p[..n])
  {
    if Contains(s, p) {
      var i :| 0 <= i <= |s| - |p| && OccursAt(s, p, i);
      assert s[i..i + n] == s[i..i + |p|][..n];
      assert OccursAt(s, p[..n], i);
    }
  }

  /** A prefix is contained. */
  lemma StartsWithContains(s: string, p: string)
    ensures StartsWith(s, p) ==> Contains(s, p)
  {
    if StartsWith(s, p) {
      assert OccursAt(s, p, 0);
    }
  }

  /** Index of the first occurrence of `p` in `s` at or after `from`
      (`s.find(p, from)`, with `None` for -1). */
  function FindFrom(s: string, p: string, from: nat): (r: Option<nat>)
    requires from <= |s|
    ensures r.Some? ==> from <= r.value && OccursAt(s, p, r.value)
    ensures r.Some? ==> forall j | from <= j < r.value :: !OccursAt(s, p, j)
    ensures r.None? ==> forall j | from <= j :: !OccursAt(s, p, j)
    decreases |s| - from
  {
    if OccursAt(s, p, from) then Some(from)
    else if from == |s| then None
    else FindFrom(s, p, from + 1)
  }

  /** `s.find(p)` */
  function Find(s: string, p: string): (r: Option<nat>)
    ensures r.Some? <==> Contains(s, p)
    ensures r.Some? ==> OccursAt(s, p, r.value) && forall j | 0 <= j < r.value :: !OccursAt(s, p, j)
  {
    FindFrom(s, p, 0)
  }

  /** `s.split(sep)[0]`: the text before the first occurrence of `sep`, or
      all of `s` when `sep` does not occur. */
  function SplitHead(s: string, sep: string): (r: string)
    ensures r <= s
    ensures Contains(s, sep) ==> OccursAt(s, sep, |r|) && forall j | 0 <= j < |r| :: !OccursAt(s, sep, j)
    ensures !Contains(s, sep) ==> r == s
  {
    match Find(s, sep)
    case Some(k) => s[..k]
    case None => s
  }

  /** `s.split(sep)[1]`: the text between the first and second occurrences
      of `sep` (or to the end); `None` where Python raises `IndexError`. */
  function SplitSecond(s: string, sep: string): (r: Option<string>)
    requires |sep| > 0
    ensures r.None? <==> !Contains(s, sep)
  {
    match Find(s, sep)
    case None => None
    case Some(k) =>
      var start := k + |sep|;
      match FindFrom(s, sep, start)
      case Some(e) => Some(s[start..e])
      case None => Some(s[start..])
  }

  /** The second piece starts right after the first separator and runs to
      the next separator or to the end, with no separator inside. */
  lemma SplitSecondMeaning(s: string, sep: string)
    requires |sep| > 0 && SplitSecond(s, sep).Some?
    ensures OccursAt(s, sep, |SplitHead(s, sep)|)
    ensures var start := |SplitHead(s, sep)| + |sep|;
      var r := SplitSecond(s, sep).value;
      && start + |r| <= |s|
      && s[start..start + |r|] == r
      && (start + |r| == |s| || OccursAt(s, sep, start + |r|))
      && forall j | start <= j < start + |r| :: !OccursAt(s, sep, j)
  {
    var k := Find(s, sep).value;
    assert SplitHead(s, sep) == s[..k];
    var start := k + |sep|;
    var r := SplitSecond(s, sep).value;
    match FindFrom(s, sep, start)
    case Some(e) =>
      assert r == s[start..e];
    case None =>
      assert r == s[start..];
      assert forall j | start <= j < |s| :: !OccursAt(s, sep, j);
  }

  /** `s.split(c)[0]` for a one-character separator: the longest prefix of
      `s` free of `c`. */
  function BeforeChar(s: string, c: char): (r: string)
    ensures r <= s
    ensures c !in r
    ensures |r| == |s| || s[|r|] == c
  {
    if |s| == 0 then ""
    else if s[0] == c then ""
    else [s[0]] + BeforeChar(s[1..], c)
  }

  /** The text before the first `c` ends where `c` first occurs. */
  lemma BeforeCharAt(s: string, c: char, d: nat)
    requires d < |s| && s[d] == c && c !in s[..d]
    ensures BeforeChar(s, c) == s[..d]
  {
  }

  /** The text before the first `c` is the split head on `[c]`. */
  lemma BeforeCharIsSplitHead(s: string, c: char)
    ensures BeforeChar(s, c) == SplitHead(s, [c])
  {
    var r := BeforeChar(s, c);
    var h := SplitHead(s, [c]);
    if Contains(s, [c]) {
      assert OccursAt(s, [c], |h|);
      assert s[|h|] == s[|h|..|h| + 1][0];
      if |r| < |h| {
        assert OccursAt(s, [c], |r|);
      }
    } else {
      ContainsChar(s, c);
    }
  }

  /** `s.replace(target, repl)`: every occurrence of `target`, scanning left
      to right without overlap, replaced by `repl`. */
  function ReplaceAll(s: string, target: string, repl: string): (r: string)
    requires |target| > 0
    ensures !Contains(s, target) ==> r == s
    decreases |s|
  {
    if |s| == 0 then ""
    else if StartsWith(s, target) then
      assert OccursAt(s, target, 0);
      repl + ReplaceAll(s[|target|..], target, repl)
    else
      assert !Contains(s, target) ==> !Contains(s[1..], target) by {
        if Contains(s[1..], target) {
          var i :| 0 <= i <= |s[1..]| - |target| && OccursAt(s[1..], target, i);
          assert s[1..][i..i + |target|] == s[i + 1..i + 1 + |target|];
          assert OccursAt(s, target, i + 1);
        }
      }
      [s[0]] + ReplaceAll(s[1..], target, repl)
  }

  /** Text in which no occurrence of `target` starts is copied unchanged by the
      replacement, which then resumes on what follows. */
  lemma {:induction false} ReplaceAllSkips(a: string, b: string, target: string, repl: string)
    requires |target| > 0
    requires forall i | 0 <= i < |a| :: !OccursAt(a + b, target, i)
    ensures ReplaceAll(a + b, target, repl) == a + ReplaceAll(b, target, repl)
  {
    if |a| > 0 {
      var s := a + b;
      assert !OccursAt(s, target, 0);
      assert !StartsWith(s, target);
      assert s[1..] == a[1..] + b;
      forall i | 0 <= i < |a[1..]|
        ensures !OccursAt(a[1..] + b, target, i)
      {
        assert !OccursAt(s, target, i + 1);
      }
      ReplaceAllSkips(a[1..], b, target, repl);
      assert ReplaceAll(s, target, repl) == [a[0]] + (a[1..] + ReplaceAll(b, target, repl));
      AppendAssoc([a[0]], a[1..], ReplaceAll(b, target, repl));
      assert [a[0]] + a[1..] == a;
    } else {
      assert a + b == b;
    }
  }

  /** The first occurrence of `target` is replaced, and the replacement
      resumes right after it. */
  lemma ReplaceAllAt(a: string, b: string, target: string, repl: string)
    requires |target| > 0
    requires forall i | 0 <= i < |a| :: !OccursAt(a + target + b, target, i)
    ensures ReplaceAll(a + target + b, target, repl) == a + repl + ReplaceAll(b, target, repl)
  {
    AppendAssoc(a, target, b);
    ReplaceAllSkips(a, target + b, target, repl);
    assert StartsWith(target + b, target);
    assert (target + b)[|target|..] == b;
    AppendAssoc(a, repl, ReplaceAll(b, target, repl));
  }

  /** Replacing in a string that is exactly `target` yields `repl`. */
  lemma ReplaceAllWhole(target: string, repl: string)
    requires |target| > 0
    ensures ReplaceAll(target, target, repl) == repl
  {
    assert StartsWith(target, target);
    assert target[|target|..] == "";
  }

  /** `s.lstrip(c)`: all leading `c` removed. */
  function LStripChar(s: string, c: char): (r: string)
    ensures |r| <= |s| && r == s[|s| - |r|..]
    ensures |r| == 0 || r[0] != c
    ensures forall i | 0 <= i < |s| - |r| :: s[i] == c
  {
    if |s| > 0 && s[0] == c then LStripChar(s[1..], c) else s
  }

  /** `s.rstrip(c)`: all trailing `c` removed. */
  function RStripChar(s: string, c: char): (r: string)
    ensures r <= s
    ensures |r| == 0 || r[|r| - 1] != c
    ensures forall i | |r| <= i < |s| :: s[i] == c
  {
    if |s| > 0 && s[|s| - 1] == c then RStripChar(s[..|s| - 1], c) else s
  }

  /** Neither end of `s` is whitespace. */
  predicate IsStripped(s: string) {
    |s| == 0 || (!IsSpace(s[0]) && !IsSpace(s[|s| - 1]))
  }

  /** `s.lstrip()` */
  function LStrip(s: string): (r: string)
    ensures |r| <= |s| && r == s[|s| - |r|..]
    ensures |r| == 0 || !IsSpace(r[0])
    ensures forall i | 0 <= i < |s| - |r| :: IsSpace(s[i])
  {
    if |s| > 0 && IsSpace(s[0]) then
      var r := LStrip(s[1..]);
      assert s[1..][|s| - 1 - |r|..] == s[|s| - |r|..];
      assert forall i | 1 <= i < |s| - |r| :: s[i] == s[1..][i - 1];
      r
    else s
  }

  /** `s.rstrip()` */
  function RStrip(s: string): (r: string)
    ensures r <= s
    ensures |r| == 0 || !IsSpace(r[|r| - 1])
    ensures forall i | |r| <= i < |s| :: IsSpace(s[i])
  {
    if |s| > 0 && IsSpace(s[|s| - 1]) then
      var r := RStrip(s[..|s| - 1]);
      assert forall i | |r| <= i < |s| - 1 :: s[i] == s[..|s| - 1][i];
      r
    else s
  }

  /** Number of whitespace characters `s.lstrip()` removes. */
  function StripStart(s: string): (n: nat)
    ensures n <= |s|
  {
    |s| - |LStrip(s)|
  }

  /** `s.strip()`: the slice of `s` left once whitespace is removed from both
      ends, and nothing but whitespace is removed. */
  function Strip(s: string): (r: string)
    ensures IsStripped(r)
    ensures StripStart(s) + |r| <= |s| && r == s[StripStart(s)..StripStart(s) + |r|]
    ensures forall i | 0 <= i < StripStart(s) :: IsSpace(s[i])
    ensures forall i | StripStart(s) + |r| <= i < |s| :: IsSpace(s[i])
  {
    var l := LStrip(s);
    var r := RStrip(l);
    r
  }

  /** Stripping removes exactly the whitespace padding around a stripped
      middle, so `strip` is the identity on stripped text. */
  lemma {:induction false} StripPadded(pre: string, mid: string, suf: string)
    requires forall i | 0 <= i < |pre| :: IsSpace(pre[i])
    requires forall i | 0 <= i < |suf| :: IsSpace(suf[i])
    requires IsStripped(mid)
    requires |mid| > 0
    ensures Strip(pre + mid + suf) == mid
  {
    var x := pre + mid + suf;
    assert x == pre + (mid + suf);
    LStripPadded(pre, mid + suf);
    RStripPadded(mid, suf);
    assert Strip(x) == RStrip(LStrip(x));
  }

  lemma {:induction false} LStripPadded(pre: string, rest: string)
    requires forall i | 0 <= i < |pre| :: IsSpace(pre[i])
    requires |rest| > 0 && !IsSpace(rest[0])
    ensures LStrip(pre + rest) == rest
  {
    if |pre| > 0 {
      assert (pre + rest)[1..] == pre[1..] + rest;
      LStripPadded(pre[1..], rest);
    } else {
      assert pre + rest == rest;
    }
  }

  lemma {:induction false} RStripPadded(rest: string, suf: string)
    requires forall i | 0 <= i < |suf| :: IsSpace(suf[i])
    requires |rest| > 0 && !IsSpace(rest[|rest| - 1])
    ensures RStrip(rest + suf) == rest
  {
    if |suf| > 0 {
      assert (rest + suf)[..|rest + suf| - 1] == rest + suf[..|suf| - 1];
      RStripPadded(rest, suf[..|suf| - 1]);
    } else {
      assert rest + suf == rest;
    }
  }

  /** `strip` on already stripped text changes nothing. */
  lemma StripStripped(s: string)
    requires IsStripped(s)
    ensures Strip(s) == s
  {
    if |s| > 0 {
      assert "" + s + "" == s;
      StripPadded("", s, "");
    }
  }
}

=== FILE: text.dfy ===
/** Line splitting and joining, and decimal numerals, as Python's
    `str.splitlines`, `"\n".join` and `str(int)` behave on them. */
module Text {
  import opened Strings

  // ---------------------------------------------------------------------
  // Lines

  /** The characters `str.splitlines` breaks a line at. */
  predicate IsLineBreak(c: char) {
    || c == '\n' || c == '\r' || c == '\U{0B}' || c == '\U{0C}'
    || ('\U{1C}' <= c <= '\U{1E}')
    || c == '\U{85}' || c == '\U{2028}' || c == '\U{2029}'
  }

  /** Every line break is white space, so stripping a line removes any that
      are left. */
  lemma LineBreakIsSpace(c: char)
    ensures IsLineBreak(c) ==> IsSpace(c)
  {
  }

  predicate NoBreaks(s: string) {
    forall i | 0 <= i < |s| :: !IsLineBreak(s[i])
  }

  /** Stated over the characters present, which is cheaper to check for a
      literal. */
  lemma NoBreaksByMembers(s: string)
    requires forall c | c in s :: !IsLineBreak(c)
    ensures NoBreaks(s)
  {
    assert forall i | 0 <= i < |s| :: s[i] in s;
  }

  lemma NoBreaksSlice(s: string, a: nat, b: nat)
    requires NoBreaks(s) && a <= b <= |s|
    ensures NoBreaks(s[a..b])
  {
    assert forall i | 0 <= i < b - a :: s[a..b][i] == s[a + i];
  }

  /** Two lists of single lines make one. */
  lemma SinglesConcat(a: seq<string>, b: seq<string>)
    requires forall k | 0 <= k < |a| :: NoBreaks(a[k])
    requires forall k | 0 <= k < |b| :: NoBreaks(b[k])
    ensures forall k | 0 <= k < |a + b| :: NoBreaks((a + b)[k])
  {
    forall k | 0 <= k < |a + b| ensures NoBreaks((a + b)[k]) {
      if k >= |a| {
        assert (a + b)[k] == b[k - |a|];
      }
    }
  }

  lemma NoBreaksConcat(a: string, b: string)
    requires NoBreaks(a) && NoBreaks(b)
    ensures NoBreaks(a + b)
  {
    forall i | 0 <= i < |a + b| ensures !IsLineBreak((a + b)[i]) {
      if i >= |a| {
        assert (a + b)[i] == b[i - |a|];
      }
    }
  }

  /** Where the first line of `s` ends. */
  function LineEnd(s: string): (r: nat)
    ensures r <= |s| && NoBreaks(s[..r])
    ensures r < |s| ==> IsLineBreak(s[r])
  {
    if |s| == 0 || IsLineBreak(s[0]) then 0
    else
      var r := 1 + LineEnd(s[1..]);
      assert forall i | 1 <= i < r :: s[..r][i] == s[1..][..r - 1][i - 1];
      r
  }

  /** The length of the break at `s[i]`: `\r\n` counts as one break. */
  function BreakLength(s: string, i: nat): (r: nat)
    requires i < |s|
    ensures 1 <= r && i + r <= |s|
  {
    if s[i] == '\r' && i + 1 < |s| && s[i + 1] == '\n' then 2 else 1
  }

  /** `s.splitlines()`: no empty line follows a final break. */
  function SplitLines(s: string): (r: seq<string>)
    ensures forall k | 0 <= k < |r| :: NoBreaks(r[k])
    ensures |r| <= |s|
    decreases |s|
  {
    if |s| == 0 then []
    else
      var e := LineEnd(s);
      if e == |s| then [s]
      else [s[..e]] + SplitLines(s[e + BreakLength(s, e)..])
  }

  /** Each line followed by `\n`. */
  function JoinLines(lines: seq<string>): string {
    if |lines| == 0 then "" else lines[0] + "\n" + JoinLines(lines[1..])
  }

  /** No line holds a break of its own. */
  predicate SingleLines(lines: seq<string>) {
    |lines| == 0 || (NoBreaks(lines[0]) && SingleLines(lines[1..]))
  }

  lemma {:induction false} SingleLinesEach(lines: seq<string>)
    requires forall k | 0 <= k < |lines| :: NoBreaks(lines[k])
    ensures SingleLines(lines)
    decreases |lines|
  {
    if |lines| > 0 {
      SingleLinesEach(lines[1..]);
    }
  }

  /** Splitting undoes joining, as long as no line holds a break of its
      own, whatever text follows the joined lines. */
  lemma {:induction false} SplitJoinLines(lines: seq<string>, rest: string)
    requires SingleLines(lines)
    ensures SplitLines(JoinLines(lines) + rest) == lines + SplitLines(rest)
    decreases |lines|
  {
    if |lines| == 0 {
      assert JoinLines(lines) + rest == rest;
      assert lines + SplitLines(rest) == SplitLines(rest);
    } else {
      SplitJoinLines(lines[1..], rest);
      SplitJoinStep(lines[0], lines[1..], rest);
      assert [lines[0]] + lines[1..] == lines;
    }
  }

  lemma SplitJoinStep(l: string, more: seq<string>, rest: string)
    requires NoBreaks(l)
    requires SplitLines(JoinLines(more) + rest) == more + SplitLines(rest)
    ensures SplitLines(JoinLines([l] + more) + rest) == [l] + more + SplitLines(rest)
  {
    var tail := JoinLines(more) + rest;
    assert ([l] + more)[1..] == more;
    assert JoinLines([l] + more) + rest == l + "\n" + tail;
    SplitLinesCons(l, tail);
    AppendAssoc([l], more, SplitLines(rest));
  }

  /** A line and its break come off the front of a string as one. */
  lemma SplitLinesCons(l: string, tail: string)
    requires NoBreaks(l)
    ensures SplitLines(l + "\n" + tail) == [l] + SplitLines(tail)
  {
    var s := l + "\n" + tail;
    LineEndOf(l, tail);
    assert s[|l| + 1..] == tail;
  }

  lemma {:induction false} JoinLinesAppend(a: seq<string>, b: seq<string>)
    ensures JoinLines(a + b) == JoinLines(a) + JoinLines(b)
    decreases |a|
  {
    if |a| > 0 {
      assert (a + b)[1..] == a[1..] + b;
      JoinLinesAppend(a[1..], b);
    } else {
      assert a + b == b;
    }
  }

  lemma LineEndOf(l: string, rest: string)
    requires NoBreaks(l)
    ensures var s := l + "\n" + rest;
      LineEnd(s) == |l| && s[..|l|] == l && BreakLength(s, |l|) == 1
    decreases |l|
  {
    if |l| > 0 {
      assert (l + "\n" + rest)[1..] == l[1..] + "\n" + rest;
      LineEndOf(l[1..], rest);
    }
  }

  // ---------------------------------------------------------------------
  // Decimal numerals

  predicate IsDigit(c: char) {
    '0' <= c <= '9'
  }

  /** `str(n)` for a natural number. */
  function NatToString(n: nat): (r: string)
    ensures |r| > 0 && forall i | 0 <= i < |r| :: IsDigit(r[i])
    ensures r[0] == '0' ==> n == 0
  {
    var d := [(n % 10) as char + '0'];
    if n < 10 then d else NatToString(n / 10) + d
  }

  /** The value of a string of decimal digits. */
  function ParseNat(s: string): nat
    requires forall i | 0 <= i < |s| :: IsDigit(s[i])
  {
    if |s| == 0 then 0
    else
      assert IsDigit(s[|s| - 1]);
      10 * ParseNat(s[..|s| - 1]) + (s[|s| - 1] as int - '0' as int)
  }

  /** Reading a formatted number back gives the number. */
  lemma {:induction false} ParseNatToString(n: nat)
    ensures ParseNat(NatToString(n)) == n
  {
    var r := NatToString(n);
    if n >= 10 {
      ParseNatToString(n / 10);
      assert r[..|r| - 1] == NatToString(n / 10);
    }
  }

  /** Formatting is injective: distinct numbers have distinct numerals. */
  lemma NatToStringInjective(m: nat, n: nat)
    ensures NatToString(m) == NatToString(n) ==> m == n
  {
    ParseNatToString(m);
    ParseNatToString(n);
  }
}

=== FILE: transforms.dfy ===
/** The string rewrites `_apply_conversion` dispatches to by name. The fixed
    regular expressions of the source are written out as explicit scans with
    Python's matching rules (leftmost match, greedy runs, `.` stops at a
    newline, `[^"]` does not). */
module Transforms {
  import opened Wrappers
  import opened Strings

  // ---------------------------------------------------------------------
  // AdGuard CSS hiding:  re.sub(r'#\$#(.*) \{ display: none !important; \}', r'##\1', rule)

  const CssOpen: string := "#$#"
  const CssSuffix: string := " { display: none !important; }"

  /** Index of the first newline at or after `from`, or `|s|`. */
  function LineEnd(s: string, from: nat): (e: nat)
    requires from <= |s|
    ensures from <= e <= |s|
    ensures forall k | from <= k < e :: s[k] != '\n'
    ensures e == |s| || s[e] == '\n'
    decreases |s| - from
  {
    if from == |s| || s[from] == '\n' then from else LineEnd(s, from + 1)
  }

  /** The largest `j` in `[lo, hi]` at which `CssSuffix` occurs. */
  function LastSuffixIn(s: string, lo: nat, hi: nat): (r: Option<nat>)
    ensures r.Some? ==> lo <= r.value <= hi && OccursAt(s, CssSuffix, r.value)
    ensures r.Some? ==> forall k | r.value < k <= hi :: !OccursAt(s, CssSuffix, k)
    ensures r.None? ==> forall k | lo <= k <= hi :: !OccursAt(s, CssSuffix, k)
    decreases hi
  {
    if hi < lo then None
    else if OccursAt(s, CssSuffix, hi) then Some(hi)
    else if hi == lo then None
    else LastSuffixIn(s, lo, hi - 1)
  }

  /** Where the CSS-hiding expression matches at `i`, the end of its greedy
      group `(.*)`: the last `CssSuffix` on the same line. */
  function CssMatchAt(s: string, i: nat): (r: Option<nat>)
    requires i <= |s|
    ensures r.Some? ==> OccursAt(s, CssOpen, i) && i + |CssOpen| <= r.value
    ensures r.Some? ==> OccursAt(s, CssSuffix, r.value)
  {
    if OccursAt(s, CssOpen, i) then
      LastSuffixIn(s, i + |CssOpen|, LineEnd(s, i + |CssOpen|))
    else None
  }

  /** The match is Python's: the group holds no newline, and every later
      suffix lies past a newline (greedy `.*`); with no match, every suffix
      after a `#$#` lies past a newline. */
  lemma CssMatchAtMeaning(s: string, i: nat)
    requires i <= |s|
    ensures var r := CssMatchAt(s, i);
      && (r.Some? ==> forall k | i + |CssOpen| <= k < r.value :: s[k] != '\n')
      && (r.Some? ==> forall k | r.value < k <= |s| && OccursAt(s, CssSuffix, k) ::
            '\n' in s[i + |CssOpen|..k])
      && (r.None? && OccursAt(s, CssOpen, i) ==>
            forall k | i + |CssOpen| <= k <= |s| && OccursAt(s, CssSuffix, k) ::
              '\n' in s[i + |CssOpen|..k])
  {
    if OccursAt(s, CssOpen, i) {
      var a := i + |CssOpen|;
      var e := LineEnd(s, a);
      forall k | e < k <= |s| ensures '\n' in s[a..k] {
        assert s[a..k][e - a] == s[e];
      }
    }
  }

  /** `re.sub` of the CSS-hiding expression on `s[i..]`: each match, scanning
      left to right, is replaced by `##` and its group. */
  function CssSubFrom(s: string, i: nat): (r: string)
    requires i <= |s|
    decreases |s| - i
  {
    if i == |s| then ""
    else match CssMatchAt(s, i)
      case Some(j) => "##" + s[i + |CssOpen|..j] + CssSubFrom(s, j + |CssSuffix|)
      case None => [s[i]] + CssSubFrom(s, i + 1)
  }

  /** `convert_adguard_css_to_ublock` */
  function CssHiding(rule: string): string {
    CssSubFrom(rule, 0)
  }

  /** Text before the first `#` of `s` is copied through by the scan. */
  lemma {:induction false} CssCopiesPrefix(s: string, d: nat, k: nat)
    requires k <= d <= |s|
    requires forall m | 0 <= m < d :: s[m] != '#'
    ensures CssSubFrom(s, k) == s[k..d] + CssSubFrom(s, d)
    decreases d - k
  {
    if k < d {
      OccursAtHead(s, CssOpen, k);
      assert CssMatchAt(s, k).None?;
      var rest := CssSubFrom(s, d);
      assert CssSubFrom(s, k) == [s[k]] + CssSubFrom(s, k + 1);
      CssCopiesPrefix(s, d, k + 1);
      assert s[k..d] == [s[k]] + s[k + 1..d];
      AppendAssoc([s[k]], s[k + 1..d], rest);
    }
  }

  /** At a `#$#` followed by a newline-free selector and the display-none
      suffix that ends the text, the greedy group is the selector. */
  lemma CssMatchWhole(s: string, d: nat, selector: string)
    requires d <= |s|
    requires s[d..] == CssOpen + selector + CssSuffix
    requires '\n' !in selector
    ensures CssMatchAt(s, d) == Some(|s| - |CssSuffix|)
  {
    var t := s[d..];
    var j := |s| - |CssSuffix|;
    assert OccursAt(s, CssOpen, d) by { assert s[d..d + 3] == t[..3]; }
    assert OccursAt(s, CssSuffix, j) by { assert s[j..] == t[|t| - |CssSuffix|..]; }
    forall k | d + 3 <= k < |s| ensures s[k] != '\n' {
      assert s[k] == t[k - d];
      if k < j { assert t[k - d] == selector[k - d - 3]; }
      else { assert t[k - d] == CssSuffix[k - j]; }
    }
    assert LineEnd(s, d + 3) == |s|;
    forall k | j < k <= |s| ensures !OccursAt(s, CssSuffix, k) { }
  }

  /** From a `#$#` that opens a whole CSS-hiding tail, the scan emits `##`
      and the selector and nothing more. */
  lemma CssTail(s: string, d: nat, selector: string)
    requires d <= |s|
    requires s[d..] == CssOpen + selector + CssSuffix
    requires '\n' !in selector
    ensures CssSubFrom(s, d) == "##" + selector
  {
    CssMatchWhole(s, d, selector);
    var j := |s| - |CssSuffix|;
    assert s[d + 3..j] == s[d..][3..j - d] == selector;
    assert CssSubFrom(s, j + |CssSuffix|) == "";
    assert "##" + selector + "" == "##" + selector;
  }

  /** An AdGuard CSS-hiding rule `domain#$#selector { display: none
      !important; }` becomes `domain##selector`. */
  lemma CssHidingShape(domain: string, selector: string)
    requires '#' !in domain
    requires '\n' !in selector
    ensures CssHiding(domain + CssOpen + selector + CssSuffix) == domain + "##" + selector
  {
    var tail := CssOpen + selector + CssSuffix;
    var s := domain + tail;
    var d := |domain|;
    assert s[..d] == domain && s[d..] == tail;
    CssCopiesPrefix(s, d, 0);
    CssTail(s, d, selector);
    AppendAssoc(domain, CssOpen, selector);
    AppendAssoc(domain, CssOpen + selector, CssSuffix);
  }

  /** A rule with no `#$#` is left alone. */
  lemma CssHidingNoMarker(rule: string)
    requires !Contains(rule, CssOpen)
    ensures CssHiding(rule) == rule
  {
    CssSubFromNoMarker(rule, 0);
  }

  /** Without a `#$#` from `i` on, the scan copies `s[i..]`. */
  lemma {:induction false} CssSubFromNoMarker(s: string, i: nat)
    requires i <= |s|
    requires forall k | i <= k < |s| :: !OccursAt(s, CssOpen, k)
    ensures CssSubFrom(s, i) == s[i..]
    decreases |s| - i
  {
    if i < |s| {
      CssSubFromNoMarker(s, i + 1);
      assert s[i..] == [s[i]] + s[i + 1..];
    }
  }

  // ---------------------------------------------------------------------
  // AdGuard scriptlet:  re.search(r'#%#//scriptlet\("([^"]+)", "([^"]+)"\)', rule)

  const ScriptletOpen: string := "#%#//scriptlet(\""
  const ScriptletSep: string := "\", \""
  const ScriptletClose: string := "\")"

  /** AdGuard scriptlet names with a different uBlock Origin name. */
  const ScriptletNames: map<string, string> := map[
    "abort-on-property-read" := "aopr",
    "abort-on-property-write" := "aopw",
    "abort-current-inline-script" := "acis",
    "set-constant" := "set",
    "json-prune" := "json-prune"
  ]

  /** `scriptlet_map.get(name, name)` */
  function ScriptletName(name: string): (r: string)
    ensures name !in ScriptletNames ==> r == name
  {
    if name in ScriptletNames then ScriptletNames[name] else name
  }

  /** The scriptlet expression matched at `i`: its name and argument groups. */
  function ScriptletAt(s: string, i: nat): (r: Option<(string, string)>)
    requires i <= |s|
    ensures r.Some? ==> OccursAt(s, ScriptletOpen, i)
  {
    if !OccursAt(s, ScriptletOpen, i) then None
    else
      var a := i + |ScriptletOpen|;
      match FindFrom(s, "\"", a)
      case None => None
      case Some(n) =>
        if n == a || !OccursAt(s, ScriptletSep, n) then None
        else
          var b := n + |ScriptletSep|;
          match FindFrom(s, "\"", b)
          case None => None
          case Some(e) =>
            if e == b || !OccursAt(s, ScriptletClose, e) then None
            else Some((s[a..n], s[b..e]))
  }

  /** A match's groups are non-empty runs without `"`, and the matched text
      is the call `name", "arg")` after the opening. */
  lemma ScriptletAtGroups(s: string, i: nat)
    requires i <= |s| && ScriptletAt(s, i).Some?
    ensures var (name, arg) := ScriptletAt(s, i).value;
      && |name| > 0 && '"' !in name && |arg| > 0 && '"' !in arg
      && OccursAt(s, name + ScriptletSep + arg + ScriptletClose, i + |ScriptletOpen|)
  {
    var a := i + |ScriptletOpen|;
    var n := FindFrom(s, "\"", a).value;
    var b := n + |ScriptletSep|;
    var e := FindFrom(s, "\"", b).value;
    NoQuoteBefore(s, a, n);
    NoQuoteBefore(s, b, e);
    SliceJoin(s, a, n, b);
    SliceJoin(s, a, b, e);
    SliceJoin(s, a, e, e + 2);
  }

  /** Positions skipped by `FindFrom(s, "\"", _)` hold no quote. */
  lemma NoQuoteBefore(s: string, a: nat, n: nat)
    requires a <= n <= |s|
    requires forall j | a <= j < n :: !OccursAt(s, "\"", j)
    ensures '"' !in s[a..n]
  {
    forall j | a <= j < n ensures s[j] != '"' {
      OccursAtSingle(s, '"', j);
    }
  }

  /** `re.search`: the leftmost position at or after `i` where the scriptlet
      expression matches. */
  function ScriptletSearch(s: string, i: nat): (r: Option<nat>)
    requires i <= |s|
    ensures r.Some? ==> i <= r.value <= |s| && ScriptletAt(s, r.value).Some?
    ensures r.Some? ==> forall k | i <= k < r.value :: ScriptletAt(s, k).None?
    ensures r.None? ==> forall k | i <= k <= |s| :: ScriptletAt(s, k).None?
    decreases |s| - i
  {
    if ScriptletAt(s, i).Some? then Some(i)
    else if i == |s| then None
    else
      var r := ScriptletSearch(s, i + 1);
      assert forall k | i < k && (r.None? || k < r.value) && k <= |s| :: ScriptletAt(s, k).None?;
      r
  }

  /** `convert_adguard_scriptlet_to_ublock` */
  function Scriptlet(rule: string): (r: string)
    ensures !Contains(rule, ScriptletOpen) ==> r == rule
  {
    match ScriptletSearch(rule, 0)
    case None => rule
    case Some(k) =>
      var (name, arg) := ScriptletAt(rule, k).value;
      BeforeChar(rule, '#') + "##+js(" + ScriptletName(name) + ", " + arg + ")"
  }

  /** The scriptlet expression matches a well-formed AdGuard scriptlet call
      at its `#%#` and captures its name and argument. */
  lemma ScriptletAtShape(s: string, d: nat, name: string, arg: string)
    requires d <= |s|
    requires s[d..] == ScriptletOpen + name + ScriptletSep + arg + ScriptletClose
    requires |name| > 0 && '"' !in name && |arg| > 0 && '"' !in arg
    ensures ScriptletAt(s, d) == Some((name, arg))
  {
    var a := d + |ScriptletOpen|;
    var n := a + |name|;
    var b := n + |ScriptletSep|;
    var e := b + |arg|;
    ScriptletPieces(s[d..], name, arg);
    assert s[d..a] == ScriptletOpen && s[a..n] == name && s[n..b] == ScriptletSep;
    assert s[b..e] == arg && s[e..] == ScriptletClose;
    ScriptletAtPieces(s, d, name, arg);
  }

  /** Cutting a scriptlet call at its fixed delimiters. */
  lemma ScriptletPieces(t: string, name: string, arg: string)
    requires t == ScriptletOpen + name + ScriptletSep + arg + ScriptletClose
    ensures var a := |ScriptletOpen|; var n := a + |name|;
      var b := n + |ScriptletSep|; var e := b + |arg|;
      && |t| == e + 2
      && t[..a] == ScriptletOpen && t[a..n] == name && t[n..b] == ScriptletSep
      && t[b..e] == arg && t[e..] == ScriptletClose
  {
  }

  lemma ScriptletAtPieces(s: string, d: nat, name: string, arg: string)
    requires |name| > 0 && '"' !in name && |arg| > 0 && '"' !in arg
    requires var a := d + |ScriptletOpen|; var n := a + |name|;
      var b := n + |ScriptletSep|; var e := b + |arg|;
      && |s| == e + 2
      && s[d..a] == ScriptletOpen && s[a..n] == name && s[n..b] == ScriptletSep
      && s[b..e] == arg && s[e..] == ScriptletClose
    ensures ScriptletAt(s, d) == Some((name, arg))
  {
    var a := d + |ScriptletOpen|;
    var n := a + |name|;
    var b := n + |ScriptletSep|;
    var e := b + |arg|;
    assert OccursAt(s, ScriptletOpen, d);
    assert s[n] == s[n..b][0] == '"';
    FirstQuote(s, a, n, name);
    assert OccursAt(s, ScriptletSep, n);
    assert s[e] == s[e..][0] == '"';
    FirstQuote(s, b, e, arg);
    assert OccursAt(s, ScriptletClose, e);
  }

  /** `domain#%#//scriptlet("name", "arg")` becomes
      `domain##+js(mapped, arg)` with the name mapped through the table. */
  lemma ScriptletShape(domain: string, name: string, arg: string)
    requires '#' !in domain
    requires |name| > 0 && '"' !in name && |arg| > 0 && '"' !in arg
    ensures Scriptlet(domain + ScriptletOpen + name + ScriptletSep + arg + ScriptletClose)
         == domain + "##+js(" + ScriptletName(name) + ", " + arg + ")"
  {
    var t := ScriptletOpen + name + ScriptletSep + arg + ScriptletClose;
    var s := domain + t;
    var d := |domain|;
    assert s[..d] == domain && s[d..] == t;
    ScriptletAtShape(s, d, name, arg);
    assert s[d] == t[0] == '#';
    ScriptletSearchFinds(s, 0, d);
    BeforeCharAt(s, '#', d);
    AppendAssoc(domain, ScriptletOpen, name);
    AppendAssoc(domain, ScriptletOpen + name, ScriptletSep);
    AppendAssoc(domain, ScriptletOpen + name + ScriptletSep, arg);
    AppendAssoc(domain, ScriptletOpen + name + ScriptletSep + arg, ScriptletClose);
  }

  /** No scriptlet starts before the first `#`, so the search finds the one
      that starts there. */
  lemma {:induction false} ScriptletSearchFinds(s: string, i: nat, d: nat)
    requires i <= d <= |s| && ScriptletAt(s, d).Some?
    requires forall k | i <= k < d :: s[k] != '#'
    ensures ScriptletSearch(s, i) == Some(d)
    decreases d - i
  {
    if i < d {
      ScriptletAtHash(s, i);
      ScriptletSearchFinds(s, i + 1, d);
    }
  }

  /** A scriptlet match starts at a `#`. */
  lemma ScriptletAtHash(s: string, k: nat)
    requires k < |s| && s[k] != '#'
    ensures ScriptletAt(s, k).None?
  {
    OccursAtHead(s, ScriptletOpen, k);
  }

  /** The first `"` at or after `a` is the one right after a quote-free run. */
  lemma FirstQuote(s: string, a: nat, n: nat, run: string)
    requires a <= n < |s| && s[a..n] == run && '"' !in run && s[n] == '"'
    ensures FindFrom(s, "\"", a) == Some(n)
  {
    OccursAtSingle(s, '"', n);
    forall j | a <= j < n ensures !OccursAt(s, "\"", j) {
      assert s[j] == run[j - a];
      OccursAtSingle(s, '"', j);
    }
  }

  // ---------------------------------------------------------------------
  // AdGuard redirect resources

  /** AdGuard redirect resources and their uBlock Origin names, in the order
      they are tried. */
  const RedirectResources: seq<(string, string)> := [
    ("nooptext", "1x1.gif"),
    ("noopjs", "noop.js"),
    ("noopframe", "empty.html")
  ]

  /** Tries the resources from index `k` on. */
  function RedirectFrom(rule: string, k: nat): (r: string)
    requires k <= |RedirectResources|
    ensures (forall m | k <= m < |RedirectResources| :: !Contains(rule, RedirectResources[m].0)) ==> r == rule
    ensures forall m | k <= m < |RedirectResources| ::
      Contains(rule, RedirectResources[m].0) &&
      (forall l | k <= l < m :: !Contains(rule, RedirectResources[l].0)) ==>
        r == ReplaceAll(rule, RedirectResources[m].0, RedirectResources[m].1)
    decreases |RedirectResources| - k
  {
    if k == |RedirectResources| then rule
    else if Contains(rule, RedirectResources[k].0)
      then ReplaceAll(rule, RedirectResources[k].0, RedirectResources[k].1)
    else RedirectFrom(rule, k + 1)
  }

  /** `convert_adguard_redirect_to_ublock`: every occurrence of only the
      first resource name found is renamed; a rule naming none is unchanged. */
  function Redirect(rule: string): string {
    RedirectFrom(rule, 0)
  }

  /** A redirect naming `nooptext` at its end is renamed to `1x1.gif`. */
  lemma RedirectNooptext(prefix: string)
    requires 'n' !in prefix
    ensures Redirect(prefix + "nooptext") == prefix + "1x1.gif"
  {
    var s := prefix + "nooptext";
    assert OccursAt(s, "nooptext", |prefix|) by { assert s[|prefix|..] == "nooptext"; }
    assert Contains(s, "nooptext");
    NoStartIn(prefix, "nooptext", "nooptext");
    ReplaceAllSkips(prefix, "nooptext", "nooptext", "1x1.gif");
    ReplaceAllWhole("nooptext", "1x1.gif");
  }

  /** No occurrence of `target` starts inside a prefix lacking its first
      character. */
  lemma NoStartIn(a: string, b: string, target: string)
    requires |target| > 0 && target[0] !in a
    ensures forall i | 0 <= i < |a| :: !OccursAt(a + b, target, i)
  {
    forall i | 0 <= i < |a| ensures !OccursAt(a + b, target, i) {
      OccursAtHead(a + b, target, i);
      assert (a + b)[i] == a[i];
    }
  }

  // ---------------------------------------------------------------------
  // Ghostery

  /** `convert_ghostery_to_ublock`: a rule without a leading `||` is wrapped
      as `||rule^`. */
  function GhosteryNetwork(rule: string): (r: string)
    ensures StartsWith(r, "||")
    ensures StartsWith(rule, "||") ==> r == rule
    ensures !StartsWith(rule, "||") ==> |r| == |rule| + 3 && r[2..|r| - 1] == rule && r[|r| - 1] == '^'
  {
    if !StartsWith(rule, "||") then "||" + rule + "^" else rule
  }

  /** `convert_ghostery_wildcard_to_ublock` */
  function GhosteryWildcard(rule: string): (r: string)
    ensures !Contains(rule, "*example.com*") ==> r == rule
  {
    ReplaceAll(rule, "*example.com*", "||example.com^")
  }

  /** Each `*example.com*`, left to right, becomes `||example.com^`. */
  lemma GhosteryWildcardRewrites(a: string, b: string)
    requires forall i | 0 <= i < |a| :: !OccursAt(a + "*example.com*" + b, "*example.com*", i)
    ensures GhosteryWildcard(a + "*example.com*" + b) == a + "||example.com^" + GhosteryWildcard(b)
  {
    ReplaceAllAt(a, b, "*example.com*", "||example.com^");
  }

  /** Text before the first `*` is kept, and a wildcard starting there is
      rewritten. */
  lemma GhosteryWildcardLeading(a: string, b: string)
    requires '*' !in a
    ensures GhosteryWildcard(a + "*example.com*" + b) == a + "||example.com^" + GhosteryWildcard(b)
  {
    var s := a + "*example.com*" + b;
    assert forall j | 0 <= j < |a| :: s[j] == a[j];
    NoOccurrenceWithoutHead(s, "*example.com*", 0, |a|);
    GhosteryWildcardRewrites(a, b);
  }

  /** The table's Ghostery wildcard becomes the network filter of its row. */
  lemma GhosteryWildcardWhole()
    ensures GhosteryWildcard("*example.com*") == "||example.com^"
  {
    ReplaceAllWhole("*example.com*", "||example.com^");
  }

  // ---------------------------------------------------------------------
  // ClearURLs

  /** Python's `IndexError`, raised when a rule lacks the `/?` the ClearURLs
      conversion splits on. */
  datatype ConversionError = IndexError

  /** `convert_clearurls_to_ublock_removeparam`: the text before `/?`
      becomes the filter and the query text after it, without `*`, the
      removed parameter. */
  function ClearUrls(rule: string): (r: Result<string, ConversionError>)
    ensures r.Failure? <==> !Contains(rule, "/?")
  {
    match SplitSecond(rule, "/?")
    case None => Failure(IndexError)
    case Some(query) =>
      var param := RemoveChar(query, '*');
      Success(SplitHead(rule, "/?") + "$removeparam=/" + param + ".*/i")
  }

  /** `s.replace(c, '')` for one character. */
  function RemoveChar(s: string, c: char): (r: string)
    ensures c !in r
    ensures |r| <= |s|
    ensures c !in s ==> r == s
  {
    if |s| == 0 then ""
    else if s[0] == c then RemoveChar(s[1..], c)
    else [s[0]] + RemoveChar(s[1..], c)
  }

  /** Removal distributes over concatenation. */
  lemma {:induction false} RemoveCharAppend(a: string, b: string, c: char)
    ensures RemoveChar(a + b, c) == RemoveChar(a, c) + RemoveChar(b, c)
  {
    if |a| > 0 {
      RemoveCharAppend(a[1..], b, c);
      assert (a + b)[1..] == a[1..] + b;
      if a[0] != c {
        AppendAssoc([a[0]], RemoveChar(a[1..], c), RemoveChar(b, c));
      }
    } else {
      assert a + b == b;
    }
  }

  // A ClearURLs rule `host/?param`, with no `/` in either part, becomes
  // `host$removeparam=/param.*/i` with the `*`s of `param` removed.
  lemma ClearUrlsShape(host: string, param: string)
    requires '/' !in host && '/' !in param
    ensures ClearUrls(host + "/?" + param)
         == Success(host + "$removeparam=/" + RemoveChar(param, '*') + ".*/i")
  {
    SplitAtOnlySep(host, param);
  }

  /** The same with a literal start `pre` of the parameter, which has no `*`
      to lose. */
  lemma ClearUrlsPrefixed(host: string, pre: string, param: string)
    requires '/' !in host && '/' !in pre && '*' !in pre && '/' !in param
    ensures ClearUrls(host + "/?" + pre + param)
         == Success(host + "$removeparam=/" + (pre + RemoveChar(param, '*')) + ".*/i")
  {
    AppendAssoc(host + "/?", pre, param);
    assert '/' !in pre + param;
    ClearUrlsShape(host, pre + param);
    RemoveCharAppend(pre, param, '*');
  }

  /** Splitting `host/?param` on `/?` when neither part holds a `/`. */
  lemma SplitAtOnlySep(host: string, param: string)
    requires '/' !in host && '/' !in param
    ensures SplitHead(host + "/?" + param, "/?") == host
    ensures SplitSecond(host + "/?" + param, "/?") == Some(param)
  {
    var s := host + "/?" + param;
    var h := |host|;
    assert OccursAt(s, "/?", h) by { assert s[h..h + 2] == "/?"; }
    forall j | 0 <= j < h ensures s[j] != "/?"[0] { assert s[j] == host[j]; }
    NoOccurrenceWithoutHead(s, "/?", 0, h);
    assert Find(s, "/?") == Some(h);
    assert s[..h] == host;
    forall j | h + 2 <= j < |s| ensures s[j] != "/?"[0] { assert s[j] == param[j - h - 2]; }
    NoOccurrenceWithoutHead(s, "/?", h + 2, |s| + 1);
    assert FindFrom(s, "/?", h + 2) == None;
    assert s[h + 2..] == param;
  }

  // ---------------------------------------------------------------------
  // Hosts file and Pi-hole

  /** `re.sub(r'^(0\.0\.0\.0|127\.0\.0\.1)\s+', '', rule)`: one leading
      address followed by at least one whitespace character is removed with
      the whole whitespace run. */
  function DropAddress(rule: string): (r: string)
    ensures |r| <= |rule|
    ensures r == rule || |r| < |rule|
  {
    if StartsWith(rule, "0.0.0.0") && |rule| > 7 && IsSpace(rule[7]) then LStrip(rule[7..])
    else if StartsWith(rule, "127.0.0.1") && |rule| > 9 && IsSpace(rule[9]) then LStrip(rule[9..])
    else rule
  }

  /** `convert_hosts_to_ublock` and `convert_pihole_to_ublock`: the address
      is dropped, the rest stripped and wrapped as `||host^`. */
  function HostsToNetwork(rule: string): (r: string)
    ensures StartsWith(r, "||") && r[|r| - 1] == '^'
    ensures r[2..|r| - 1] == Strip(DropAddress(rule))
  {
    var host := Strip(DropAddress(rule));
    NetworkWrap(host);
    "||" + host + "^"
  }

  /** `||h^` starts with `||`, ends with `^` and holds `h` in between. */
  lemma NetworkWrap(host: string)
    ensures var r := "||" + host + "^";
      StartsWith(r, "||") && r[|r| - 1] == '^' && r[2..|r| - 1] == host
  {
  }

  /** A bare host name `h` becomes `||h^`. */
  lemma HostsBareName(host: string)
    requires |host| > 0 && IsStripped(host)
    requires !StartsWith(host, "0.0.0.0") && !StartsWith(host, "127.0.0.1")
    ensures HostsToNetwork(host) == "||" + host + "^"
  {
    StripStripped(host);
  }

  /** `ip<whitespace>h` with `ip` one of the two addresses becomes `||h^`. */
  lemma HostsLine(ip: string, space: string, host: string)
    requires ip == "0.0.0.0" || ip == "127.0.0.1"
    requires |space| > 0 && forall i | 0 <= i < |space| :: IsSpace(space[i])
    requires |host| > 0 && IsStripped(host)
    ensures HostsToNetwork(ip + space + host) == "||" + host + "^"
  {
    DropAddressLine(ip, space, host);
    StripStripped(host);
  }

  lemma DropAddressLine(ip: string, space: string, host: string)
    requires ip == "0.0.0.0" || ip == "127.0.0.1"
    requires |space| > 0 && forall i | 0 <= i < |space| :: IsSpace(space[i])
    requires |host| > 0 && !IsSpace(host[0])
    ensures DropAddress(ip + space + host) == host
  {
    var rest := space + host;
    AppendAssoc(ip, space, host);
    assert rest[0] == space[0];
    LStripPadded(space, host);
    if ip == "0.0.0.0" {
      DropAddressAt(ip, rest);
    } else {
      DropLoopbackAt(rest);
    }
  }

  /** `0.0.0.0` followed by whitespace is dropped with the whitespace. */
  lemma DropAddressAt(ip: string, rest: string)
    requires ip == "0.0.0.0" && |rest| > 0 && IsSpace(rest[0])
    ensures DropAddress(ip + rest) == LStrip(rest)
  {
    var s := ip + rest;
    assert s[..7] == ip && s[7] == rest[0] && s[7..] == rest;
  }

  /** `127.0.0.1` followed by whitespace is dropped with the whitespace. */
  lemma DropLoopbackAt(rest: string)
    requires |rest| > 0 && IsSpace(rest[0])
    ensures DropAddress("127.0.0.1" + rest) == LStrip(rest)
  {
    var s := "127.0.0.1" + rest;
    assert s[0] == '1';
    assert !StartsWith(s, "0.0.0.0") by { assert "0.0.0.0"[0] == '0'; }
    assert s[..9] == "127.0.0.1" && s[9] == rest[0] && s[9..] == rest;
  }

  // ---------------------------------------------------------------------
  // Default branch

  /** `re.match(r'^([^#^$]*)', rule).group(1)`: the longest prefix free of
      `#`, `^` and `$`. */
  function LeadingDomain(rule: string): (r: string)
    ensures r <= rule
    ensures '#' !in r && '^' !in r && '$' !in r
    ensures |r| == |rule| || rule[|r|] in "#^$"
  {
    if |rule| == 0 || rule[0] in "#^$" then "" else [rule[0]] + LeadingDomain(rule[1..])
  }

  /** The fallback for a function name with no branch of its own: the table's
      uBlock pattern with `example.com` replaced by the rule's leading domain. */
  function FillTemplate(rule: string, ublockPattern: string): (r: string)
    ensures !Contains(ublockPattern, "example.com") ==> r == ublockPattern
  {
    ReplaceAll(ublockPattern, "example.com", LeadingDomain(rule))
  }

  /** Each `example.com` of the template, left to right, is replaced by the
      rule's leading domain. */
  lemma FillTemplateRewrites(rule: string, a: string, b: string)
    requires forall i | 0 <= i < |a| :: !OccursAt(a + "example.com" + b, "example.com", i)
    ensures FillTemplate(rule, a + "example.com" + b) == a + LeadingDomain(rule) + FillTemplate(rule, b)
  {
    ReplaceAllAt(a, b, "example.com", LeadingDomain(rule));
  }

  /** Template text before the first `e` is kept, and an `example.com`
      starting there is filled in. */
  lemma FillTemplateLeading(rule: string, a: string, b: string)
    requires 'e' !in a
    ensures FillTemplate(rule, a + "example.com" + b) == a + LeadingDomain(rule) + FillTemplate(rule, b)
  {
    var s := a + "example.com" + b;
    assert forall j | 0 <= j < |a| :: s[j] == a[j];
    NoOccurrenceWithoutHead(s, "example.com", 0, |a|);
    FillTemplateRewrites(rule, a, b);
  }

  /** A rule free of `#`, `^` and `$` is its own leading domain. */
  lemma LeadingDomainWhole(rule: string)
    requires '#' !in rule && '^' !in rule && '$' !in rule
    ensures LeadingDomain(rule) == rule
  {
  }

  // ---------------------------------------------------------------------
  // Dispatch

  // The `conversion_function` names `_apply_conversion` dispatches on.
  const CssTransform: string := "convert_adguard_css_to_ublock"
  const ScriptletTransform: string := "convert_adguard_scriptlet_to_ublock"
  const RedirectTransform: string := "convert_adguard_redirect_to_ublock"
  const GhosteryTransform: string := "convert_ghostery_to_ublock"
  const GhosteryWildcardTransform: string := "convert_ghostery_wildcard_to_ublock"
  const ClearUrlsTransform: string := "convert_clearurls_to_ublock_removeparam"
  const ClearUrlsParamTransform: string := "convert_clearurls_param_to_ublock"
  const PrivacyBadgerTransform: string := "privacy_badger_domain_to_ublock"
  const PiholeTransform: string := "convert_pihole_to_ublock"
  const HostsTransform: string := "convert_hosts_to_ublock"

  /** `_apply_conversion(rule, conversion_function, pattern, ublock_pattern)`;
      the unused `pattern` argument is dropped. */
  function ApplyConversion(rule: string, fn: string, ublockPattern: string): (r: Result<string, ConversionError>)
    ensures r.Failure? ==> fn == ClearUrlsTransform && !Contains(rule, "/?")
    ensures fn == HostsTransform || fn == PiholeTransform ==>
      r == Success(HostsToNetwork(rule))
  {
    if fn == CssTransform then Success(CssHiding(rule))
    else if fn == ScriptletTransform then Success(Scriptlet(rule))
    else if fn == RedirectTransform then Success(Redirect(rule))
    else if fn == GhosteryTransform then Success(GhosteryNetwork(rule))
    else if fn == GhosteryWildcardTransform then Success(GhosteryWildcard(rule))
    else if fn == ClearUrlsTransform then ClearUrls(rule)
    else if fn == HostsTransform || fn == PiholeTransform then Success(HostsToNetwork(rule))
    else Success(FillTemplate(rule, ublockPattern))
  }

  /** A function name without a branch of its own takes the default branch. */
  lemma ApplyConversionDefault(rule: string, fn: string, ublockPattern: string)
    requires fn !in {CssTransform, ScriptletTransform, RedirectTransform, GhosteryTransform,
                     GhosteryWildcardTransform, ClearUrlsTransform, HostsTransform, PiholeTransform}
    ensures ApplyConversion(rule, fn, ublockPattern) == Success(FillTemplate(rule, ublockPattern))
  {
  }

  /** Privacy Badger's transform has no branch of its own. */
  lemma ApplyConversionPrivacyBadger(rule: string, ublockPattern: string)
    ensures ApplyConversion(rule, PrivacyBadgerTransform, ublockPattern) == Success(FillTemplate(rule, ublockPattern))
  {
    ApplyConversionDefault(rule, PrivacyBadgerTransform, ublockPattern);
  }

  /** Ghostery's wildcard transform is the one the dispatch applies. */
  lemma ApplyConversionWildcard(rule: string, ublockPattern: string)
    ensures ApplyConversion(rule, GhosteryWildcardTransform, ublockPattern) == Success(GhosteryWildcard(rule))
  {
  }
}

=== FILE: wildcard.dfy ===
/** The restricted pattern language of the conversion table: `*` stands for
    any run of characters, every other character stands for itself, and a
    pattern must cover the whole rule. `_pattern_to_regex` compiles a pattern
    into a Python regular expression; `convert_rule` runs it with `re.match`. */
module Wildcard {
  import opened Strings

  /** Characters `_pattern_to_regex` escapes with a backslash. */
  const SpecialChars: string := ".^$+?()[]{}|\\/"

  /** The regular-expression text `_pattern_to_regex` builds: `*` becomes
      `.*`, a special character is backslash-escaped, anything else is copied,
      and the whole is anchored with `^` and `$`. */
  function PatternToRegex(p: string): (r: string)
    ensures |r| >= 2 && r[0] == '^' && r[|r| - 1] == '$'
  {
    "^" + EscapeBody(p) + "$"
  }

  function EscapeBody(p: string): string {
    if |p| == 0 then ""
    else if p[0] == '*' then ".*" + EscapeBody(p[1..])
    else if p[0] in SpecialChars then ['\\', p[0]] + EscapeBody(p[1..])
    else [p[0]] + EscapeBody(p[1..])
  }

  /** Reads a regular expression of the shape `_pattern_to_regex` produces
      back into the pattern it came from. */
  function UnescapeBody(r: string): string {
    if |r| == 0 then ""
    else if |r| >= 2 && r[0] == '.' && r[1] == '*' then "*" + UnescapeBody(r[2..])
    else if |r| >= 2 && r[0] == '\\' then [r[1]] + UnescapeBody(r[2..])
    else [r[0]] + UnescapeBody(r[1..])
  }

  /** The compiled regular expression loses nothing: the pattern can be read
      back from it, so two different patterns never compile to the same
      expression. */
  lemma {:induction false} RegexRoundTrip(p: string)
    ensures UnescapeBody(EscapeBody(p)) == p
    ensures var r := PatternToRegex(p); UnescapeBody(r[1..|r| - 1]) == p
  {
    if |p| > 0 {
      RegexRoundTrip(p[1..]);
      var e := EscapeBody(p[1..]);
      if p[0] == '*' {
        assert (".*" + e)[2..] == e;
      } else if p[0] in SpecialChars {
        assert (['\\', p[0]] + e)[2..] == e;
      } else {
        assert p[0] != '.' && p[0] != '\\';
        assert ([p[0]] + e)[1..] == e;
      }
      assert [p[0]] + p[1..] == p;
    }
    var r := PatternToRegex(p);
    assert r[1..|r| - 1] == EscapeBody(p);
  }

  /** The compiled expression matches the whole of `s`, reading `.*` as any
      run of characters other than a newline (Python's `.` without
      `re.DOTALL`). */
  predicate WildMatch(p: string, s: string)
    decreases |p| + |s|
  {
    if |p| == 0 then |s| == 0
    else if p[0] == '*' then
      WildMatch(p[1..], s) || (|s| > 0 && s[0] != '\n' && WildMatch(p, s[1..]))
    else |s| > 0 && s[0] == p[0] && WildMatch(p[1..], s[1..])
  }

  /** `re.match(_pattern_to_regex(p), s)` succeeds: besides a whole-string
      match, Python's `$` also accepts a match that stops just before one
      final newline. */
  predicate PatternMatches(p: string, s: string) {
    || WildMatch(p, s)
    || (|s| > 0 && s[|s| - 1] == '\n' && WildMatch(p, s[..|s| - 1]))
  }

  /** Number of `*` in `p`. */
  function StarCount(p: string): nat {
    if |p| == 0 then 0
    else (if p[0] == '*' then 1 else 0) + StarCount(p[1..])
  }

  /** `p` with its `*`s replaced, left to right, by the runs in `fills`. */
  function Instantiate(p: string, fills: seq<string>): string
    requires |fills| == StarCount(p)
  {
    if |p| == 0 then ""
    else if p[0] == '*' then fills[0] + Instantiate(p[1..], fills[1..])
    else [p[0]] + Instantiate(p[1..], fills)
  }

  predicate NoNewline(w: string) {
    '\n' !in w
  }

  /** The reference meaning of a table pattern: `s` is `p` with every `*`
      replaced by some newline-free run. */
  ghost predicate Fits(p: string, s: string) {
    exists fills: seq<string> ::
      && |fills| == StarCount(p)
      && (forall k | 0 <= k < |fills| :: NoNewline(fills[k]))
      && Instantiate(p, fills) == s
  }

  /** Matching agrees with the reference meaning, in both directions. */
  lemma WildMatchIffFits(p: string, s: string)
    ensures WildMatch(p, s) <==> Fits(p, s)
  {
    if WildMatch(p, s) {
      var fills := MatchFills(p, s);
    }
    if Fits(p, s) {
      var fills: seq<string> :|
        && |fills| == StarCount(p)
        && (forall k | 0 <= k < |fills| :: NoNewline(fills[k]))
        && Instantiate(p, fills) == s;
      FillsMatch(p, fills);
    }
  }

  /** The runs a successful match assigns to the `*`s of `p`. */
  lemma {:induction false} MatchFills(p: string, s: string) returns (fills: seq<string>)
    requires WildMatch(p, s)
    ensures |fills| == StarCount(p)
    ensures forall k | 0 <= k < |fills| :: NoNewline(fills[k])
    ensures Instantiate(p, fills) == s
    decreases |p| + |s|
  {
    if |p| == 0 {
      fills := [];
    } else if p[0] == '*' {
      if WildMatch(p[1..], s) {
        var rest := MatchFills(p[1..], s);
        fills := [""] + rest;
        assert fills[1..] == rest;
        assert "" + s == s;
      } else {
        var w := MatchFills(p, s[1..]);
        fills := [[s[0]] + w[0]] + w[1..];
        assert fills[1..] == w[1..];
        assert Instantiate(p, w) == w[0] + Instantiate(p[1..], w[1..]);
        assert [s[0]] + s[1..] == s;
      }
    } else {
      fills := MatchFills(p[1..], s[1..]);
      assert [s[0]] + s[1..] == s;
    }
  }

  /** Every instance of `p` with newline-free runs is matched. */
  lemma {:induction false} FillsMatch(p: string, fills: seq<string>)
    requires |fills| == StarCount(p)
    requires forall k | 0 <= k < |fills| :: NoNewline(fills[k])
    ensures WildMatch(p, Instantiate(p, fills))
    decreases |p| + |Instantiate(p, fills)|
  {
    var s := Instantiate(p, fills);
    if |p| == 0 {
    } else if p[0] == '*' {
      var rest := Instantiate(p[1..], fills[1..]);
      assert s == fills[0] + rest;
      if |fills[0]| == 0 {
        assert s == rest;
        FillsMatch(p[1..], fills[1..]);
      } else {
        assert NoNewline(fills[0]);
        assert s[0] == fills[0][0];
        var fills' := [fills[0][1..]] + fills[1..];
        assert fills'[1..] == fills[1..];
        assert forall k | 0 <= k < |fills'| :: NoNewline(fills'[k]) by {
          forall k | 0 <= k < |fills'| ensures NoNewline(fills'[k]) {
            if k == 0 {
              assert forall c | c in fills[0][1..] :: c in fills[0];
            } else {
              assert fills'[k] == fills[k];
            }
          }
        }
        assert Instantiate(p, fills') == fills[0][1..] + rest;
        assert s[1..] == fills[0][1..] + rest;
        FillsMatch(p, fills');
      }
    } else {
      assert s == [p[0]] + Instantiate(p[1..], fills);
      assert s[1..] == Instantiate(p[1..], fills);
      FillsMatch(p[1..], fills);
    }
  }

  /** A pattern without `*` matches exactly itself. */
  lemma {:induction false} LiteralWildMatch(p: string, s: string)
    requires '*' !in p
    ensures WildMatch(p, s) <==> s == p
  {
    if |p| > 0 {
      assert '*' !in p[1..] by {
        assert forall c | c in p[1..] :: c in p;
      }
      if |s| > 0 {
        LiteralWildMatch(p[1..], s[1..]);
        assert s == p <==> s[0] == p[0] && s[1..] == p[1..] by {
          if s[0] == p[0] && s[1..] == p[1..] {
            assert s == [s[0]] + s[1..];
            assert p == [p[0]] + p[1..];
          }
        }
      }
    }
  }

  /** Under Python's anchoring a pattern without `*` matches itself and,
      through the final-newline rule of `$`, itself followed by one newline;
      on a newline-free rule that means the identical string only. */
  lemma LiteralPatternMatches(p: string, s: string)
    requires '*' !in p
    ensures PatternMatches(p, s) <==> (s == p || s == p + "\n")
    ensures '\n' !in s ==> (PatternMatches(p, s) <==> s == p)
  {
    LiteralWildMatch(p, s);
    if |s| > 0 {
      LiteralWildMatch(p, s[..|s| - 1]);
      if s == p + "\n" {
        assert s[..|s| - 1] == p;
      }
      if s[|s| - 1] == '\n' && s[..|s| - 1] == p {
        assert s == s[..|s| - 1] + [s[|s| - 1]];
      }
    }
  }

  /** A pattern without `*` matches its own text. */
  lemma LiteralMatchesItself(p: string)
    requires '*' !in p
    ensures PatternMatches(p, p)
  {
    LiteralWildMatch(p, p);
  }

  /** A pattern without `*` rejects a rule that differs from it at a
      position both have. */
  lemma LiteralMismatch(p: string, s: string, i: nat)
    requires '*' !in p && i < |p| && i < |s| && p[i] != s[i]
    ensures !PatternMatches(p, s)
  {
    LiteralPatternMatches(p, s);
  }

  /** On a rule with no newline (every stripped source line), table matching
      is exactly the reference meaning. */
  lemma PatternMatchesIffFits(p: string, s: string)
    requires '\n' !in s
    ensures PatternMatches(p, s) <==> Fits(p, s)
  {
    WildMatchIffFits(p, s);
  }

  /** A lone `*` matches any newline-free text. */
  lemma {:induction false} StarMatchesLine(w: string)
    requires '\n' !in w
    ensures WildMatch("*", w)
    decreases |w|
  {
    if |w| > 0 {
      assert '\n' !in w[1..] by { assert forall c | c in w[1..] :: c in w; }
      StarMatchesLine(w[1..]);
      assert "*"[1..] == "";
    } else {
      assert "*"[1..] == "";
    }
  }

  /** A literal prefix followed by `*` matches the prefix followed by any
      newline-free text. */
  lemma {:induction false} LiteralStarMatches(lit: string, w: string)
    requires '*' !in lit && '\n' !in w
    ensures WildMatch(lit + "*", lit + w)
    decreases |lit|
  {
    if |lit| == 0 {
      assert lit + "*" == "*" && lit + w == w;
      StarMatchesLine(w);
    } else {
      assert '*' !in lit[1..] by { assert forall c | c in lit[1..] :: c in lit; }
      LiteralStarMatches(lit[1..], w);
      assert (lit + "*")[1..] == lit[1..] + "*";
      assert (lit + w)[1..] == lit[1..] + w;
    }
  }

  /** `*lit*` matches its own text, the outer `*`s standing for themselves. */
  lemma StarWrappedMatchesItself(lit: string)
    requires '*' !in lit
    ensures WildMatch("*" + lit + "*", "*" + lit + "*")
  {
    var p := "*" + lit + "*";
    LiteralStarMatches(lit, "*");
    assert p[1..] == lit + "*";
    assert WildMatch(p, lit + "*");
  }

  /** Whatever a pattern matches starts with the pattern's literal prefix. */
  lemma {:induction false} WildMatchPrefix(lit: string, rest: string, s: string)
    requires '*' !in lit && WildMatch(lit + rest, s)
    ensures StartsWith(s, lit)
    decreases |lit|
  {
    if |lit| > 0 {
      assert '*' !in lit[1..] by { assert forall c | c in lit[1..] :: c in lit; }
      assert (lit + rest)[0] == lit[0] && (lit + rest)[1..] == lit[1..] + rest;
      WildMatchPrefix(lit[1..], rest, s[1..]);
      assert s[..|lit|] == [s[0]] + s[1..][..|lit| - 1];
      assert lit == [lit[0]] + lit[1..];
    }
  }

  /** The same holds under Python's anchoring, which may add a final newline. */
  lemma PatternMatchesPrefix(lit: string, rest: string, s: string)
    requires '*' !in lit && PatternMatches(lit + rest, s)
    ensures StartsWith(s, lit)
  {
    if WildMatch(lit + rest, s) {
      WildMatchPrefix(lit, rest, s);
    } else {
      var t := s[..|s| - 1];
      WildMatchPrefix(lit, rest, t);
      assert t[..|lit|] == s[..|lit|];
    }
  }
}

=== FILE: wrappers.dfy ===
/** Failure-carrying values shared by the model: a Python `None`-or-value and a
    value-or-raised-exception. */
module Wrappers {

  datatype Option<+T> = None | Some(value: T) {

    /** The value, or `default` when there is none (Python's `dict.get(k, default)`). */
    function GetOr(default: T): T {
      match this
      case Some(v) => v
      case None => default
    }
  }

  /** `Failure` stands for a Python exception escaping the modelled call. */
  datatype Result<+R, +E> = Success(value: R) | Failure(error: E)
}
